=== FILE: README.md ===
# Requirements editor: the state behind the canvas

`requirements_app.py` is a Tkinter editor for requirement diagrams. On its
canvas the user places parent ("ust") and child ("alt") requirements, groups
and text boxes. Elements are organised in named layers, which can be hidden
and locked. A child is linked to a parent by dragging it onto the parent.
Collaboration features sit on top: comment threads, a review workflow, a
capped audit history with a filtered view and a CSV export, and a switchable
current user. Everything is saved to and loaded from `requirements.json`.

This project models the editor's in-memory state and the state changes
buried inside its UI handlers. The Tk application object becomes one
immutable `State` record (`Domain.State`), and every handler becomes a pure
function from a state and its inputs to the next state. Dialog answers are
`Option<string>` parameters: `None` is a cancelled dialog, and Python's
truthiness of the answer is `Domain.Given`. The clock reading
(`datetime.now().isoformat()`) is a `Timestamp` parameter.

Python dictionaries whose iteration order matters are `Dicts.Dict`: an
insertion-ordered key list plus a map. This covers requirements, links,
groups, text boxes and layers. Assigning to a new key appends it;
reassigning an existing key keeps its place.

Modules, in dependency order:

- `Options`: `Option` and `Result`.
- `Dicts`: ordered dictionaries.
- `Text`: `strip`, slicing, `split`, `join`, `str(int)` and `int(str)`.
- `Domain`: records, enums, the initial state.
- `History`: the capped audit log, its filtered view and its export.
- `Layers`: the layer registry and membership lists.
- `Store`: creation, resizing, layer changes, field edits, deleting groups and text boxes.
- `Linking`: drag-to-link.
- `Deletion`: the requirement delete cascade.
- `Ids`: label prefix, relabelling (as written and with a corrected counter), search, current user.
- `Comments`, `Workflow`: comments and reviews.
- `Persistence`: save and load.
- `LinkInvariants`: which handlers keep the link structure well formed across a session.

Several handlers are defined twice in the file, and Python keeps the later
definition. This applies to `edit_title`, `delete_requirement`, `save_data`
and `load_data`:

- `edit_title`: the effective, later version is modelled.
- `delete_requirement`: both versions are modelled, and a lemma shows they agree on everything but comments, reviews and history. Both stop with a `KeyError` partway through the link cleanup when a links list names the requirement under a parent that is not stored, because `update_child_list` (1936-1938) looks the parent up. The model follows them there too.
- `redraw_links` (1940-1967) looks up the registry entry of every linked requirement's layer (1948, 1962). A confirmed `delete_layer` (1123-1140) leaves requirements naming the removed layer, and the lookup then raises `KeyError`. Both deletion handlers call `redraw_links` before `update_layer_objects` (657-658, 2034-2035), so such a deletion leaves the layer lists as they were. `stop_drag` redraws after every link it makes (1934), so the same raise ends its loop after that link. `Linking.LinksDrawable` says when the redraw runs to the end, and the model stops at the raise in all three places.
- `save_data` and `load_data`: the program runs the later definitions (requirements_app.py:2311-2397). The model follows the earlier ones (662-774), which also carry the collaboration data. The two pairs differ as follows:
  - the later `save_data` writes no comments, reviews, history or current user (2312-2324);
  - the later `save_data` leaves `status_text_id` in the saved records (2328), while the earlier one strips it (683);
  - the later `load_data` assigns no comments, reviews, history or current user, so the editor keeps its own;
  - the later `load_data` fills in only a missing `layer` (2369-2377), not the status, author or dates;
  - the later `load_data` records no "Proje yüklendi" entry in the history.

Two behaviours of the code are easy to misread, and the model follows the code in both:

- The CSV export of the history writes its rows newest first, because it walks `reversed(self.history)` (requirements_app.py:554). `History.ExportHistory` states that order.
- `load_data` assigns the four converted stores one after another (requirements_app.py:701-704). A key that is not an integer in a later store aborts the load after earlier stores were already replaced. This is listed under Findings.

## Model

| member | source | states |
|---|---|---|
| History.AppendCapped | requirements_app.py:20-35 | the log gains the new entry last; it never exceeds 1000 entries; the result is the newest suffix of old log plus entry; below the cap it is exactly old log plus entry |
| History.EvictsOldest | requirements_app.py:31-35 | on a full log an append drops exactly the oldest entry and the length stays 1000 |
| History.AppendTwice | requirements_app.py:20-35 | two appends in a row leave both entries at the end, in order, even across the cap |
| History.AppendAllKeepsNewest | requirements_app.py:20-35 | any run of capped appends keeps exactly the newest 1000 of everything ever appended, in original order |
| History.Record | requirements_app.py:20-35 | recording stamps the entry with the current user and the given time, and changes nothing but the history |
| History.FilteredView | requirements_app.py:510-536 | the panel listing walks the log newest first and keeps entries passing both filters; it equals the reference filter over the reversed log |
| History.ViewContents | requirements_app.py:518-523 | with both filters set to "Tümü" the listing is the whole log reversed; otherwise an entry is listed iff it is in the log and matches both filters |
| History.FilteredMembers | requirements_app.py:518-523 | an entry passes the reference filter iff it is in the input and matches both filters |
| History.FilteredAll | requirements_app.py:519-522 | "Tümü" in both filters keeps every entry |
| History.ExportHistory | requirements_app.py:538-567 | the CSV export has one row per entry, the k-th row being the k-th newest entry |
| Comments.AddComment | requirements_app.py:38-88 | a non-requirement or an all-blank comment changes nothing; otherwise the stripped text is appended to the `req_N` thread with id thread length + 1, unresolved, every other thread is kept, and one COMMENT entry quoting at most 50 characters is recorded |
| Comments.AddCommentKeepsIds | requirements_app.py:67-88 | comment ids stay 1, 2, 3, ... in every thread, and other requirements' threads are unchanged |
| Comments.ResolveComment | requirements_app.py:163-171 | only the chosen comment changes: it becomes resolved by the current user at the given time; a missing comment changes nothing |
| Comments.ResolveCounts | requirements_app.py:163-167 | resolving keeps ids sequential and lowers the open count by one exactly when the comment was open |
| Comments.OpenAfterUpdate | requirements_app.py:165-167 | replacing one comment changes the open count only by that comment's own flag |
| Workflow.Reviewers | requirements_app.py:207 | the reviewer list has one more name than the text has commas; every name is stripped and comma-free |
| Workflow.ReviewersArePieces | requirements_app.py:207 | the i-th name is the stripped i-th piece of a comma-free split that joins back, with commas, to the typed text |
| Workflow.DeadlineOf | requirements_app.py:210-214 | a deadline exists iff the typed day count is an integer, and it is that many days after the request |
| Workflow.RequestReview | requirements_app.py:174-236 | a pending review replaces any earlier one under `req_N`, numbered one past the reviews on file; the requirement goes In Review with a new modification date; one REVIEW entry names the reviewers; status mirrors review |
| Workflow.Approve | requirements_app.py:345-364 | no review means no change; any review, even one already decided, becomes approved by the current user; a vanished requirement leaves only the review changed; otherwise the requirement becomes Approved with one APPROVE entry |
| Workflow.Reject | requirements_app.py:366-391 | an empty or cancelled reason, or no review, changes nothing; otherwise the review is rejected with the reason; an existing requirement becomes Rejected with one REJECT entry quoting the reason |
| Workflow.ChangeStatus | requirements_app.py:393-432 | choosing the current status changes nothing; another status is set with a new modification date and one MODIFY entry naming old and new status |
| Workflow.RequestIsLocal | requirements_app.py:206-236 | a review request keeps every other requirement record and every other review |
| Workflow.ApproveIsLocal | requirements_app.py:345-364 | approval keeps every other requirement record and every other review |
| Workflow.RejectIsLocal | requirements_app.py:366-391 | rejection keeps every other requirement record and every other review |
| Workflow.RequestThenReject | requirements_app.py:206-236 | request then reject with a reason leaves the requirement Rejected and the just-requested review rejected with that reason |
| Workflow.RequestThenRejectHistory | requirements_app.py:233-236 | the same two steps leave a REVIEW then a REJECT entry at the end of the log |
| Layers.UpdateLayerObjects | requirements_app.py:1145-1166 | every layer's list is rebuilt from the stores, with flags, colour and order kept; afterwards each element is listed once, in the layer it names, and nowhere else |
| Layers.MembersCount | requirements_app.py:1147-1164 | a rebuilt list holds each element naming the layer exactly once and nothing else |
| Layers.CurrentIsExact | requirements_app.py:1147-1164 | lists equal to a rebuild list each element exactly once, in its own layer |
| Layers.Listed | requirements_app.py:1147-1164 | under exact membership an element is in a layer's list iff it names that layer |
| Layers.UpdateCurrentIsIdentity | requirements_app.py:1145-1166 | rebuilding lists that are already current changes nothing |
| Layers.UpdateIdempotent | requirements_app.py:1145-1166 | rebuilding twice equals rebuilding once |
| Layers.MembersFrame | requirements_app.py:1147-1164 | membership lists depend only on the element keys and their `layer` fields |
| Layers.AddLayer | requirements_app.py:1111-1121 | an empty, cancelled or existing name changes nothing; a new name is appended as a visible, unlocked, black, empty layer |
| Layers.AddLayerCurrentIff | requirements_app.py:1111-1121 | the new empty list is current iff no element already names the new layer |
| Layers.DeleteLayer | requirements_app.py:1123-1140 | with at most one layer, or an empty, cancelled or unknown name, nothing changes; a non-empty layer without confirmation changes nothing; otherwise exactly that layer leaves the registry, the others keep their order and contents, and an active deleted layer is replaced by the first remaining one; a layer always remains |
| Layers.DeletionsKeepALayer | requirements_app.py:1124-1138 | no run of layer deletions leaves the editor without a layer |
| Layers.DeleteLayerKeepsLists | requirements_app.py:1123-1140 | deleting a layer keeps the other layers' lists current |
| Layers.SetLayerVisible | requirements_app.py:1073-1075 | only the named layer's visibility changes; an unknown name changes nothing |
| Layers.SetLayerLocked | requirements_app.py:1077-1078 | an unknown name changes nothing; otherwise only the named layer's lock flag changes, to the given flag, with the registry's order and every other layer record kept |
| Layers.ToggleVisibleKeepsLists | requirements_app.py:1073-1075 | toggling visibility keeps membership lists current |
| Layers.ToggleLockedKeepsLists | requirements_app.py:1077-1078 | toggling a lock keeps membership lists current |
| Layers.SetCurrentLayer | requirements_app.py:1070-1071 | a registered name becomes the active layer and nothing else changes |
| Store.CreateRequirement | requirements_app.py:1321-1351 | a locked active layer refuses; otherwise the next number gets a Draft labelled prefix + number, owned by the current user, on the active layer, green for parents and blue for children; the counter advances; lists are rebuilt; one CREATE entry is recorded |
| Store.CreateRequirementAdds | requirements_app.py:1321-1351 | with fresh counters a creation adds a new requirement, keeps every existing one and keeps the counters fresh |
| Store.CreateGroup | requirements_app.py:1399-1419 | a locked active layer refuses; otherwise a 300 x 200 light-yellow "Grup N" is added under the next group number and the counter advances |
| Store.CreateTextBox | requirements_app.py:1530-1550 | a locked active layer refuses; otherwise a 200 x 30 "Yeni Text Box" of font size 10 is added under the next text number |
| Store.CreateGroupAndTextAdd | requirements_app.py:1399-1419 | with fresh counters group and text creation add one element each and overwrite nothing |
| Store.AtLeast | requirements_app.py:1517-1519 | Python's `max(lo, v)` is at least both arguments and equals one of them |
| Store.ResizeGroupDrag | requirements_app.py:1497-1523 | a locked or missing group does not resize; otherwise only its size changes, to at least 100 x 80, and a requested size already above the minimum is taken as is |
| Store.ResizeGroupManual | requirements_app.py:2106-2146 | non-integer input, or a locked or missing group, changes nothing; otherwise the typed size is applied clamped to 100 x 80 |
| Store.ResizeTextDrag | requirements_app.py:1626-1652 | a locked or missing text box does not resize; otherwise only its size changes, to at least 50 x 20 |
| Store.ResizeTextManual | requirements_app.py:2148-2183 | non-integer input changes nothing; otherwise the typed size is applied clamped to 50 x 20 without consulting the lock |
| Store.CreationKeepsSizes | requirements_app.py:1399-1419 | creating any element keeps every group at least 100 x 80 and every text box at least 50 x 20 |
| Store.GroupResizeKeepsSizes | requirements_app.py:2135-2136 | both group resize paths keep every size at or above the minimum |
| Store.TextResizeKeepsSizes | requirements_app.py:2172-2173 | both text resize paths keep every size at or above the minimum |
| Store.ChangeReqLayer | requirements_app.py:1169-1180 | the chosen layer is assigned without consulting any lock and lists are rebuilt; a cancelled dialog changes nothing |
| Store.ChangeGroupLayer | requirements_app.py:1182-1193 | as for requirements, for a group |
| Store.ChangeTextLayer | requirements_app.py:1195-1206 | as for requirements, for a text box |
| Store.EditTitle | requirements_app.py:1986-1999 | number 0, a locked requirement, or an empty or cancelled answer changes nothing; otherwise only the title changes |
| Store.SetReqColor | requirements_app.py:2038-2070 | only the requirement's colour changes, unless its layer is locked |
| Store.SetGroupColor | requirements_app.py:2072-2104 | only the group's colour changes, unless its layer is locked |
| Store.EditGroupName | requirements_app.py:2208-2224 | only the group's name changes, unless locked or the answer is empty or cancelled |
| Store.EditTextContent | requirements_app.py:2242-2258 | only the text box's content changes, unless locked or the answer is empty or cancelled |
| Store.SetFontSize | requirements_app.py:2185-2206 | the dialog yields a size from 6 to 24 or nothing; a missing or locked text box, or a cancelled dialog, changes nothing; otherwise only that text box's font size becomes the chosen size |
| Store.FontSizesStayInRange | requirements_app.py:2198-2204 | text box creation (size 10) and font edits keep every font size between 6 and 24 |
| Store.RequirementEditsKeepLists | requirements_app.py:1986-2070 | title and colour edits keep membership lists current |
| Store.GroupEditsKeepLists | requirements_app.py:2072-2224 | group colour and name edits keep membership lists current |
| Store.GroupResizesKeepLists | requirements_app.py:2106-2146 | group resizes keep membership lists current |
| Store.TextEditsKeepLists | requirements_app.py:2185-2258 | content and font edits keep membership lists current |
| Store.TextResizesKeepLists | requirements_app.py:2148-2183 | text resizes keep membership lists current |
| Store.DeleteGroup | requirements_app.py:2226-2240 | a locked or missing group changes nothing; otherwise the group is removed and no layer lists it; the selection is untouched |
| Store.DeleteTextBox | requirements_app.py:2260-2274 | the same for text boxes |
| Linking.Drop | requirements_app.py:1925-1934 | a drop links only a child onto a different parent that does not list it yet, appending it once to the parent's children and to its links list; any other drop changes nothing |
| Linking.DropChangesIffLinkable | requirements_app.py:1925-1934 | a drop changes the state iff the link rule allows it |
| Linking.DropIdempotent | requirements_app.py:1928-1932 | dropping the same child on the same parent twice links it once |
| Linking.DropKeepsLinksWellFormed | requirements_app.py:1925-1934 | a drop keeps links duplicate-free, pointing at existing requirements and mirrored in the parent's children |
| Linking.RegisteredDrawable | requirements_app.py:1940-1967 | while every requirement names a registered layer, `redraw_links` runs to the end |
| Linking.DrawableAcrossRebuild | requirements_app.py:1145-1166 | rebuilding the membership lists does not change whether the links redraw |
| Linking.DropKeepsRegistered | requirements_app.py:1928-1932 | a drop changes no requirement's layer and no registry entry |
| Linking.DropAllRegistered | requirements_app.py:1925-1934 | while every requirement names a registered layer, the drop loop never stops early and makes every link the hits allow |
| Linking.DropAllStops | requirements_app.py:1925-1934 | a drop loop that ends early has just made a link and leaves links that cannot be redrawn |
| Linking.DropAllIsPrefix | requirements_app.py:1925-1934 | the drop loop gives the same state as the uninterrupted loop over some prefix of the hits |
| Linking.DropEveryOnlyAppends | requirements_app.py:1925-1934 | the uninterrupted loop keeps links well formed and the set of requirements, and at most appends the dragged child once to each list |
| Linking.DropAllOnlyAppends | requirements_app.py:1914-1934 | the whole drop loop, including one cut short by a failed redraw, keeps links well formed and at most appends the dragged child once to each list |
| Linking.DragRelease | requirements_app.py:1850-1934 | a missing, locked or selected requirement, or number 0, makes no link; otherwise the selection is cleared and the drop loop runs over the hit requirements, stopping after a link whose redraw meets an unregistered layer |
| Linking.DragReleaseKeepsLinksWellFormed | requirements_app.py:1850-1934 | press, drag and release keep the link structure well formed |
| Deletion.RemoveFirst | requirements_app.py:640-643 | `list.remove` drops one occurrence of a listed value and leaves other lists alone |
| Deletion.RemoveFirstDistinct | requirements_app.py:640-643 | on a duplicate-free list, after removal the value is gone, everything else is kept, and the list stays duplicate-free |
| Deletion.DeleteRequirement | requirements_app.py:610-659 | number 0, a locked requirement or no confirmation changes nothing; a parent naming it that is not stored stops the handler after the selection and the lists up to that parent; otherwise the requirement, its links entry, its selection entry, its thread and its review go, other links lists lose it, one DELETE entry quotes its title; the layer lists are rebuilt exactly when the links redraw, and are left as they were when the redraw raises |
| Deletion.FirstDangling | requirements_app.py:640-643 | the first position from a start, in links order, whose list names the number under a parent that is not stored, or none if there is no such position |
| Deletion.Dangling | requirements_app.py:640-643 | the cleanup loop raises exactly when some other requirement's list names the number and that parent is not stored, and it raises at the first such parent |
| Deletion.UnlinkThrough | requirements_app.py:640-643 | a loop stopped before a position has removed the first occurrence from each list it visited and left the later lists alone |
| Deletion.StoppedShrinks | requirements_app.py:636-643 | an interrupted deletion still drops the number's own links entry and its selection, and leaves every other list whole or short of one occurrence |
| Deletion.DeleteAborts | requirements_app.py:636-643 | when a parent naming the number is not stored, the requirement stays with its thread, review, layer lists and history; the lists up to and including that parent lose one occurrence, and the lists after it are untouched |
| Deletion.WellFormedParentsStored | requirements_app.py:1936-1938 | on well-formed links every parent is stored, so the cleanup loop runs to the end |
| Deletion.DropLinksShrink | requirements_app.py:636-643 | the complete cleanup drops the number's own entry and removes one occurrence from every other list, so a duplicate-free list no longer names it |
| Deletion.DeleteCascade | requirements_app.py:615-658 | a confirmed deletion always drops its own links entry and its selection and leaves every other list whole or short of one occurrence; when every parent is stored, no store, comment key or review key refers to the number afterwards, no layer list does once the links redraw, the layer lists are untouched when they do not, and every other list loses exactly one occurrence, so a list that named it once no longer does |
| Deletion.DeleteRebuildsWhenRegistered | requirements_app.py:655-658 | while every requirement names a registered layer, a completed deletion redraws the links and leaves exact membership lists |
| Deletion.DeleteThreads | requirements_app.py:645-650 | a deletion removes at most the number's own thread and review |
| Deletion.DeleteLeavesNoLink | requirements_app.py:636-643 | on well-formed links no links list names the deleted requirement afterwards |
| Deletion.DeleteKeepsOthers | requirements_app.py:655-656 | every other requirement record is unchanged |
| Deletion.DeleteKeepsOtherThreads | requirements_app.py:645-650 | every other requirement's comments and review are unchanged |
| Deletion.DeleteKeepsLinksWellFormed | requirements_app.py:640-643 | links stay well formed, while parents' own children lists still name the deleted requirement |
| Deletion.DeleteRequirementSimple | requirements_app.py:2011-2035 | the later definition has the same guards without confirmation, and stops at a parent that is not stored in the same way; otherwise it removes the requirement, its links entry and its selection, with no comment, review or history cleanup, and rebuilds the layer lists exactly when the links redraw |
| Deletion.DeleteVersionsAgree | requirements_app.py:610-659 | once confirmed, both definitions agree on everything but comments, reviews and history |
| Ids.SetPrefix | requirements_app.py:2295-2298 | an empty or cancelled prefix changes nothing; otherwise the prefix changes and nothing else does |
| Ids.ResetIds | requirements_app.py:2300-2308 | the j-th requirement in store order is relabelled prefix + (j+1) and retitled; numbers, order and every other field are kept; the counter becomes count + 1 |
| Ids.ResetLabels | requirements_app.py:2302-2306 | after a reset every label follows store position |
| Ids.ResetLabelsUnique | requirements_app.py:2300-2308 | after a reset no two requirements share a label |
| Ids.ResetThenCreateOverwrites | requirements_app.py:2300-2308 | after deleting requirement 1 of 2, a reset points the counter at 2, still in use, so the next creation replaces requirement 2 |
| Ids.ResetIdsFresh | requirements_app.py:2300-2308 | the relabelling of `reset_ids` with a counter above every stored number; it equals `reset_ids` whenever no number above the count is stored |
| Ids.ResetFreshKeepsCountersFresh | requirements_app.py:2300-2308 | the corrected reset keeps every counter above the numbers in use |
| Ids.ResetFreshThenCreateAdds | requirements_app.py:2300-2308 | after the corrected reset the counters are fresh and a creation adds a requirement, keeping every relabelled one |
| LinkInvariants.InitialLinksWellFormed | requirements_app.py:928-929 | a new editor's links are well formed |
| LinkInvariants.ResetKeepsLinksWellFormed | requirements_app.py:2300-2308 | relabelling keeps the links well formed |
| LinkInvariants.CreateKeepsLinksWellFormed | requirements_app.py:1321-1351 | with fresh counters a creation keeps the links well formed |
| LinkInvariants.RequirementEditsKeepLinksWellFormed | requirements_app.py:1169-1180 | title, colour and layer edits keep the links well formed |
| LinkInvariants.StatusChangesKeepLinksWellFormed | requirements_app.py:174-432 | review requests and status changes keep the links well formed |
| LinkInvariants.ReviewDecisionsKeepLinksWellFormed | requirements_app.py:345-391 | approvals and rejections keep the links well formed |
| LinkInvariants.ResetCreateDropDeleteLeavesLink | requirements_app.py:2300-2308 | from well-formed links, reset, create, drop and delete leave a links list naming the deleted requirement |
| LinkInvariants.ResetFreshSessionLeavesNoLink | requirements_app.py:2300-2308 | with the corrected reset, the same steps keep links well formed and a deletion leaves no link to the deleted requirement |
| Ids.FirstWithLabel | requirements_app.py:2286-2290 | reference search: the first position from the start whose label matches, or none if no label matches |
| Ids.SearchId | requirements_app.py:2282-2292 | the typed label is stripped and the first requirement carrying it is found, except that number 0 reports not found; it agrees with the reference search |
| Ids.ResetThenSearch | requirements_app.py:2282-2308 | after a reset, searching for a handed-out label finds its requirement when the prefix has no leading blank |
| Ids.SetCurrentUser | requirements_app.py:570-577 | an empty or cancelled name changes nothing; otherwise the user changes and one SYSTEM entry is recorded in the new user's name |
| Persistence.StripHandles | requirements_app.py:682-690 | saved records lose exactly the listed canvas keys and nothing else |
| Persistence.Save | requirements_app.py:662-694 | every key is written; the four integer-keyed stores keep their store order under decimal-text keys, and the links are the live lists under those keys; comments, reviews, history, user, layers, active layer, all three counters, prefix and zoom are copied |
| Persistence.SavedGroupAt | requirements_app.py:685-687 | the i-th saved group is the i-th live one under its number as text, without its canvas keys |
| Persistence.SavedTextBoxAt | requirements_app.py:688-690 | the i-th saved text box is the i-th live one under its number as text, without its canvas keys |
| Persistence.SavedRequirementAt | requirements_app.py:682-690 | the i-th saved requirement is the i-th live one under its number as text, with every field present and no canvas key |
| Persistence.IntKeyed | requirements_app.py:701-704 | a missing store reads as empty; conversion succeeds iff every key is an integer |
| Persistence.IntKeyedStringKeyed | requirements_app.py:701-704 | keys written by save read back as the same ordered dictionary |
| Persistence.FillRequirement | requirements_app.py:729-740 | a missing layer, status, author or date gets its default: Requirements, Draft, Unknown, now; filling keeps a record exactly as stored iff no such field is missing |
| Persistence.FillGroup | requirements_app.py:742-744 | a missing group layer defaults to Groups |
| Persistence.FillTextBox | requirements_app.py:745-747 | a missing text box layer defaults to Notes |
| Persistence.AssignSettings | requirements_app.py:706-727 | comments, reviews, history, user, the three counters and the prefix take the file's values or their defaults (empty, "Kullanıcı", 1, "R"); layers, active layer and zoom are replaced only when present; the stores and the selection are kept |
| Persistence.Load | requirements_app.py:696-774 | an unreadable file changes nothing; a failure changes at most the four stores; a completed load rebuilds lists and ends the history with one SYSTEM load entry in the loaded user's name |
| Persistence.LoadFailsIffBadKey | requirements_app.py:701-704 | a readable file fails to load iff one of the four stores has a key that is not an integer |
| Persistence.LoadPartiallyAssigns | requirements_app.py:701-704 | with good requirement keys and a bad links key the load fails, yet the file's requirements replace the editor's, in the file's order; a record carrying every field is held exactly as the file has it |
| Persistence.LoadPartialWitness | requirements_app.py:701-704 | requirements under "1" and links under "x": the load fails and the editor holds requirement 1 |
| Persistence.LoadAtomic | requirements_app.py:696-774 | a failed load leaves the editor exactly as it was |
| Persistence.LoadAtomicAgrees | requirements_app.py:696-774 | the atomic load fails on the same files with the same reason and otherwise gives the same result |
| Persistence.LoadEmptyDocument | requirements_app.py:706-727 | a file with no keys gives empty stores, default user, prefix and counters, and a history of one load entry, and keeps layers, active layer and zoom |
| Persistence.SaveLoadRoundTrip | requirements_app.py:662-774 | loading what was saved gives back the saved state without canvas handles, with the loading editor's selection, rebuilt lists and one load entry |
| Persistence.SaveLoadCurrent | requirements_app.py:662-774 | when lists were current, save then load changes nothing but handles, selection and the appended load entry |
| Text.Strip | requirements_app.py:68 | `str.strip()` is the slice between the leading and the trailing whitespace; it is empty iff the text is all whitespace |
| Text.Take | requirements_app.py:88 | `s[:n]` is the prefix of length min(n, len s) |
| Text.SplitJoin | requirements_app.py:207 | splitting on a character and joining with it again gives the input back |
| Text.ParseIntRoundTrip | requirements_app.py:701-704 | `int(str(i)) == i` |
| Text.IntToStringInjective | requirements_app.py:701-704 | different numbers are written as different key texts |
| Domain.Initial | requirements_app.py:777-967 | a new editor has the default layer registry with Requirements active, empty stores, threads, reviews, history and selection, all three counters at 1, prefix "R", the default user and zoom 1.0 |
| Domain.DefaultLayers | requirements_app.py:843-848 | Background, Groups, Requirements and Notes in that order, all visible, unlocked and empty, coloured lightgray, blue, green and orange |

## Left out

- The Tk user interface is not modelled: widgets, dialogs, menus, message boxes, canvas drawing and visibility refreshes, highlighting, zoom and pan, marquee selection, moving elements, hit-testing, and PDF and PNG export. These are rendering or pointer geometry, not state.
- The JSON text and the file are not modelled: `Persistence.Document` is the value `json.load` returns. The string forms of statuses, kinds and priorities are enum constructors.
- `datetime.now()` and `timedelta` are not modelled. Each handler takes one `Timestamp`, where the program may read the clock more than once. A deadline is the symbolic `DaysAfter(request time, days)`.
- Python's `int()` accepting underscores and non-ASCII digits is not modelled, and neither is a day count that overflows `timedelta`.
- Exceptions raised while the load redraws elements, for example for a layer name the registry lacks, are not modelled. A load that converts its four stores completes.
- The review record's `responses` list is not modelled; no handler modelled here reads or writes it.
- `save_data` removing handle keys from the live records as a side effect is not modelled: `Persistence.Save` is a pure copy. The saved dictionary holds the live records (664, 2313), and both definitions pop `rect`, `text_id`, `id_text_id` and `child_text_id` from them (683, 2328). Until a load redraws the elements, the program then raises `KeyError` where the model goes on:
  - `stop_drag` at the first other requirement's rectangle (1927), before any link is made;
  - a deletion of a linked child at `update_child_list` for the first parent (1938), with the selection and that parent's list already changed;
  - any deletion at `redraw_links` (1951) once a visible stored parent remains in the links, before the layer lists are rebuilt;
  - `reset_ids` after relabelling only the first requirement (2306), with the counter still at 1;
  - `edit_title` at its canvas update (1999), after the new title is stored, so its state still agrees with the model.
- The later `save_data` and `load_data` (requirements_app.py:2311-2397), which the program runs, are not modelled separately. The differences from the modelled earlier pair are listed at the top of this file.
- `edit_note` is not modelled; its detail-window counterpart is a text widget.
- The earlier, shadowed `edit_title` (requirements_app.py:579-597) is not modelled. It skipped an unchanged title, stamped a modification date and recorded a MODIFY "Başlık değişti" entry. The later definition (1986-1999), which the program runs, does none of these.
- Ctrl-click toggling of the selection is not modelled. It makes no link and touches only the selection.
- Deletion.DeleteCascade: the full cleanup is promised only when every parent naming the requirement is stored; otherwise the handler stops at the first parent that is not, and `Deletion.DeleteAborts` states what it leaves. A links list that names the deleted requirement twice keeps one occurrence, as `list.remove` does. That no list names it afterwards is proved only for well-formed links (`Deletion.DeleteLeavesNoLink`). Creation while the counters are fresh, relabelling, requirement edits, status changes, drops and deletion keep links well formed. A creation after `reset_ids` can find the counter on a stored number and break them (see Findings), and a load takes whatever links the file holds.
- Persistence.Load: a failed load keeps the file's raw requirement records, missing fields included, because the defaults are filled in only after all four stores converted (729-740). A `Domain.Requirement` cannot lack a field, so the model fills the defaults on that path too. For records carrying every field the two agree, and `Persistence.LoadPartiallyAssigns` states that such a record is held exactly as stored.
- Deletion.DeleteRequirement: the model stops the deletion when a parent naming the requirement is not stored, and skips the layer rebuild when the links cannot be redrawn for an unregistered layer name. It does not stop for a missing canvas handle. `update_child_list` raises when the parent has no `child_text_id` (1938), and `redraw_links` raises when a drawn parent or child has no `rect` (1951, 1965). Both happen after any save, which pops these handles from the live records (683, 2328). Canvas items are not modelled, and the model runs the cleanup and the rebuild to the end there.
- Undrawn elements in `redraw_links` are not modelled: `Linking.LinksDrawable` takes every stored parent on a visible layer to be drawn. `redraw_links` skips a parent or child whose rectangle has fewer than four coordinates (1952, 1966), and only a drawn parent's children are looked up. Canvas coordinates are not modelled.
- Store.SetFontSize: a size outside 6 to 24 is not accepted, because the integer dialog refuses it. The program's test for a falsy size therefore reduces to a cancelled dialog.

## Findings

| source | as written | input that shows it | evidently intended | confidence | as-written member | corrected member |
|---|---|---|---|---|---|---|
| requirements_app.py:2300-2308 | `reset_ids` sets the counter to the number of requirements plus one but keeps their numbers, so after a deletion the counter can name a requirement still stored; the next creation replaces it while its links entry stays | requirements 1 (a child) and 3 (a parent linking 1), counter 4: reset, create a parent, drop 1 onto 3, delete 1; `links[3]` still names 1 | a creation after a reset adds a requirement, and a deletion leaves no link to the deleted requirement | not executed | LinkInvariants.ResetCreateDropDeleteLeavesLink | LinkInvariants.ResetFreshSessionLeavesNoLink |
| requirements_app.py:696-774 | the integer-keyed stores are converted and assigned one at a time, so an error in a later store leaves earlier ones already replaced while the user is told the load failed | a file whose requirements are under key "1" and whose links are under key "x" | a failed load leaves the editor as it was | not executed | Persistence.LoadPartialWitness | Persistence.LoadAtomicAgrees |

=== FILE: comments.dfy ===
/** Comment threads attached to requirements: adding a comment and marking
    one resolved. A thread lives under the key `req_N` of its requirement. */
module Comments {
  import opened Options
  import opened Dicts
  import opened Text
  import opened Domain
  import opened History

  /** The thread filed under `key`, empty when there is none yet. */
  function Thread(st: State, key: string): seq<Comment> {
    if key in st.comments then st.comments[key] else []
  }

  /** How much of a comment the history entry quotes. */
  const PreviewLength: nat := 50

  /** Comment ids in every thread run 1, 2, 3, ... in thread order. */
  ghost predicate IdsSequential(st: State) {
    forall key, i :: key in st.comments && 0 <= i < |st.comments[key]| ==> st.comments[key][i].id == i + 1
  }

  /** `add_comment` + `save_comment`: the comment box is stripped; an empty
      comment is refused. Otherwise the comment is appended to the thread with
      the next id, unresolved, and one COMMENT entry quoting at most the first
      50 characters is recorded. Commenting on a number that is not a
      requirement fails before the dialog opens. */
  function AddComment(st: State, num: int, raw: string, priority: Priority, now: Timestamp): (r: State)
    ensures num !in st.requirements.items || AllSpace(raw) ==> r == st
    ensures num in st.requirements.items && !AllSpace(raw) ==>
      var key := ReqKey(num);
      && r == st.(comments := r.comments, history := r.history)
      && key in r.comments
      && r.comments[key] == Thread(st, key) + [Comment(|Thread(st, key)| + 1, st.currentUser, now, Strip(raw), priority, false, None, None)]
      && r.comments - {key} == st.comments - {key}
      && r.history == AppendCapped(st.history, HistoryEntry(now, st.currentUser, CommentAdded, RequirementObject,
                                                            IntToString(num), "Yorum eklendi: " + Take(Strip(raw), PreviewLength) + "...", map[]))
  {
    var content := Strip(raw);
    if num !in st.requirements.items || content == "" then st
    else
      var key := ReqKey(num);
      var thread := Thread(st, key);
      var c := Comment(|thread| + 1, st.currentUser, now, content, priority, false, None, None);
      var st1 := st.(comments := st.comments[key := thread + [c]]);
      Record(st1, CommentAdded, RequirementObject, IntToString(num), "Yorum eklendi: " + Take(content, PreviewLength) + "...", now)
  }

  /** Adding a comment keeps every thread's ids sequential, and the threads
      of all other requirements are untouched. */
  lemma AddCommentKeepsIds(st: State, num: int, raw: string, priority: Priority, now: Timestamp)
    requires IdsSequential(st)
    ensures IdsSequential(AddComment(st, num, raw, priority, now))
    ensures forall m :: m != num ==> Thread(AddComment(st, num, raw, priority, now), ReqKey(m)) == Thread(st, ReqKey(m))
  {
    var r := AddComment(st, num, raw, priority, now);
    var key := ReqKey(num);
    if num in st.requirements.items && !AllSpace(raw) {
      var thread := Thread(st, key);
      forall k, i | k in r.comments && 0 <= i < |r.comments[k]| ensures r.comments[k][i].id == i + 1 {
        if k != key {
          assert k in (r.comments - {key}) && r.comments[k] == st.comments[k];
        } else if i < |thread| {
          assert r.comments[k][i] == thread[i];
        }
      }
    }
    forall m | m != num ensures Thread(r, ReqKey(m)) == Thread(st, ReqKey(m)) {
      if ReqKey(m) == key {
        ReqKeyInjective(m, num);
      }
      if num in st.requirements.items && !AllSpace(raw) {
        assert ReqKey(m) in r.comments <==> ReqKey(m) in (r.comments - {key});
      }
    }
  }

  /** Number of unresolved comments in a thread. */
  function Open(thread: seq<Comment>): (n: nat)
    ensures n <= |thread|
  {
    if |thread| == 0 then 0 else Open(thread[..|thread| - 1]) + (if thread[|thread| - 1].resolved then 0 else 1)
  }

  /** `resolve_comment`: the comment at position `index` of the thread under
      `key` is marked resolved by the current user at `now`; its text, author,
      priority and id are kept. No history entry is recorded and no lock is
      consulted. A comment that does not exist changes nothing. */
  function ResolveComment(st: State, key: string, index: int, now: Timestamp): (r: State)
    ensures key !in st.comments || !(0 <= index < |st.comments[key]|) ==> r == st
    ensures key in st.comments && 0 <= index < |st.comments[key]| ==>
      var old_ := st.comments[key][index];
      && r == st.(comments := r.comments)
      && key in r.comments && |r.comments[key]| == |st.comments[key]|
      && r.comments[key][index] == old_.(resolved := true, resolvedBy := Some(st.currentUser), resolvedDate := Some(now))
      && (forall i :: 0 <= i < |st.comments[key]| && i != index ==> r.comments[key][i] == st.comments[key][i])
      && r.comments - {key} == st.comments - {key}
  {
    if key in st.comments && 0 <= index < |st.comments[key]| then
      var thread := st.comments[key];
      var c := thread[index];
      st.(comments := st.comments[key := thread[index := c.(resolved := true, resolvedBy := Some(st.currentUser), resolvedDate := Some(now))]])
    else st
  }

  /** Marking a comment resolved changes one entry's flag only. */
  lemma {:induction false} OpenAfterUpdate(thread: seq<Comment>, index: nat, c: Comment)
    requires index < |thread|
    ensures Open(thread[index := c]) ==
      Open(thread) - (if thread[index].resolved then 0 else 1) + (if c.resolved then 0 else 1)
    decreases |thread|
  {
    var n := |thread|;
    var t := thread[index := c];
    assert t[..n - 1] == if index < n - 1 then thread[..n - 1][index := c] else thread[..n - 1];
    if index < n - 1 {
      OpenAfterUpdate(thread[..n - 1], index, c);
    }
  }

  /** Resolving keeps ids sequential and closes exactly one open comment when
      the comment was still open (resolving it again changes no count). */
  lemma ResolveCounts(st: State, key: string, index: int, now: Timestamp)
    requires IdsSequential(st)
    requires key in st.comments && 0 <= index < |st.comments[key]|
    ensures IdsSequential(ResolveComment(st, key, index, now))
    ensures Open(ResolveComment(st, key, index, now).comments[key]) ==
      Open(st.comments[key]) - (if st.comments[key][index].resolved then 0 else 1)
  {
    var thread := st.comments[key];
    var c := thread[index];
    OpenAfterUpdate(thread, index, c.(resolved := true, resolvedBy := Some(st.currentUser), resolvedDate := Some(now)));
  }
}

=== FILE: deletion.dfy ===
/** Deleting a requirement and everything that hangs off it: its selection
    entry, its own links entry, its place in other requirements' links
    lists, its comment thread and its review. Two definitions of the handler
    exist in the program; both are modelled. */
module Deletion {
  import opened Options
  import opened Dicts
  import opened Text
  import opened Domain
  import opened History
  import opened Layers
  import opened Store
  import opened Linking

  /** Python `list.remove(x)` on a list known to hold `x`, and the list
      itself otherwise: the first occurrence of `x` is dropped. */
  function RemoveFirst(s: seq<int>, x: int): (r: seq<int>)
    ensures x !in s ==> r == s
    ensures x in s ==> |r| == |s| - 1
    ensures multiset(r) == multiset(s) - multiset{x}
  {
    if |s| == 0 then []
    else
      assert s == [s[0]] + s[1..];
      if s[0] == x then s[1..] else [s[0]] + RemoveFirst(s[1..], x)
  }

  /** On a duplicate-free list the first occurrence is the only one. */
  lemma {:induction false} RemoveFirstDistinct(s: seq<int>, x: int)
    requires Distinct(s)
    ensures x !in RemoveFirst(s, x)
    ensures Distinct(RemoveFirst(s, x))
    ensures forall y :: y != x ==> (y in RemoveFirst(s, x) <==> y in s)
  {
    if |s| > 0 {
      var rest := s[1..];
      assert Distinct(rest) by {
        forall i, j | 0 <= i < j < |rest| ensures rest[i] != rest[j] {
          assert rest[i] == s[i + 1] && rest[j] == s[j + 1];
        }
      }
      assert s[0] !in rest by {
        forall j | 0 <= j < |rest| ensures rest[j] != s[0] {
          assert rest[j] == s[j + 1];
        }
      }
      RemoveFirstDistinct(rest, x);
      if s[0] != x {
        var r := RemoveFirst(rest, x);
        assert RemoveFirst(s, x) == [s[0]] + r;
        assert s[0] !in r;
        assert Distinct([s[0]] + r) by {
          forall i, j | 0 <= i < j < |r| + 1 ensures ([s[0]] + r)[i] != ([s[0]] + r)[j] {
            if i > 0 {
              assert ([s[0]] + r)[i] == r[i - 1];
            }
          }
        }
      }
    }
  }

  /** The loop over `links`: every list that holds `num` loses it once. */
  function Unlink(links: Dict<int, seq<int>>, num: int): (r: Dict<int, seq<int>>)
    ensures r.keys == links.keys
    ensures forall p :: p in links.items ==> p in r.items && r.items[p] == RemoveFirst(links.items[p], num)
  {
    MapValues(links, (p: int, l: seq<int>) => if num in l then RemoveFirst(l, num) else l)
  }

  /** `r` holds the lists of `links`, those before position `upto` short
      of their first `num` and the rest untouched. */
  predicate UnlinkedBefore(r: Dict<int, seq<int>>, links: Dict<int, seq<int>>, num: int, upto: nat) {
    && r.keys == links.keys
    && forall j :: 0 <= j < |links.keys| ==>
         r.items[links.keys[j]] == if j < upto then RemoveFirst(links.items[links.keys[j]], num) else links.items[links.keys[j]]
  }

  /** The loop over `links`, stopped after position `upto - 1`. */
  function UnlinkThrough(links: Dict<int, seq<int>>, num: int, upto: nat): (r: Dict<int, seq<int>>)
    ensures UnlinkedBefore(r, links, num, upto)
  {
    var visited := set j | 0 <= j < |links.keys| && j < upto :: links.keys[j];
    MapValues(links, (p: int, l: seq<int>) => if p in visited then RemoveFirst(l, num) else l)
  }

  /** `update_child_list(pid)` reads `self.requirements[pid]`, so the loop
      raises `KeyError` at a position whose list names `num` under a parent
      that is not a stored requirement. */
  predicate Dangles(st: State, links: Dict<int, seq<int>>, num: int, i: int) {
    0 <= i < |links.keys| && num in links.items[links.keys[i]] && links.keys[i] !in st.requirements.items
  }

  /** The first such position from `from` on, in the order
      `list(self.links.keys())` visits them. */
  function FirstDangling(st: State, links: Dict<int, seq<int>>, num: int, from: nat): (i: Option<nat>)
    requires from <= |links.keys|
    ensures i.Some? ==> from <= i.value && Dangles(st, links, num, i.value)
    ensures i.Some? ==> forall j :: from <= j < i.value ==> !Dangles(st, links, num, j)
    ensures i.None? ==> forall j :: from <= j < |links.keys| ==> !Dangles(st, links, num, j)
    decreases |links.keys| - from
  {
    if from == |links.keys| then None
    else if Dangles(st, links, num, from) then Some(from)
    else FirstDangling(st, links, num, from + 1)
  }

  /** Every other requirement whose links list names `num` is stored, so
      the cleanup loop of a deletion runs to the end. */
  predicate ParentsStored(st: State, num: int) {
    forall p :: p in st.links.items && p != num && num in st.links.items[p] ==> p in st.requirements.items
  }

  /** Where the cleanup loop of a deletion of `num` raises, if it does: it
      runs to the end exactly when every parent naming `num` is stored. */
  function Dangling(st: State, num: int): (i: Option<nat>)
    ensures i.None? <==> ParentsStored(st, num)
    ensures i.Some? ==> Dangles(st, Remove(st.links, num), num, i.value)
    ensures i.Some? ==> forall j :: 0 <= j < i.value ==> !Dangles(st, Remove(st.links, num), num, j)
  {
    var links := Remove(st.links, num);
    var i := FirstDangling(st, links, num, 0);
    assert i.None? ==> ParentsStored(st, num) by {
      if i.None? {
        forall p | p in st.links.items && p != num && num in st.links.items[p] ensures p in st.requirements.items {
          assert p in links.items;
          var j :| 0 <= j < |links.keys| && links.keys[j] == p;
          assert !Dangles(st, links, num, j);
        }
      }
    }
    assert i.Some? ==> !ParentsStored(st, num) by {
      if i.Some? {
        var p := links.keys[i.value];
        assert p in links.items && links.items[p] == st.links.items[p];
      }
    }
    i
  }

  /** The state the handler leaves when the loop raises at position `i`:
      only the selection and the lists it visited have changed. */
  function Stopped(st: State, num: int, i: nat): (r: State)
    ensures r == st.(selected := r.selected, links := r.links)
    ensures r.selected == st.selected - {ObjRef(Req, num)}
    ensures r.links == UnlinkThrough(Remove(st.links, num), num, i + 1)
  {
    st.(selected := st.selected - {ObjRef(Req, num)}, links := UnlinkThrough(Remove(st.links, num), num, i + 1))
  }

  /** A stopped loop leaves no list under the number itself, and every
      other list as it was or short of its first occurrence of the number. */
  lemma StoppedShrinks(st: State, num: int, i: nat)
    ensures var r := Stopped(st, num, i);
      && num !in r.links.items && ObjRef(Req, num) !in r.selected
      && forall p :: p in r.links.items ==>
           p in st.links.items && (r.links.items[p] == st.links.items[p] || r.links.items[p] == RemoveFirst(st.links.items[p], num))
  {
    var links := Remove(st.links, num);
    var r := Stopped(st, num, i);
    forall p | p in r.links.items
      ensures p in st.links.items && (r.links.items[p] == st.links.items[p] || r.links.items[p] == RemoveFirst(st.links.items[p], num))
    {
      var j :| 0 <= j < |links.keys| && links.keys[j] == p;
    }
  }

  /** Well-formed links only name stored parents. */
  lemma WellFormedParentsStored(st: State, num: int)
    requires LinksWellFormed(st)
    ensures ParentsStored(st, num)
  {
  }

  /** The guards both definitions share: number 0 is ignored and a
      requirement on a locked layer is refused. */
  predicate Deletable(st: State, num: int) {
    num != 0 && num in st.requirements.items && !ReqLocked(st, num)
  }

  /** The link cleanup both definitions share. */
  function DropLinks(st: State, num: int): (r: Dict<int, seq<int>>)
    ensures num !in r.items
    ensures r.items.Keys == st.links.items.Keys - {num}
    ensures forall p :: p in r.items ==> r.items[p] == RemoveFirst(st.links.items[p], num)
  {
    Unlink(Remove(st.links, num), num)
  }

  /** `delete_requirement` with confirmation and collaboration cleanup: after
      the guards and the user's confirmation, the requirement leaves the
      selection, its links entry goes, every other links list loses it, its
      comments and review are dropped, one DELETE entry quoting its title is
      recorded, and layer lists are rebuilt. The parents' `children` lists
      are not cleaned. When a list names it under a parent that is not
      stored, the loop raises at that parent and the handler stops there:
      the selection and the lists visited so far have changed, nothing else. */
  function DeleteRequirement(st: State, num: int, confirmed: bool, now: Timestamp): (r: State)
    ensures !Deletable(st, num) || !confirmed ==> r == st
    ensures Deletable(st, num) && confirmed && !ParentsStored(st, num) ==>
      r == Stopped(st, num, Dangling(st, num).value)
    ensures Deletable(st, num) && confirmed && ParentsStored(st, num) ==>
      && r == st.(requirements := r.requirements, links := r.links, comments := r.comments, reviews := r.reviews,
                  history := r.history, selected := r.selected, layers := r.layers)
      && r.requirements.items == st.requirements.items - {num}
      && r.requirements.keys == Without(st.requirements.keys, num)
      && r.links == DropLinks(st, num)
      && r.comments == st.comments - {ReqKey(num)}
      && r.reviews == st.reviews - {ReqKey(num)}
      && r.selected == st.selected - {ObjRef(Req, num)}
      && r.history == AppendCapped(st.history, HistoryEntry(now, st.currentUser, Delete, RequirementObject, IntToString(num),
                                                            "Gereksinim silindi: " + st.requirements.items[num].text, map[]))
      && (LinksDrawable(r) ==> MembershipExact(r))
      && (!LinksDrawable(r) ==> r.layers == st.layers)
  {
    if !Deletable(st, num) || !confirmed then st
    else if Dangling(st, num).Some? then
      Stopped(st, num, Dangling(st, num).value)
    else
      var key := ReqKey(num);
      var st1 := st.(selected := st.selected - {ObjRef(Req, num)}, links := DropLinks(st, num),
                     comments := st.comments - {key}, reviews := st.reviews - {key});
      var st2 := Record(st1, Delete, RequirementObject, IntToString(num), "Gereksinim silindi: " + st.requirements.items[num].text, now);
      var st3 := st2.(requirements := Remove(st2.requirements, num));
      if LinksDrawable(st3) then DrawableAcrossRebuild(st3); UpdateLayerObjects(st3) else st3
  }

  /** A confirmed deletion always drops the number's own links entry and
      its selection, and leaves every other list as it was or short of one
      occurrence of the number. When every parent is stored, the number is
      gone from the stores, every layer list, the comment threads and the
      reviews, and every other links list loses one occurrence of it, so a
      list that named it once no longer names it; a list that named it
      twice still does. */
  lemma DeleteCascade(st: State, num: int, now: Timestamp)
    requires Deletable(st, num)
    ensures var r := DeleteRequirement(st, num, true, now);
      && num !in r.links.items
      && ObjRef(Req, num) !in r.selected
      && (forall p :: p in r.links.items ==>
            p in st.links.items && (r.links.items[p] == st.links.items[p] || r.links.items[p] == RemoveFirst(st.links.items[p], num)))
    ensures ParentsStored(st, num) ==> var r := DeleteRequirement(st, num, true, now);
      && num !in r.requirements.items
      && (forall p :: p in r.links.items ==>
            && p in st.links.items
            && (num in st.links.items[p] ==> multiset(r.links.items[p])[num] == multiset(st.links.items[p])[num] - 1)
            && (num !in st.links.items[p] ==> num !in r.links.items[p])
            && (Distinct(st.links.items[p]) ==> num !in r.links.items[p]))
      && ReqKey(num) !in r.comments && ReqKey(num) !in r.reviews
      && (LinksDrawable(r) ==> forall name :: name in r.layers.items ==> ObjRef(Req, num) !in r.layers.items[name].objects)
      && (!LinksDrawable(r) ==> r.layers == st.layers)
  {
    if ParentsStored(st, num) {
      CascadeComplete(st, num, now);
    } else {
      StoppedShrinks(st, num, Dangling(st, num).value);
    }
  }

  /** The complete link cleanup: every remaining list loses one occurrence
      of the number, so a duplicate-free list no longer names it. */
  lemma DropLinksShrink(st: State, num: int)
    ensures var l := DropLinks(st, num);
      forall p :: p in l.items ==>
        && p in st.links.items
        && l.items[p] == RemoveFirst(st.links.items[p], num)
        && (num in st.links.items[p] ==> multiset(l.items[p])[num] == multiset(st.links.items[p])[num] - 1)
        && (num !in st.links.items[p] ==> num !in l.items[p])
        && (Distinct(st.links.items[p]) ==> num !in l.items[p])
  {
    var l := DropLinks(st, num);
    forall p | p in l.items && Distinct(st.links.items[p]) ensures num !in l.items[p] {
      RemoveFirstDistinct(st.links.items[p], num);
    }
  }

  /** The cleanup once the loop has run to the end. */
  lemma CascadeComplete(st: State, num: int, now: Timestamp)
    requires Deletable(st, num) && ParentsStored(st, num)
    ensures var r := DeleteRequirement(st, num, true, now);
      && num !in r.links.items
      && ObjRef(Req, num) !in r.selected
      && (forall p :: p in r.links.items ==>
            p in st.links.items && (r.links.items[p] == st.links.items[p] || r.links.items[p] == RemoveFirst(st.links.items[p], num)))
    ensures var r := DeleteRequirement(st, num, true, now);
      && num !in r.requirements.items
      && (forall p :: p in r.links.items ==>
            && p in st.links.items
            && (num in st.links.items[p] ==> multiset(r.links.items[p])[num] == multiset(st.links.items[p])[num] - 1)
            && (num !in st.links.items[p] ==> num !in r.links.items[p])
            && (Distinct(st.links.items[p]) ==> num !in r.links.items[p]))
      && ReqKey(num) !in r.comments && ReqKey(num) !in r.reviews
      && (LinksDrawable(r) ==> forall name :: name in r.layers.items ==> ObjRef(Req, num) !in r.layers.items[name].objects)
      && (!LinksDrawable(r) ==> r.layers == st.layers)
  {
    var r := DeleteRequirement(st, num, true, now);
    DropLinksShrink(st, num);
    forall name | LinksDrawable(r) && name in r.layers.items ensures ObjRef(Req, num) !in r.layers.items[name].objects {
      Listed(r, name, ObjRef(Req, num));
    }
  }

  /** While every requirement names a registered layer, a completed
      deletion redraws the links and rebuilds exact membership lists. */
  lemma DeleteRebuildsWhenRegistered(st: State, num: int, now: Timestamp)
    requires Deletable(st, num) && ParentsStored(st, num) && LayersRegistered(st)
    ensures var r := DeleteRequirement(st, num, true, now);
      LinksDrawable(r) && MembershipExact(r)
  {
    var r := DeleteRequirement(st, num, true, now);
    var preA := Cleaned(st, num).(comments := r.comments, reviews := r.reviews, history := r.history);
    CompleteFromCleaned(st, num, now);
    assert LayersRegistered(preA) by {
      assert preA.layers == st.layers;
      assert preA.requirements.items == st.requirements.items - {num};
    }
    RegisteredDrawable(preA);
  }

  /** When a list names the number under a parent that is not stored, the
      deletion stops at that parent: the requirement stays in the stores with
      its comments, review and layer entries, nothing is recorded, the lists
      before and at that parent have lost one occurrence of the number, and
      the lists after it are untouched. */
  lemma DeleteAborts(st: State, num: int, now: Timestamp)
    requires Deletable(st, num) && !ParentsStored(st, num)
    ensures var r := DeleteRequirement(st, num, true, now);
      && num in r.requirements.items
      && r.requirements == st.requirements && r.comments == st.comments && r.reviews == st.reviews
      && r.history == st.history && r.layers == st.layers
    ensures var r := DeleteRequirement(st, num, true, now);
      var links := Remove(st.links, num);
      var i := Dangling(st, num).value;
      && i < |links.keys| && links.keys[i] !in st.requirements.items && num in links.items[links.keys[i]]
      && UnlinkedBefore(r.links, links, num, i + 1)
  {
    var i := Dangling(st, num).value;
    assert DeleteRequirement(st, num, true, now) == Stopped(st, num, i);
  }

  /** On well-formed links, where every list names a requirement at most
      once, no links list names the deleted requirement afterwards. */
  lemma DeleteLeavesNoLink(st: State, num: int, now: Timestamp)
    requires Deletable(st, num)
    requires LinksWellFormed(st)
    ensures var r := DeleteRequirement(st, num, true, now);
      forall p :: p in r.links.items ==> num !in r.links.items[p]
  {
    DeleteCascade(st, num, now);
  }

  /** A deletion keeps every other requirement as it was. */
  lemma DeleteKeepsOthers(st: State, num: int, now: Timestamp, m: int)
    requires Deletable(st, num) && m != num && m in st.requirements.items
    ensures var r := DeleteRequirement(st, num, true, now);
      m in r.requirements.items && r.requirements.items[m] == st.requirements.items[m]
  {
  }

  /** ... and every other requirement's comment thread and review. */
  lemma DeleteKeepsOtherThreads(st: State, num: int, now: Timestamp, m: int)
    requires Deletable(st, num) && m != num
    ensures var r := DeleteRequirement(st, num, true, now);
      && (ReqKey(m) in st.comments ==> ReqKey(m) in r.comments && r.comments[ReqKey(m)] == st.comments[ReqKey(m)])
      && (ReqKey(m) in st.reviews ==> ReqKey(m) in r.reviews && r.reviews[ReqKey(m)] == st.reviews[ReqKey(m)])
  {
    DeleteThreads(st, num, now);
    if ReqKey(m) == ReqKey(num) {
      ReqKeyInjective(m, num);
    }
  }

  /** A deletion drops at most the number's own thread and review. */
  lemma DeleteThreads(st: State, num: int, now: Timestamp)
    requires Deletable(st, num)
    ensures var r := DeleteRequirement(st, num, true, now);
      && (r.comments == st.comments - {ReqKey(num)} || r.comments == st.comments)
      && (r.reviews == st.reviews - {ReqKey(num)} || r.reviews == st.reviews)
  {
    if !ParentsStored(st, num) {
      DeleteAborts(st, num, now);
    }
  }

  /** A deletion keeps the link structure well formed. The parents' own
      `children` lists still name the deleted requirement. */
  lemma DeleteKeepsLinksWellFormed(st: State, num: int, now: Timestamp)
    requires Deletable(st, num)
    requires LinksWellFormed(st)
    ensures var r := DeleteRequirement(st, num, true, now);
      && LinksWellFormed(r)
      && (forall p :: p in st.links.items && p != num && num in st.links.items[p] ==> num in r.requirements.items[p].children)
  {
    var r := DeleteRequirement(st, num, true, now);
    forall p | p in r.links.items ensures Distinct(r.links.items[p]) {
      RemoveFirstDistinct(st.links.items[p], num);
    }
    forall p, c | p in r.links.items && c in r.links.items[p]
      ensures c in r.requirements.items && c in r.requirements.items[p].children
    {
      RemoveFirstDistinct(st.links.items[p], num);
    }
  }

  /** The other definition of `delete_requirement` (the one the program
      ends up calling): same guards but no confirmation, and no comment,
      review or history cleanup. It stops at a parent that is not stored
      just as the other one does. */
  function DeleteRequirementSimple(st: State, num: int): (r: State)
    ensures !Deletable(st, num) ==> r == st
    ensures Deletable(st, num) && !ParentsStored(st, num) ==>
      r == Stopped(st, num, Dangling(st, num).value)
    ensures Deletable(st, num) && ParentsStored(st, num) ==>
      && r == st.(requirements := r.requirements, links := r.links, selected := r.selected, layers := r.layers)
      && r.requirements.items == st.requirements.items - {num}
      && r.links == DropLinks(st, num)
      && r.selected == st.selected - {ObjRef(Req, num)}
      && (LinksDrawable(r) ==> MembershipExact(r))
      && (!LinksDrawable(r) ==> r.layers == st.layers)
  {
    if !Deletable(st, num) then st
    else if Dangling(st, num).Some? then
      Stopped(st, num, Dangling(st, num).value)
    else
      var st1 := st.(selected := st.selected - {ObjRef(Req, num)}, links := DropLinks(st, num),
                     requirements := Remove(st.requirements, num));
      if LinksDrawable(st1) then DrawableAcrossRebuild(st1); UpdateLayerObjects(st1) else st1
  }

  /** Once confirmed, both definitions agree on requirements, links,
      selection and layers; they differ only in comments, reviews and history. */
  lemma DeleteVersionsAgree(st: State, num: int, now: Timestamp)
    ensures var a := DeleteRequirement(st, num, true, now);
            var b := DeleteRequirementSimple(st, num);
      && a.requirements == b.requirements
      && a.links == b.links
      && a.selected == b.selected
      && a.layers == b.layers
      && a == b.(comments := a.comments, reviews := a.reviews, history := a.history)
  {
    if Deletable(st, num) && ParentsStored(st, num) {
      CompleteVersionsAgree(st, num, now);
    }
  }

  /** The same, once the cleanup loop has run to the end: both handlers
      reach the same requirements, links and selection and then redraw. */
  lemma CompleteVersionsAgree(st: State, num: int, now: Timestamp)
    requires Deletable(st, num) && ParentsStored(st, num)
    ensures var a := DeleteRequirement(st, num, true, now);
            var b := DeleteRequirementSimple(st, num);
      a == b.(comments := a.comments, reviews := a.reviews, history := a.history)
  {
    var a := DeleteRequirement(st, num, true, now);
    var pre := Cleaned(st, num);
    var preA := pre.(comments := a.comments, reviews := a.reviews, history := a.history);
    CompleteFromCleaned(st, num, now);
    SimpleFromCleaned(st, num);
    assert LinksDrawable(preA) == LinksDrawable(pre);
  }

  /** Both handlers' state once the cleanup loop has run and the record is
      removed, before the layer lists are rebuilt. */
  function Cleaned(st: State, num: int): State {
    st.(selected := st.selected - {ObjRef(Req, num)}, links := DropLinks(st, num),
        requirements := Remove(st.requirements, num))
  }

  lemma CompleteFromCleaned(st: State, num: int, now: Timestamp)
    requires Deletable(st, num) && ParentsStored(st, num)
    ensures var a := DeleteRequirement(st, num, true, now);
      var preA := Cleaned(st, num).(comments := a.comments, reviews := a.reviews, history := a.history);
      a == if LinksDrawable(preA) then UpdateLayerObjects(preA) else preA
  {}

  lemma SimpleFromCleaned(st: State, num: int)
    requires Deletable(st, num) && ParentsStored(st, num)
    ensures var b := DeleteRequirementSimple(st, num);
      b == if LinksDrawable(Cleaned(st, num)) then UpdateLayerObjects(Cleaned(st, num)) else Cleaned(st, num)
  {}
}

=== FILE: dicts.dfy ===
/** Insertion-ordered dictionaries, the way Python's `dict` behaves: assigning
    to a new key appends it, assigning to an existing key keeps its place,
    deleting a key closes the gap, and iteration follows that order. The
    editor depends on this order (label resequencing, layer membership lists,
    "first remaining layer"). */
module Dicts {

  datatype RawDict<K(==,!new), V> = RawDict(keys: seq<K>, items: map<K, V>) {
    /** Keys are listed once each, and exactly the keys of `items` are listed. */
    predicate Valid() {
      && (forall i, j :: 0 <= i < j < |keys| ==> keys[i] != keys[j])
      && (forall k :: k in items ==> k in keys)
      && (forall k :: k in keys ==> k in items)
    }
  }

  type Dict<K(==,!new), V> = d: RawDict<K, V> | d.Valid() witness RawDict([], map[])

  function Empty<K(==,!new), V>(): (r: Dict<K, V>)
    ensures r.keys == [] && r.items == map[]
  {
    RawDict([], map[])
  }

  /** Number of entries, `len(d)`. */
  function Len<K(==,!new), V>(d: Dict<K, V>): nat {
    |d.keys|
  }

  predicate Distinct<K(==,!new)>(s: seq<K>) {
    forall i, j :: 0 <= i < j < |s| ==> s[i] != s[j]
  }

  /** `d[k] = v`: a new key goes to the end, an existing key keeps its place. */
  function Put<K(==,!new), V>(d: Dict<K, V>, k: K, v: V): (r: Dict<K, V>)
    ensures r.items == d.items[k := v]
    ensures k in d.items ==> r.keys == d.keys
    ensures k !in d.items ==> r.keys == d.keys + [k]
  {
    if k in d.items then RawDict(d.keys, d.items[k := v])
    else RawDict(d.keys + [k], d.items[k := v])
  }

  /** `s` with every occurrence of `k` left out, the rest in order. */
  function Without<K(==,!new)>(s: seq<K>, k: K): (r: seq<K>)
    ensures k !in r
    ensures forall x :: x != k ==> (x in r <==> x in s)
    ensures |r| <= |s|
    ensures Distinct(s) ==> Distinct(r)
    ensures Distinct(s) && k in s ==> |r| == |s| - 1
    ensures k !in s ==> r == s
  {
    if |s| == 0 then []
    else
      var rest := Without(s[1..], k);
      assert Distinct(s) ==> s[0] !in s[1..];
      if s[0] == k then rest else [s[0]] + rest
  }

  /** `del d[k]` (no effect when `k` is absent). */
  function Remove<K(==,!new), V>(d: Dict<K, V>, k: K): (r: Dict<K, V>)
    ensures r.items == d.items - {k}
    ensures r.keys == Without(d.keys, k)
    ensures k in d.items ==> Len(r) == Len(d) - 1
    ensures k !in d.items ==> r == d
  {
    assert Distinct(d.keys);
    var r := RawDict(Without(d.keys, k), d.items - {k});
    assert r.Valid();
    r
  }

  /** Replaces every value by `f(key, value)`, keeping keys and order. */
  function MapValues<K(==,!new), V, W>(d: Dict<K, V>, f: (K, V) -> W): (r: Dict<K, W>)
    ensures r.keys == d.keys
    ensures r.items.Keys == d.items.Keys
    ensures forall k :: k in d.items ==> r.items[k] == f(k, d.items[k])
  {
    RawDict(d.keys, map k | k in d.items :: f(k, d.items[k]))
  }

  /** Mapping the values forth and back again gives the dict back when the
      second map undoes the first on every entry. */
  lemma MapValuesUndone<K(!new), V, W>(d: Dict<K, V>, f: (K, V) -> W, g: (K, W) -> V)
    requires forall k :: k in d.items ==> g(k, f(k, d.items[k])) == d.items[k]
    ensures MapValues(MapValues(d, f), g) == d
  {
    var r := MapValues(MapValues(d, f), g);
    assert r.items == d.items;
  }

  /** The keys, in order, whose value satisfies `p`. */
  function KeysWhere<K(==,!new), V>(keys: seq<K>, items: map<K, V>, p: V -> bool): (r: seq<K>)
    requires forall k :: k in keys ==> k in items
    ensures forall k :: k in r <==> k in keys && p(items[k])
  {
    if |keys| == 0 then []
    else (if p(items[keys[0]]) then [keys[0]] else []) + KeysWhere(keys[1..], items, p)
  }

  /** The selection depends only on the predicate's verdict for each key. */
  lemma {:induction false} KeysWhereAgree<K(!new), V, W>(keys: seq<K>, a: map<K, V>, p: V -> bool, b: map<K, W>, q: W -> bool)
    requires forall k :: k in keys ==> k in a && k in b && p(a[k]) == q(b[k])
    ensures KeysWhere(keys, a, p) == KeysWhere(keys, b, q)
  {
    if |keys| > 0 {
      KeysWhereAgree(keys[1..], a, p, b, q);
    }
  }

  /** Two dicts with the same keys whose values get the same verdict select the same keys. */
  lemma KeysWhereSame<K(!new), V>(a: Dict<K, V>, b: Dict<K, V>, p: V -> bool)
    requires a.keys == b.keys
    requires forall k :: k in a.items ==> k in b.items && p(a.items[k]) == p(b.items[k])
    ensures KeysWhere(a.keys, a.items, p) == KeysWhere(b.keys, b.items, p)
  {
    KeysWhereAgree(a.keys, a.items, p, b.items, p);
  }

  /** Over distinct keys, a key is selected at most once. */
  lemma {:induction false} KeysWhereCount<K(!new), V>(keys: seq<K>, items: map<K, V>, p: V -> bool, k: K)
    requires forall x :: x in keys ==> x in items
    requires Distinct(keys)
    ensures multiset(KeysWhere(keys, items, p))[k] == if k in keys && p(items[k]) then 1 else 0
  {
    if |keys| > 0 {
      KeysWhereCount(keys[1..], items, p, k);
      assert keys[0] !in keys[1..];
      assert k in keys <==> k == keys[0] || k in keys[1..] by {
        assert keys == [keys[0]] + keys[1..];
      }
    }
  }

  /** `d.items()` in iteration order. */
  function Pairs<K(==,!new), V>(d: Dict<K, V>): (ps: seq<(K, V)>)
    ensures |ps| == |d.keys|
    ensures forall i :: 0 <= i < |ps| ==> ps[i] == (d.keys[i], d.items[d.keys[i]])
  {
    seq(|d.keys|, i requires 0 <= i < |d.keys| => (d.keys[i], d.items[d.keys[i]]))
  }

  /** `dict(ps)` / a dict comprehension over `ps`: entries are assigned left
      to right, so a repeated key keeps its first place and its last value. */
  function FromPairs<K(==,!new), V>(ps: seq<(K, V)>): (r: Dict<K, V>)
    ensures forall k :: k in r.items <==> exists i :: 0 <= i < |ps| && ps[i].0 == k
  {
    if |ps| == 0 then Empty()
    else
      var last := ps[|ps| - 1];
      var r := Put(FromPairs(ps[..|ps| - 1]), last.0, last.1);
      assert forall k :: (exists i :: 0 <= i < |ps| && ps[i].0 == k) ==> k in r.items by {
        forall k | exists i :: 0 <= i < |ps| && ps[i].0 == k
          ensures k in r.items
        {
          var i :| 0 <= i < |ps| && ps[i].0 == k;
          if i < |ps| - 1 {
            assert ps[..|ps| - 1][i].0 == k;
          }
        }
      }
      r
  }

  /** Over pairs with distinct keys, `dict(ps)` lists the keys in the order given. */
  lemma {:induction false} FromPairsDistinct<K(!new), V>(ps: seq<(K, V)>)
    requires forall i, j :: 0 <= i < j < |ps| ==> ps[i].0 != ps[j].0
    ensures |FromPairs(ps).keys| == |ps|
    ensures forall i :: 0 <= i < |ps| ==> FromPairs(ps).keys[i] == ps[i].0 && FromPairs(ps).items[ps[i].0] == ps[i].1
  {
    if |ps| > 0 {
      var init := ps[..|ps| - 1];
      var last := ps[|ps| - 1];
      assert forall i :: 0 <= i < |init| ==> init[i] == ps[i];
      FromPairsDistinct(init);
      var prev := FromPairs(init);
      assert last.0 !in prev.items by {
        forall i | 0 <= i < |init| ensures init[i].0 != last.0 {
          assert init[i] == ps[i];
        }
      }
      var r := FromPairs(ps);
      assert r == Put(prev, last.0, last.1);
      forall i | 0 <= i < |ps| ensures r.keys[i] == ps[i].0 && r.items[ps[i].0] == ps[i].1 {
        if i < |ps| - 1 {
          assert init[i] == ps[i] && ps[i].0 != last.0;
        }
      }
    }
  }

  /** Two dicts listing the same keys with the same values are equal. */
  lemma SameEntries<K(!new), V>(a: Dict<K, V>, b: Dict<K, V>)
    requires a.keys == b.keys
    requires forall i :: 0 <= i < |a.keys| ==> a.items[a.keys[i]] == b.items[a.keys[i]]
    ensures a == b
  {
    forall k | k in a.items ensures k in b.items && a.items[k] == b.items[k] {
      var i :| 0 <= i < |a.keys| && a.keys[i] == k;
    }
    assert a.items.Keys == b.items.Keys by {
      forall k | k in b.items ensures k in a.items {
        assert k in b.keys;
      }
    }
    assert a.items == b.items;
  }

  /** Rebuilding a dict from its own items gives it back, order included. */
  lemma FromPairsOfPairs<K(!new), V>(d: Dict<K, V>)
    ensures FromPairs(Pairs(d)) == d
  {
    var ps := Pairs(d);
    assert forall i :: 0 <= i < |ps| ==> ps[i].0 == d.keys[i];
    FromPairsDistinct(ps);
    SameEntries(FromPairs(ps), d);
  }
}

=== FILE: domain.dfy ===
/** The editor's in-memory state, pulled out of the Tk application object
    into one immutable record. Canvas handles, widgets and the interaction
    bookkeeping (dragging, panning, the right-clicked element) are not state
    here: handlers receive the element they act on as a parameter. */
module Domain {
  import opened Options
  import opened Dicts
  import opened Text

  /** An ISO-8601 clock reading (`datetime.now().isoformat()`), passed in by the caller. */
  type Timestamp = string

  /** Requirement kind: "ust" (a parent requirement) or "alt" (a child requirement). */
  datatype Kind = Ust | Alt

  /** Lifecycle status; the names are the ones the editor displays and stores. */
  datatype Status = Draft | InReview | Approved | Rejected | Implemented {
    function Name(): string {
      match this
      case Draft => "Draft"
      case InReview => "In Review"
      case Approved => "Approved"
      case Rejected => "Rejected"
      case Implemented => "Implemented"
    }
  }

  /** Comment priority: "Düşük", "Normal", "Yüksek", "Kritik". */
  datatype Priority = Low | Normal | High | Critical

  /** Audit-log action tags. */
  datatype Action = Create | Modify | Delete | CommentAdded | ReviewRequested | Approve | Reject | SystemEvent {
    function Name(): string {
      match this
      case Create => "CREATE"
      case Modify => "MODIFY"
      case Delete => "DELETE"
      case CommentAdded => "COMMENT"
      case ReviewRequested => "REVIEW"
      case Approve => "APPROVE"
      case Reject => "REJECT"
      case SystemEvent => "SYSTEM"
    }
  }

  /** What an audit entry is about: "requirement", "user" or "project". */
  datatype ObjectType = RequirementObject | UserObject | ProjectObject {
    function Name(): string {
      match this
      case RequirementObject => "requirement"
      case UserObject => "user"
      case ProjectObject => "project"
    }
  }

  /** Element kinds as layer membership and the selection name them: "req", "group", "text". */
  datatype ObjKind = Req | Grp | Txt

  /** A (kind, number) pair such as `("req", 7)`. */
  datatype ObjRef = ObjRef(kind: ObjKind, id: int)

  datatype Point = Point(x: real, y: real)
  datatype Size = Size(w: real, h: real)

  /** Canvas item ids stored on a live record ("rect", "text_id", ...); never saved. */
  type Handles = map<string, int>

  datatype Requirement = Requirement(
    id: string,            // external label, prefix + number
    num: int,
    kind: Kind,
    pos: Point,
    text: string,          // title
    note: string,
    children: seq<int>,
    color: string,
    layer: string,
    status: Status,
    createdBy: string,
    createdDate: Timestamp,
    modifiedDate: Timestamp,
    handles: Handles)

  datatype Group = Group(id: int, name: string, pos: Point, size: Size, color: string, layer: string, handles: Handles)

  datatype TextBox = TextBox(id: int, content: string, pos: Point, size: Size, fontSize: int, layer: string, handles: Handles)

  /** A layer; `objects` is the membership list rebuilt from the element stores. */
  datatype Layer = Layer(visible: bool, locked: bool, color: string, objects: seq<ObjRef>)

  datatype Comment = Comment(
    id: int,
    author: string,
    timestamp: Timestamp,
    content: string,
    priority: Priority,
    resolved: bool,
    resolvedBy: Option<string>,
    resolvedDate: Option<Timestamp>)

  datatype ReviewStatus = Pending | ReviewApproved | ReviewRejected

  /** A review deadline: the given number of days after the request time. */
  datatype Deadline = DaysAfter(requested: Timestamp, days: int)

  datatype Review = Review(
    id: int,
    requestedBy: string,
    requestedDate: Timestamp,
    reviewers: seq<string>,
    notes: string,
    deadline: Option<Deadline>,
    status: ReviewStatus,
    approvedBy: Option<string>,
    approvedDate: Option<Timestamp>,
    rejectedBy: Option<string>,
    rejectedDate: Option<Timestamp>,
    rejectionReason: Option<string>)

  datatype HistoryEntry = HistoryEntry(
    timestamp: Timestamp,
    user: string,
    action: Action,
    objectType: ObjectType,
    objectId: string,
    description: string,
    details: map<string, string>)

  datatype State = State(
    requirements: Dict<int, Requirement>,
    links: Dict<int, seq<int>>,          // parent number -> child numbers
    groups: Dict<int, Group>,
    textBoxes: Dict<int, TextBox>,
    layers: Dict<string, Layer>,
    currentLayer: string,
    comments: map<string, seq<Comment>>, // "req_N" -> thread
    reviews: map<string, Review>,        // "req_N" -> review
    history: seq<HistoryEntry>,
    currentUser: string,
    nextId: int,
    nextGroupId: int,
    nextTextId: int,
    idPrefix: string,
    zoomFactor: real,
    selected: set<ObjRef>)

  const DefaultUser: string := "Kullanıcı"
  const DefaultPrefix: string := "R"

  /** The default layer of each element kind. */
  const RequirementsLayer: string := "Requirements"
  const GroupsLayer: string := "Groups"
  const NotesLayer: string := "Notes"

  function NewLayer(color: string): Layer {
    Layer(true, false, color, [])
  }

  /** The four layers a new editor starts with, in this order. */
  function DefaultLayers(): (d: Dict<string, Layer>)
    ensures d.keys == ["Background", GroupsLayer, RequirementsLayer, NotesLayer]
    ensures forall name :: name in d.items ==> d.items[name].visible && !d.items[name].locked && d.items[name].objects == []
    ensures d.items["Background"].color == "lightgray" && d.items[GroupsLayer].color == "blue"
    ensures d.items[RequirementsLayer].color == "green" && d.items[NotesLayer].color == "orange"
  {
    assert "Background"[0] != GroupsLayer[0] && "Background"[0] != RequirementsLayer[0] && "Background"[0] != NotesLayer[0];
    assert GroupsLayer[0] != RequirementsLayer[0] && GroupsLayer[0] != NotesLayer[0] && RequirementsLayer[0] != NotesLayer[0];
    RawDict(["Background", GroupsLayer, RequirementsLayer, NotesLayer],
            map["Background" := NewLayer("lightgray"), GroupsLayer := NewLayer("blue"),
                RequirementsLayer := NewLayer("green"), NotesLayer := NewLayer("orange")])
  }

  /** The state a freshly opened editor holds before any file is loaded. */
  function Initial(): (st: State)
    ensures st.layers == DefaultLayers() && st.currentLayer == RequirementsLayer
    ensures st.currentLayer in st.layers.items
    ensures Len(st.layers) == 4
    ensures st.requirements.keys == [] && st.links.keys == [] && st.groups.keys == [] && st.textBoxes.keys == []
    ensures st.comments == map[] && st.reviews == map[] && st.history == [] && st.selected == {}
    ensures st.currentUser == DefaultUser && st.idPrefix == DefaultPrefix && st.zoomFactor == 1.0
    ensures st.nextId == 1 && st.nextGroupId == 1 && st.nextTextId == 1
  {
    State(Empty(), Empty(), Empty(), Empty(), DefaultLayers(), RequirementsLayer,
          map[], map[], [], DefaultUser, 1, 1, 1, DefaultPrefix, 1.0, {})
  }

  /** The key under which comments and reviews of requirement `num` are filed. */
  function ReqKey(num: int): string {
    "req_" + IntToString(num)
  }

  lemma ReqKeyInjective(a: int, b: int)
    requires ReqKey(a) == ReqKey(b)
    ensures a == b
  {
    assert ReqKey(a)[4..] == IntToString(a);
    assert ReqKey(b)[4..] == IntToString(b);
    IntToStringInjective(a, b);
  }

  /** The editor's lock query: an unknown layer counts as unlocked. */
  predicate IsLayerLocked(st: State, name: string) {
    name in st.layers.items && st.layers.items[name].locked
  }

  /** Python truthiness of a dialog answer: cancelled (None) and "" are both false. */
  predicate Given(answer: Option<string>) {
    answer.Some? && answer.value != ""
  }
}

=== FILE: history.dfy ===
/** The audit history: a capped append, the filtered on-screen listing and
    the CSV export rows. */
module History {
  import opened Domain

  /** At most this many entries are kept. */
  const Capacity: nat := 1000

  /** Appends `e` and, when the log is then over capacity, keeps only the
      newest `Capacity` entries (`history[-1000:]`). */
  function AppendCapped(h: seq<HistoryEntry>, e: HistoryEntry): (r: seq<HistoryEntry>)
    ensures |r| == if |h| + 1 <= Capacity then |h| + 1 else Capacity
    ensures r[|r| - 1] == e
    ensures r == (h + [e])[|h| + 1 - |r|..]
    ensures |h| < Capacity ==> r == h + [e]
  {
    var full := h + [e];
    if |full| > Capacity then full[|full| - Capacity..] else full
  }

  /** Once the log is full, each append evicts exactly the oldest entry. */
  lemma EvictsOldest(h: seq<HistoryEntry>, e: HistoryEntry)
    requires |h| == Capacity
    ensures AppendCapped(h, e) == h[1..] + [e]
    ensures |AppendCapped(h, e)| == Capacity
  {
  }

  /** Two appends in a row leave both entries at the end, in order. */
  lemma AppendTwice(h: seq<HistoryEntry>, e1: HistoryEntry, e2: HistoryEntry)
    ensures var r := AppendCapped(AppendCapped(h, e1), e2);
      |r| >= 2 && r[|r| - 2] == e1 && r[|r| - 1] == e2
  {
    var h1 := AppendCapped(h, e1);
    var r := AppendCapped(h1, e2);
    assert r == (h1 + [e2])[|h1| + 1 - |r|..];
    assert r[|r| - 2] == (h1 + [e2])[|h1| - 1];
  }

  /** Appends several entries one after the other. */
  function AppendAll(h: seq<HistoryEntry>, es: seq<HistoryEntry>): seq<HistoryEntry>
    decreases |es|
  {
    if |es| == 0 then h else AppendAll(AppendCapped(h, es[0]), es[1..])
  }

  /** The newest `Capacity` entries of `s`. */
  function Newest(s: seq<HistoryEntry>): seq<HistoryEntry> {
    if |s| <= Capacity then s else s[|s| - Capacity..]
  }

  /** Appending entries one at a time under the cap keeps exactly the newest
      1000 of everything ever appended, in their original order. */
  lemma {:induction false} AppendAllKeepsNewest(h: seq<HistoryEntry>, es: seq<HistoryEntry>)
    requires |h| <= Capacity
    ensures AppendAll(h, es) == Newest(h + es)
    ensures |AppendAll(h, es)| <= Capacity
    decreases |es|
  {
    if |es| > 0 {
      AppendAllKeepsNewest(AppendCapped(h, es[0]), es[1..]);
      NewestStep(h, es);
    }
  }

  /** One capped append loses nothing the newest entries of the whole would keep. */
  lemma NewestStep(h: seq<HistoryEntry>, es: seq<HistoryEntry>)
    requires |h| <= Capacity && |es| > 0
    ensures Newest(AppendCapped(h, es[0]) + es[1..]) == Newest(h + es)
  {
    var all := h + es;
    assert all == h + [es[0]] + es[1..] by {
      assert es == [es[0]] + es[1..];
    }
    if |h| + 1 > Capacity {
      assert AppendCapped(h, es[0]) == (h + [es[0]])[1..];
      assert AppendCapped(h, es[0]) + es[1..] == all[1..];
      NewestTail(all);
    }
  }

  /** Dropping the oldest entry of an over-full sequence keeps the same newest entries. */
  lemma NewestTail(s: seq<HistoryEntry>)
    requires |s| > Capacity
    ensures Newest(s[1..]) == Newest(s)
  {
    assert s[1..][|s| - 1 - Capacity..] == s[|s| - Capacity..];
  }

  /** Appends one entry stamped with `now` and the current user. */
  function Record(st: State, action: Action, objectType: ObjectType, objectId: string,
                  description: string, now: Timestamp): (r: State)
    ensures r == st.(history := r.history)
    ensures r.history == AppendCapped(st.history, HistoryEntry(now, st.currentUser, action, objectType, objectId, description, map[]))
  {
    st.(history := AppendCapped(st.history, HistoryEntry(now, st.currentUser, action, objectType, objectId, description, map[])))
  }

  // ---------------------------------------------------------------------
  // The history panel listing

  /** The combobox value that disables a filter ("all"). */
  const AllFilter: string := "Tümü"

  /** Whether the panel shows `e` under the given action and user filters. */
  predicate Matches(e: HistoryEntry, actionFilter: string, userFilter: string) {
    && (actionFilter == AllFilter || e.action.Name() == actionFilter)
    && (userFilter == AllFilter || e.user == userFilter)
  }

  function Reverse<T>(s: seq<T>): (r: seq<T>)
    ensures |r| == |s|
    ensures forall k :: 0 <= k < |s| ==> r[k] == s[|s| - 1 - k]
  {
    if |s| == 0 then [] else Reverse(s[1..]) + [s[0]]
  }

  /** Reference definition: the entries of `s` that pass the filters, in the order of `s`. */
  function Filtered(s: seq<HistoryEntry>, actionFilter: string, userFilter: string): seq<HistoryEntry> {
    if |s| == 0 then []
    else
      var last := s[|s| - 1];
      Filtered(s[..|s| - 1], actionFilter, userFilter) + (if Matches(last, actionFilter, userFilter) then [last] else [])
  }

  lemma {:induction false} FilteredMembers(s: seq<HistoryEntry>, actionFilter: string, userFilter: string)
    ensures forall e :: e in Filtered(s, actionFilter, userFilter) <==> e in s && Matches(e, actionFilter, userFilter)
  {
    if |s| > 0 {
      FilteredMembers(s[..|s| - 1], actionFilter, userFilter);
      assert s == s[..|s| - 1] + [s[|s| - 1]];
    }
  }

  lemma {:induction false} FilteredAll(s: seq<HistoryEntry>)
    ensures Filtered(s, AllFilter, AllFilter) == s
  {
    if |s| > 0 {
      FilteredAll(s[..|s| - 1]);
    }
  }

  /** The on-screen listing: walks the log from its newest entry backwards,
      keeping what passes both filters. */
  method FilteredView(h: seq<HistoryEntry>, actionFilter: string, userFilter: string)
    returns (view: seq<HistoryEntry>)
    ensures view == Filtered(Reverse(h), actionFilter, userFilter)
  {
    view := [];
    var i := |h|;
    while i > 0
      invariant 0 <= i <= |h|
      invariant view == Filtered(Reverse(h[i..]), actionFilter, userFilter)
    {
      i := i - 1;
      assert Reverse(h[i..]) == Reverse(h[i + 1..]) + [h[i]] by {
        assert h[i..][1..] == h[i + 1..];
      }
      assert Reverse(h[i..])[..|h| - i - 1] == Reverse(h[i + 1..]);
      if Matches(h[i], actionFilter, userFilter) {
        view := view + [h[i]];
      }
    }
    assert h[0..] == h;
  }

  /** With both filters off the listing is the whole log, newest first; with
      filters it holds exactly the matching entries. */
  lemma ViewContents(h: seq<HistoryEntry>, actionFilter: string, userFilter: string)
    ensures Filtered(Reverse(h), AllFilter, AllFilter) == Reverse(h)
    ensures forall e :: e in Filtered(Reverse(h), actionFilter, userFilter) <==> e in h && Matches(e, actionFilter, userFilter)
  {
    FilteredAll(Reverse(h));
    FilteredMembers(Reverse(h), actionFilter, userFilter);
    forall e | e in h ensures e in Reverse(h) {
      var k :| 0 <= k < |h| && h[k] == e;
      assert Reverse(h)[|h| - 1 - k] == e;
    }
  }

  // ---------------------------------------------------------------------
  // CSV export

  /** One CSV row: Zaman, Kullanıcı, Eylem, Obje Türü, Obje ID, Açıklama, Detaylar. */
  datatype ExportRow = ExportRow(
    timestamp: Timestamp, user: string, action: string, objectType: string,
    objectId: string, description: string, details: map<string, string>)

  function RowOf(e: HistoryEntry): ExportRow {
    ExportRow(e.timestamp, e.user, e.action.Name(), e.objectType.Name(), e.objectId, e.description, e.details)
  }

  /** The exported rows; like the panel, the export walks the log newest first. */
  method ExportHistory(h: seq<HistoryEntry>) returns (rows: seq<ExportRow>)
    ensures |rows| == |h|
    ensures forall k :: 0 <= k < |h| ==> rows[k] == RowOf(h[|h| - 1 - k])
  {
    rows := [];
    var i := |h|;
    while i > 0
      invariant 0 <= i <= |h|
      invariant |rows| == |h| - i
      invariant forall k :: 0 <= k < |rows| ==> rows[k] == RowOf(h[|h| - 1 - k])
    {
      i := i - 1;
      rows := rows + [RowOf(h[i])];
    }
  }
}

=== FILE: ids.dfy ===
/** Requirement labels and the current user: the label prefix, resequencing
    all labels, looking a requirement up by label, and switching user. */
module Ids {
  import opened Options
  import opened Dicts
  import opened Text
  import opened Domain
  import opened History
  import opened Store

  /** `set_prefix`: an empty or cancelled answer keeps the old prefix. */
  function SetPrefix(st: State, answer: Option<string>): (r: State)
    ensures !Given(answer) ==> r == st
    ensures Given(answer) ==> r == st.(idPrefix := answer.value) && r.idPrefix != ""
  {
    if Given(answer) then st.(idPrefix := answer.value) else st
  }

  /** A requirement relabelled as the `pos`-th one (counting from 1). */
  function Relabelled(info: Requirement, prefix: string, pos: int): Requirement {
    info.(id := Label(prefix, pos), text := DefaultTitle(Label(prefix, pos)))
  }

  /** `b` is `a` with at most its label and title changed. */
  predicate SameButLabel(a: Requirement, b: Requirement) {
    b == a.(id := b.id, text := b.text)
  }

  /** The relabelling loop of `reset_ids` from the `i`-th key of `keys` on. */
  function RelabelFrom(keys: seq<int>, items: map<int, Requirement>, prefix: string, i: nat): (r: map<int, Requirement>)
    requires i <= |keys| && Distinct(keys)
    requires forall j :: 0 <= j < |keys| ==> keys[j] in items
    ensures r.Keys == items.Keys
    ensures forall j :: 0 <= j < i ==> keys[j] in r && r[keys[j]] == items[keys[j]]
    ensures forall j :: i <= j < |keys| ==> keys[j] in r && r[keys[j]] == Relabelled(items[keys[j]], prefix, j + 1)
    ensures forall n :: n in items ==> SameButLabel(items[n], r[n])
    decreases |keys| - i
  {
    if i == |keys| then items
    else
      var k := keys[i];
      var next := items[k := Relabelled(items[k], prefix, i + 1)];
      assert forall j :: 0 <= j < |keys| && j != i ==> next[keys[j]] == items[keys[j]];
      RelabelFrom(keys, next, prefix, i + 1)
  }

  /** `reset_ids`: in store order the requirements are relabelled prefix+1,
      prefix+2, ... and retitled to match; the counter continues after the
      last label. Nothing else changes, numbers included. */
  function ResetIds(st: State): (r: State)
    ensures r == st.(requirements := r.requirements, nextId := Len(st.requirements) + 1)
    ensures r.requirements.keys == st.requirements.keys
    ensures forall j :: 0 <= j < |st.requirements.keys| ==>
      && st.requirements.keys[j] in r.requirements.items
      && r.requirements.items[st.requirements.keys[j]] == Relabelled(st.requirements.items[st.requirements.keys[j]], st.idPrefix, j + 1)
    ensures forall n :: n in st.requirements.items ==> n in r.requirements.items && SameButLabel(st.requirements.items[n], r.requirements.items[n])
  {
    st.(requirements := RelabelAll(st.requirements, st.idPrefix), nextId := Len(st.requirements) + 1)
  }

  /** The whole relabelling loop over a store. */
  function RelabelAll(reqs: Dict<int, Requirement>, prefix: string): (d: Dict<int, Requirement>)
    ensures d.keys == reqs.keys
    ensures forall j :: 0 <= j < |reqs.keys| ==>
      reqs.keys[j] in d.items && d.items[reqs.keys[j]] == Relabelled(reqs.items[reqs.keys[j]], prefix, j + 1)
    ensures forall n :: n in reqs.items ==> n in d.items && SameButLabel(reqs.items[n], d.items[n])
  {
    var items := RelabelFrom(reqs.keys, reqs.items, prefix, 0);
    var d := RawDict(reqs.keys, items);
    assert d.Valid();
    d
  }

  lemma LabelInjective(prefix: string, a: int, b: int)
    requires Label(prefix, a) == Label(prefix, b)
    ensures a == b
  {
    assert Label(prefix, a)[|prefix|..] == IntToString(a);
    assert Label(prefix, b)[|prefix|..] == IntToString(b);
    IntToStringInjective(a, b);
  }

  /** Different numbers give different labels under one prefix. */
  lemma LabelsDiffer(prefix: string, a: int, b: int)
    requires a != b
    ensures Label(prefix, a) != Label(prefix, b)
  {
    if Label(prefix, a) == Label(prefix, b) {
      LabelInjective(prefix, a, b);
    }
  }

  /** The `j`-th requirement in store order carries label prefix + (j+1) after a reset. */
  lemma ResetLabelAt(st: State, j: int)
    requires 0 <= j < |st.requirements.keys|
    ensures st.requirements.keys[j] in ResetIds(st).requirements.items
    ensures ResetIds(st).requirements.items[st.requirements.keys[j]].id == Label(st.idPrefix, j + 1)
  {
  }

  /** After a reset no two requirements share a label. */
  lemma ResetLabelsUnique(st: State, i: int, j: int)
    requires 0 <= i < j < |st.requirements.keys|
    ensures ResetIds(st).requirements.items[st.requirements.keys[i]].id
         != ResetIds(st).requirements.items[st.requirements.keys[j]].id
  {
    ResetLabels(st);
    LabelsUnique(ResetIds(st).requirements, st.idPrefix, i, j);
  }

  /** After a reset every requirement is labelled by its store position. */
  lemma ResetLabels(st: State)
    ensures var reqs := ResetIds(st).requirements;
      forall k :: 0 <= k < |reqs.keys| ==> reqs.items[reqs.keys[k]].id == Label(st.idPrefix, k + 1)
  {
    forall k | 0 <= k < |st.requirements.keys| {
      ResetLabelAt(st, k);
    }
  }

  /** Labels numbered by store position are pairwise different. */
  lemma LabelsUnique(reqs: Dict<int, Requirement>, prefix: string, i: int, j: int)
    requires forall k :: 0 <= k < |reqs.keys| ==> reqs.items[reqs.keys[k]].id == Label(prefix, k + 1)
    requires 0 <= i < j < |reqs.keys|
    ensures reqs.items[reqs.keys[i]].id != reqs.items[reqs.keys[j]].id
  {
    LabelsDiffer(prefix, i + 1, j + 1);
  }

  /** A reset can leave the counter pointing at a number still in use: with
      requirements 1 and 2 where 1 was deleted, the counter drops back to 2
      and the next creation replaces requirement 2 instead of adding one. */
  lemma ResetThenCreateOverwrites(st: State, pos: Point, now: Timestamp)
    requires st.requirements.keys == [2] && st.nextId == 3
    requires st.requirements.items[2].kind == Alt
    requires CountersFresh(st) && !IsLayerLocked(st, st.currentLayer)
    ensures !CountersFresh(ResetIds(st))
    ensures var r := CreateRequirement(ResetIds(st), Ust, pos, now);
      && Len(r.requirements) == Len(st.requirements)
      && 2 in r.requirements.items && r.requirements.items[2].kind == Ust
  {
    var reset := ResetIds(st);
    assert reset.nextId == 2;
    assert reset.requirements.keys == [2];
    var r := CreateRequirement(reset, Ust, pos, now);
    assert r.requirements.keys == [2];
  }

  /** The largest number in `keys`, or 0 when there is none. */
  function MaxKey(keys: seq<int>): (m: int)
    ensures forall j :: 0 <= j < |keys| ==> keys[j] <= m
    ensures |keys| == 0 ==> m == 0
    ensures |keys| > 0 ==> m in keys
  {
    if |keys| == 0 then 0
    else
      var rest := MaxKey(keys[..|keys| - 1]);
      var last := keys[|keys| - 1];
      assert keys == keys[..|keys| - 1] + [last];
      if |keys| == 1 || last > rest then last else rest
  }

  /** `reset_ids` with the counter moved past every number still in use: the
      labels are those of `ResetIds`, and the counter is the one `ResetIds`
      sets unless a higher number is still stored. */
  function ResetIdsFresh(st: State): (r: State)
    ensures r == st.(requirements := r.requirements, nextId := r.nextId)
    ensures r.requirements == ResetIds(st).requirements
    ensures r.nextId >= Len(st.requirements) + 1
    ensures forall n :: n in r.requirements.items ==> n < r.nextId
    ensures (forall n :: n in st.requirements.items ==> n <= Len(st.requirements)) ==> r == ResetIds(st)
  {
    var count := Len(st.requirements);
    var top := MaxKey(st.requirements.keys);
    ResetIds(st).(nextId := if top + 1 > count + 1 then top + 1 else count + 1)
  }

  /** With the corrected counter a creation after a reset adds a requirement
      and keeps every relabelled one. */
  lemma ResetFreshThenCreateAdds(st: State, kind: Kind, pos: Point, now: Timestamp)
    requires CountersFresh(st) && !IsLayerLocked(st, st.currentLayer)
    ensures CountersFresh(ResetIdsFresh(st))
    ensures var reset := ResetIdsFresh(st);
      var r := CreateRequirement(reset, kind, pos, now);
      && Len(r.requirements) == Len(st.requirements) + 1
      && forall n :: n in st.requirements.items ==>
           n in r.requirements.items && r.requirements.items[n] == reset.requirements.items[n]
  {
    var reset := ResetIdsFresh(st);
    ResetFreshKeepsCountersFresh(st);
    assert reset.requirements.keys == st.requirements.keys;
    assert forall n :: n in st.requirements.items ==> n in reset.requirements.items;
    CreateRequirementAdds(reset, kind, pos, now);
  }

  /** The corrected reset keeps every counter above the numbers it hands out. */
  lemma ResetFreshKeepsCountersFresh(st: State)
    requires CountersFresh(st)
    ensures CountersFresh(ResetIdsFresh(st))
  {
    var reset := ResetIdsFresh(st);
    assert reset.groups == st.groups && reset.textBoxes == st.textBoxes;
    assert reset.nextGroupId == st.nextGroupId && reset.nextTextId == st.nextTextId;
  }

  // ---------------------------------------------------------------------
  // Search by label

  /** Reference definition: the position of the first requirement, in store
      order from `from` on, whose label is `wanted`. */
  function FirstWithLabel(reqs: Dict<int, Requirement>, wanted: string, from: nat): (i: Option<nat>)
    requires from <= |reqs.keys|
    ensures i.Some? ==> from <= i.value < |reqs.keys| && reqs.items[reqs.keys[i.value]].id == wanted
    ensures i.Some? ==> forall j :: from <= j < i.value ==> reqs.items[reqs.keys[j]].id != wanted
    ensures i.None? ==> forall j :: from <= j < |reqs.keys| ==> reqs.items[reqs.keys[j]].id != wanted
    decreases |reqs.keys| - from
  {
    if from == |reqs.keys| then None
    else if reqs.items[reqs.keys[from]].id == wanted then Some(from)
    else FirstWithLabel(reqs, wanted, from + 1)
  }

  /** `search_id`: the typed label is stripped and the first requirement
      carrying it is highlighted. A hit on requirement number 0 is reported
      as not found. */
  method SearchId(st: State, typed: string) returns (found: Option<int>)
    ensures found.Some? ==> found.value in st.requirements.items && found.value != 0
                            && st.requirements.items[found.value].id == Strip(typed)
    ensures match FirstWithLabel(st.requirements, Strip(typed), 0)
            case None => found == None
            case Some(i) => found == if st.requirements.keys[i] == 0 then None else Some(st.requirements.keys[i])
  {
    var wanted := Strip(typed);
    var keys := st.requirements.keys;
    var i := 0;
    found := None;
    while i < |keys|
      invariant 0 <= i <= |keys|
      invariant forall j :: 0 <= j < i ==> st.requirements.items[keys[j]].id != wanted
    {
      if st.requirements.items[keys[i]].id == wanted {
        found := if keys[i] == 0 then None else Some(keys[i]);
        return;
      }
      i := i + 1;
    }
  }

  /** A label is free of surrounding whitespace when its prefix does not start with any. */
  lemma LabelTrimmed(prefix: string, n: int)
    requires prefix == [] || !IsSpace(prefix[0])
    ensures Trimmed(Label(prefix, n))
  {
    var digits := IntToString(n);
    var s := Label(prefix, n);
    assert s[|s| - 1] == digits[|digits| - 1];
    if prefix == [] {
      assert s == digits;
    } else {
      assert s[0] == prefix[0];
    }
  }

  /** The search stops at position `k` when `k` carries the label and no earlier one does. */
  lemma FirstWithLabelAt(reqs: Dict<int, Requirement>, wanted: string, k: nat)
    requires k < |reqs.keys| && reqs.items[reqs.keys[k]].id == wanted
    requires forall i :: 0 <= i < k ==> reqs.items[reqs.keys[i]].id != wanted
    ensures FirstWithLabel(reqs, wanted, 0) == Some(k)
  {
  }

  /** A label handed out by a reset finds its requirement again, provided
      the prefix does not start with whitespace (the search strips it). */
  lemma ResetThenSearch(st: State, k: nat)
    requires k < |st.requirements.keys|
    requires st.idPrefix == [] || !IsSpace(st.idPrefix[0])
    ensures FirstWithLabel(ResetIds(st).requirements, Strip(Label(st.idPrefix, k + 1)), 0) == Some(k)
  {
    var wanted := Label(st.idPrefix, k + 1);
    LabelTrimmed(st.idPrefix, k + 1);
    StripTrimmed(wanted);
    var reqs := ResetIds(st).requirements;
    ResetLabelAt(st, k);
    forall i | 0 <= i < k ensures reqs.items[reqs.keys[i]].id != wanted {
      ResetLabelsUnique(st, i, k);
    }
    FirstWithLabelAt(reqs, wanted, k);
  }

  // ---------------------------------------------------------------------
  // Current user

  /** `set_current_user`: an empty or cancelled answer changes nothing;
      otherwise the user changes and one SYSTEM entry about the change is
      recorded, already in the new user's name. */
  function SetCurrentUser(st: State, answer: Option<string>, now: Timestamp): (r: State)
    ensures !Given(answer) ==> r == st
    ensures Given(answer) ==>
      && r == st.(currentUser := answer.value, history := r.history)
      && r.history == AppendCapped(st.history, HistoryEntry(now, answer.value, SystemEvent, UserObject, "change",
                                                            "Kullanıcı değişti: " + st.currentUser + " → " + answer.value, map[]))
      && r.history[|r.history| - 1].user == answer.value
  {
    if Given(answer) then
      Record(st.(currentUser := answer.value), SystemEvent, UserObject, "change",
             "Kullanıcı değişti: " + st.currentUser + " → " + answer.value, now)
    else st
  }
}

=== FILE: layers.dfy ===
/** The layer registry: named layers with visibility and lock flags, the
    active layer, and each layer's membership list, which is rebuilt from the
    element stores after every creation, deletion and layer change. */
module Layers {
  import opened Options
  import opened Dicts
  import opened Domain

  /** The layer element `o` names, or None when there is no such element. */
  function ElementLayer(st: State, o: ObjRef): Option<string> {
    match o.kind
    case Req => if o.id in st.requirements.items then Some(st.requirements.items[o.id].layer) else None
    case Grp => if o.id in st.groups.items then Some(st.groups.items[o.id].layer) else None
    case Txt => if o.id in st.textBoxes.items then Some(st.textBoxes.items[o.id].layer) else None
  }

  function RefsOf(kind: ObjKind, ids: seq<int>): (r: seq<ObjRef>)
    ensures |r| == |ids|
    ensures forall i :: 0 <= i < |ids| ==> r[i] == ObjRef(kind, ids[i])
  {
    if |ids| == 0 then [] else [ObjRef(kind, ids[0])] + RefsOf(kind, ids[1..])
  }

  lemma {:induction false} RefsOfCount(kind: ObjKind, ids: seq<int>, o: ObjRef)
    ensures multiset(RefsOf(kind, ids))[o] == if o.kind == kind then multiset(ids)[o.id] else 0
  {
    if |ids| > 0 {
      RefsOfCount(kind, ids[1..], o);
      var head := ObjRef(kind, ids[0]);
      assert ids == [ids[0]] + ids[1..];
      assert multiset(ids) == multiset{ids[0]} + multiset(ids[1..]);
      assert multiset(RefsOf(kind, ids)) == multiset{head} + multiset(RefsOf(kind, ids[1..]));
      assert multiset{head}[o] == if o.kind == kind then multiset{ids[0]}[o.id] else 0;
    }
  }

  /** The membership list `update_layer_objects` builds for layer `name`:
      requirements, then groups, then text boxes, each in store order. */
  function Members(st: State, name: string): seq<ObjRef> {
    MembersIn(st.requirements, st.groups, st.textBoxes, name)
  }

  /** The same list, from the three element stores alone. */
  function MembersIn(requirements: Dict<int, Requirement>, groups: Dict<int, Group>, textBoxes: Dict<int, TextBox>, name: string): seq<ObjRef> {
    RefsOf(Req, RequirementsOn(requirements, name)) + RefsOf(Grp, GroupsOn(groups, name)) + RefsOf(Txt, TextBoxesOn(textBoxes, name))
  }

  /** The numbers, in store order, of the records on layer `name`. */
  function RequirementsOn(d: Dict<int, Requirement>, name: string): seq<int> {
    KeysWhere(d.keys, d.items, (r: Requirement) => r.layer == name)
  }

  function GroupsOn(d: Dict<int, Group>, name: string): seq<int> {
    KeysWhere(d.keys, d.items, (g: Group) => g.layer == name)
  }

  function TextBoxesOn(d: Dict<int, TextBox>, name: string): seq<int> {
    KeysWhere(d.keys, d.items, (t: TextBox) => t.layer == name)
  }

  lemma RequirementsOnFrame(a: Dict<int, Requirement>, b: Dict<int, Requirement>, name: string)
    requires a.keys == b.keys
    requires forall n :: n in a.items ==> n in b.items && a.items[n].layer == b.items[n].layer
    ensures RequirementsOn(a, name) == RequirementsOn(b, name)
  {
    var p := (r: Requirement) => r.layer == name;
    assert forall n :: n in a.items ==> n in b.items && p(a.items[n]) == p(b.items[n]);
    KeysWhereSame(a, b, p);
  }

  lemma GroupsOnFrame(a: Dict<int, Group>, b: Dict<int, Group>, name: string)
    requires a.keys == b.keys
    requires forall n :: n in a.items ==> n in b.items && a.items[n].layer == b.items[n].layer
    ensures GroupsOn(a, name) == GroupsOn(b, name)
  {
    var p := (g: Group) => g.layer == name;
    assert forall n :: n in a.items ==> n in b.items && p(a.items[n]) == p(b.items[n]);
    KeysWhereSame(a, b, p);
  }

  lemma TextBoxesOnFrame(a: Dict<int, TextBox>, b: Dict<int, TextBox>, name: string)
    requires a.keys == b.keys
    requires forall n :: n in a.items ==> n in b.items && a.items[n].layer == b.items[n].layer
    ensures TextBoxesOn(a, name) == TextBoxesOn(b, name)
  {
    var p := (t: TextBox) => t.layer == name;
    assert forall n :: n in a.items ==> n in b.items && p(a.items[n]) == p(b.items[n]);
    KeysWhereSame(a, b, p);
  }

  /** Membership lists read only the keys and the `layer` field of each record. */
  lemma MembersFrame(a: State, b: State)
    requires a.requirements.keys == b.requirements.keys && a.groups.keys == b.groups.keys && a.textBoxes.keys == b.textBoxes.keys
    requires forall n :: n in a.requirements.items ==> n in b.requirements.items && a.requirements.items[n].layer == b.requirements.items[n].layer
    requires forall g :: g in a.groups.items ==> g in b.groups.items && a.groups.items[g].layer == b.groups.items[g].layer
    requires forall t :: t in a.textBoxes.items ==> t in b.textBoxes.items && a.textBoxes.items[t].layer == b.textBoxes.items[t].layer
    ensures forall name :: Members(a, name) == Members(b, name)
  {
    forall name ensures Members(a, name) == Members(b, name) {
      RequirementsOnFrame(a.requirements, b.requirements, name);
      GroupsOnFrame(a.groups, b.groups, name);
      TextBoxesOnFrame(a.textBoxes, b.textBoxes, name);
    }
  }

  /** Every element on layer `name` is listed exactly once, and nothing else is. */
  lemma MembersCount(st: State, name: string, o: ObjRef)
    ensures multiset(Members(st, name))[o] == if ElementLayer(st, o) == Some(name) then 1 else 0
  {
    var reqs := RefsOf(Req, RequirementsOn(st.requirements, name));
    var groups := RefsOf(Grp, GroupsOn(st.groups, name));
    var texts := RefsOf(Txt, TextBoxesOn(st.textBoxes, name));
    ConcatCount(reqs, groups, texts, o);
    RequirementRefsCount(st.requirements, name, o);
    GroupRefsCount(st.groups, name, o);
    TextBoxRefsCount(st.textBoxes, name, o);
  }

  lemma ConcatCount(a: seq<ObjRef>, b: seq<ObjRef>, c: seq<ObjRef>, o: ObjRef)
    ensures multiset(a + b + c)[o] == multiset(a)[o] + multiset(b)[o] + multiset(c)[o]
  {
    assert multiset(a + b + c) == multiset(a) + multiset(b) + multiset(c);
  }

  lemma RequirementRefsCount(d: Dict<int, Requirement>, name: string, o: ObjRef)
    ensures multiset(RefsOf(Req, RequirementsOn(d, name)))[o] == if o.kind == Req && o.id in d.items && d.items[o.id].layer == name then 1 else 0
  {
    RefsOfCount(Req, RequirementsOn(d, name), o);
    KeysWhereCount(d.keys, d.items, (r: Requirement) => r.layer == name, o.id);
  }

  lemma GroupRefsCount(d: Dict<int, Group>, name: string, o: ObjRef)
    ensures multiset(RefsOf(Grp, GroupsOn(d, name)))[o] == if o.kind == Grp && o.id in d.items && d.items[o.id].layer == name then 1 else 0
  {
    RefsOfCount(Grp, GroupsOn(d, name), o);
    KeysWhereCount(d.keys, d.items, (g: Group) => g.layer == name, o.id);
  }

  lemma TextBoxRefsCount(d: Dict<int, TextBox>, name: string, o: ObjRef)
    ensures multiset(RefsOf(Txt, TextBoxesOn(d, name)))[o] == if o.kind == Txt && o.id in d.items && d.items[o.id].layer == name then 1 else 0
  {
    RefsOfCount(Txt, TextBoxesOn(d, name), o);
    KeysWhereCount(d.keys, d.items, (t: TextBox) => t.layer == name, o.id);
  }

  /** Each layer's list holds exactly the elements that name it, once each. */
  ghost predicate MembershipExact(st: State) {
    forall name, o :: name in st.layers.items ==>
      multiset(st.layers.items[name].objects)[o] == if ElementLayer(st, o) == Some(name) then 1 else 0
  }

  /** Membership depends only on the layers and the element stores. */
  lemma ExactFrame(a: State, b: State)
    requires MembershipExact(a)
    requires a.layers == b.layers && a.requirements == b.requirements && a.groups == b.groups && a.textBoxes == b.textBoxes
    ensures MembershipExact(b)
  {
    assert forall o :: ElementLayer(a, o) == ElementLayer(b, o);
  }

  /** Each layer's list is the one `update_layer_objects` would build now. */
  ghost predicate MembershipCurrent(st: State) {
    forall name :: name in st.layers.items ==> st.layers.items[name].objects == Members(st, name)
  }

  lemma CurrentIsExact(st: State)
    requires MembershipCurrent(st)
    ensures MembershipExact(st)
  {
    forall name, o | name in st.layers.items
      ensures multiset(st.layers.items[name].objects)[o] == if ElementLayer(st, o) == Some(name) then 1 else 0
    {
      MembersCount(st, name, o);
    }
  }

  /** Under exact membership, an element appears in a layer's list exactly
      when it names that layer. */
  lemma Listed(st: State, name: string, o: ObjRef)
    requires MembershipExact(st)
    requires name in st.layers.items
    ensures o in st.layers.items[name].objects <==> ElementLayer(st, o) == Some(name)
  {
    assert multiset(st.layers.items[name].objects)[o] == if ElementLayer(st, o) == Some(name) then 1 else 0;
  }

  /** Every layer with its membership list rebuilt from the stores. */
  function RebuiltLayers(layers: Dict<string, Layer>, requirements: Dict<int, Requirement>, groups: Dict<int, Group>,
                         textBoxes: Dict<int, TextBox>): (ls: Dict<string, Layer>)
    ensures ls.keys == layers.keys
    ensures ls.items.Keys == layers.items.Keys
    ensures forall name :: name in layers.items ==> ls.items[name] == layers.items[name].(objects := MembersIn(requirements, groups, textBoxes, name))
  {
    MapValues(layers, (name: string, l: Layer) => l.(objects := MembersIn(requirements, groups, textBoxes, name)))
  }

  /** `update_layer_objects`: rebuilds every layer's membership list; flags,
      colors and the layer order are kept. An element whose layer is not
      registered is listed nowhere. */
  function UpdateLayerObjects(st: State): (r: State)
    ensures r == st.(layers := RebuiltLayers(st.layers, st.requirements, st.groups, st.textBoxes))
    ensures r.layers.keys == st.layers.keys
    ensures r.layers.items.Keys == st.layers.items.Keys
    ensures forall name :: name in st.layers.items ==>
      && r.layers.items[name].visible == st.layers.items[name].visible
      && r.layers.items[name].locked == st.layers.items[name].locked
      && r.layers.items[name].color == st.layers.items[name].color
    ensures forall name :: name in st.layers.items ==> r.layers.items[name].objects == Members(st, name)
    ensures MembershipCurrent(r)
    ensures MembershipExact(r)
  {
    var r := st.(layers := RebuiltLayers(st.layers, st.requirements, st.groups, st.textBoxes));
    assert forall name :: Members(r, name) == Members(st, name);
    CurrentIsExact(r);
    r
  }

  /** Rebuilding lists that are already current changes nothing. */
  lemma UpdateCurrentIsIdentity(st: State)
    requires MembershipCurrent(st)
    ensures UpdateLayerObjects(st) == st
  {
    var r := UpdateLayerObjects(st);
    assert forall name :: Members(r, name) == Members(st, name);
    assert r.layers.items == st.layers.items by {
      forall name | name in st.layers.items ensures r.layers.items[name] == st.layers.items[name] {
        assert r.layers.items[name].objects == st.layers.items[name].objects;
      }
    }
  }

  /** Rebuilding twice is rebuilding once. */
  lemma UpdateIdempotent(st: State)
    ensures UpdateLayerObjects(UpdateLayerObjects(st)) == UpdateLayerObjects(st)
  {
    UpdateCurrentIsIdentity(UpdateLayerObjects(st));
  }

  /** `add_new_layer`: a non-empty name not yet used is appended as a
      visible, unlocked, black, empty layer; any other answer changes nothing. */
  function AddLayer(st: State, answer: Option<string>): (r: State)
    ensures !Given(answer) || answer.value in st.layers.items ==> r == st
    ensures Given(answer) && answer.value !in st.layers.items ==>
      && r == st.(layers := r.layers)
      && r.layers.keys == st.layers.keys + [answer.value]
      && r.layers.items == st.layers.items[answer.value := Layer(true, false, "black", [])]
  {
    if Given(answer) && answer.value !in st.layers.items then
      st.(layers := Put(st.layers, answer.value, Layer(true, false, "black", [])))
    else
      st
  }

  /** `delete_layer`: refused while at most one layer exists; an unknown or
      empty name changes nothing; a layer that still lists elements needs
      the user's confirmation. Deleting the active layer makes the first
      remaining layer active. Elements keep naming the deleted layer. */
  function DeleteLayer(st: State, answer: Option<string>, confirmed: bool): (r: State)
    ensures Len(st.layers) <= 1 ==> r == st
    ensures !Given(answer) || answer.value !in st.layers.items ==> r == st
    ensures (&& Len(st.layers) > 1 && Given(answer) && answer.value in st.layers.items
             && |st.layers.items[answer.value].objects| > 0 && !confirmed) ==> r == st
    ensures (&& Len(st.layers) > 1 && Given(answer) && answer.value in st.layers.items
             && (st.layers.items[answer.value].objects == [] || confirmed)) ==>
      && r.layers.keys == Without(st.layers.keys, answer.value)
      && r.layers.items == st.layers.items - {answer.value}
      && |r.layers.keys| >= 1
      && r.currentLayer == (if st.currentLayer == answer.value then r.layers.keys[0] else st.currentLayer)
    ensures Len(st.layers) >= 1 ==> Len(r.layers) >= 1
    ensures st.currentLayer in st.layers.items ==> r.currentLayer in r.layers.items
    ensures r.layers != st.layers ==>
      && Len(st.layers) > 1
      && Given(answer) && answer.value in st.layers.items
      && (st.layers.items[answer.value].objects == [] || confirmed)
      && r.layers.items == st.layers.items - {answer.value}
      && (st.currentLayer == answer.value ==> r.currentLayer == r.layers.keys[0])
      && (st.currentLayer != answer.value ==> r.currentLayer == st.currentLayer)
    ensures r == st.(layers := r.layers, currentLayer := r.currentLayer)
  {
    if Len(st.layers) <= 1 then st
    else if !Given(answer) || answer.value !in st.layers.items then st
    else
      var name := answer.value;
      if |st.layers.items[name].objects| > 0 && !confirmed then st
      else
        var layers := Remove(st.layers, name);
        assert Len(layers) >= 1;
        assert layers.keys[0] in layers.items;
        st.(layers := layers, currentLayer := if st.currentLayer == name then layers.keys[0] else st.currentLayer)
  }

  /** A run of layer deletions never leaves the editor without a layer. */
  lemma {:induction false} DeletionsKeepALayer(st: State, answers: seq<Option<string>>, confirmed: bool)
    requires Len(st.layers) >= 1
    ensures Len(DeleteAll(st, answers, confirmed).layers) >= 1
    decreases |answers|
  {
    if |answers| > 0 {
      DeletionsKeepALayer(DeleteLayer(st, answers[0], confirmed), answers[1..], confirmed);
    }
  }

  function DeleteAll(st: State, answers: seq<Option<string>>, confirmed: bool): State
    decreases |answers|
  {
    if |answers| == 0 then st else DeleteAll(DeleteLayer(st, answers[0], confirmed), answers[1..], confirmed)
  }

  /** `toggle_layer_visibility` (the canvas refresh it triggers is not state). */
  function SetLayerVisible(st: State, name: string, visible: bool): (r: State)
    ensures name !in st.layers.items ==> r == st
    ensures name in st.layers.items ==>
      && r == st.(layers := r.layers)
      && r.layers.keys == st.layers.keys
      && r.layers.items == st.layers.items[name := st.layers.items[name].(visible := visible)]
  {
    if name in st.layers.items then st.(layers := Put(st.layers, name, st.layers.items[name].(visible := visible)))
    else st
  }

  /** `toggle_layer_lock`. */
  function SetLayerLocked(st: State, name: string, locked: bool): (r: State)
    ensures name !in st.layers.items ==> r == st
    ensures name in st.layers.items ==>
      && r == st.(layers := r.layers)
      && r.layers.keys == st.layers.keys
      && r.layers.items == st.layers.items[name := st.layers.items[name].(locked := locked)]
      && IsLayerLocked(r, name) == locked
      && forall other :: other != name ==> IsLayerLocked(r, other) == IsLayerLocked(st, other)
  {
    if name in st.layers.items then st.(layers := Put(st.layers, name, st.layers.items[name].(locked := locked)))
    else st
  }

  /** `on_layer_change`: the active-layer combobox offers the registered names only. */
  function SetCurrentLayer(st: State, name: string): (r: State)
    requires name in st.layers.items
    ensures r.currentLayer == name && r.currentLayer in r.layers.items
    ensures r == st.(currentLayer := name)
  {
    st.(currentLayer := name)
  }

  /** Layer edits that keep the stores and every surviving list keep the lists current. */
  lemma CurrentAcrossLayerEdit(st: State, r: State)
    requires MembershipCurrent(st)
    requires r.requirements == st.requirements && r.groups == st.groups && r.textBoxes == st.textBoxes
    requires forall n :: n in r.layers.items ==> n in st.layers.items && r.layers.items[n].objects == st.layers.items[n].objects
    ensures MembershipCurrent(r)
  {
    assert forall n :: Members(r, n) == Members(st, n);
  }

  /** Deleting a layer keeps the remaining lists current: it moves no element. */
  lemma DeleteLayerKeepsLists(st: State, answer: Option<string>, confirmed: bool)
    requires MembershipCurrent(st)
    ensures MembershipCurrent(DeleteLayer(st, answer, confirmed))
  {
    var r := DeleteLayer(st, answer, confirmed);
    if r.layers != st.layers {
      assert r.layers.items == st.layers.items - {answer.value};
    }
    CurrentAcrossLayerEdit(st, r);
  }

  /** Toggling a layer's visibility keeps the lists current. */
  lemma ToggleVisibleKeepsLists(st: State, name: string, flag: bool)
    requires MembershipCurrent(st)
    ensures MembershipCurrent(SetLayerVisible(st, name, flag))
  {
    var r := SetLayerVisible(st, name, flag);
    forall n | n in r.layers.items ensures n in st.layers.items && r.layers.items[n].objects == st.layers.items[n].objects {
    }
    CurrentAcrossLayerEdit(st, r);
  }

  /** Toggling a layer's lock keeps the lists current. */
  lemma ToggleLockedKeepsLists(st: State, name: string, flag: bool)
    requires MembershipCurrent(st)
    ensures MembershipCurrent(SetLayerLocked(st, name, flag))
  {
    var r := SetLayerLocked(st, name, flag);
    forall n | n in r.layers.items ensures n in st.layers.items && r.layers.items[n].objects == st.layers.items[n].objects {
    }
    CurrentAcrossLayerEdit(st, r);
  }

  /** A new layer starts with an empty list, which is current exactly when no
      element already names it (elements keep the name of a deleted layer). */
  lemma AddLayerCurrentIff(st: State, answer: Option<string>)
    requires MembershipCurrent(st)
    requires Given(answer) && answer.value !in st.layers.items
    ensures MembershipCurrent(AddLayer(st, answer)) <==> Members(st, answer.value) == []
  {
    var r := AddLayer(st, answer);
    var name := answer.value;
    assert r.layers.items[name].objects == [];
    forall n | n in r.layers.items && n != name ensures r.layers.items[n].objects == Members(r, n) {
      assert r.layers.items[n] == st.layers.items[n];
    }
  }
}

=== FILE: linking.dfy ===
/** Parent/child links made by dragging a child requirement onto a parent.
    A link is recorded twice: in the parent's `children` list and in
    `links[parent]`; the two lists are kept separately. */
module Linking {
  import opened Options
  import opened Dicts
  import opened Domain
  import opened Layers
  import opened Store

  /** The drop rule: a child ("alt") requirement dropped on a different
      parent ("ust") requirement that does not list it yet. */
  predicate CanLink(st: State, dragged: int, target: int) {
    && target != dragged
    && dragged in st.requirements.items
    && target in st.requirements.items
    && st.requirements.items[dragged].kind == Alt
    && st.requirements.items[target].kind == Ust
    && dragged !in st.requirements.items[target].children
  }

  /** `links.get(p, [])`. */
  function LinksOf(st: State, p: int): seq<int> {
    if p in st.links.items then st.links.items[p] else []
  }

  /** One hit of the drop loop in `stop_drag`: when the rule allows it,
      `dragged` is appended once to the target's children and to
      `links[target]` (created empty when missing); otherwise nothing changes. */
  function Drop(st: State, dragged: int, target: int): (r: State)
    ensures !CanLink(st, dragged, target) ==> r == st
    ensures CanLink(st, dragged, target) ==>
      && r == st.(requirements := r.requirements, links := r.links)
      && r.requirements.keys == st.requirements.keys
      && r.requirements.items == st.requirements.items[target := st.requirements.items[target].(children := st.requirements.items[target].children + [dragged])]
      && r.links.items == st.links.items[target := LinksOf(st, target) + [dragged]]
  {
    if CanLink(st, dragged, target) then
      var parent := st.requirements.items[target];
      st.(requirements := Put(st.requirements, target, parent.(children := parent.children + [dragged])),
          links := Put(st.links, target, LinksOf(st, target) + [dragged]))
    else st
  }

  /** A drop changes the state exactly when the rule allows the link. */
  lemma DropChangesIffLinkable(st: State, dragged: int, target: int)
    ensures Drop(st, dragged, target) != st <==> CanLink(st, dragged, target)
  {
    if CanLink(st, dragged, target) {
      var r := Drop(st, dragged, target);
      assert |r.requirements.items[target].children| == |st.requirements.items[target].children| + 1;
    }
  }

  /** Dropping the same child on the same parent twice links it once. */
  lemma DropIdempotent(st: State, dragged: int, target: int)
    ensures Drop(Drop(st, dragged, target), dragged, target) == Drop(st, dragged, target)
  {
    var r := Drop(st, dragged, target);
    if CanLink(st, dragged, target) {
      assert dragged in r.requirements.items[target].children;
    }
  }

  /** The link structure every handler keeps: links hang off existing
      requirements, name existing requirements once each, and are mirrored in
      the parent's children, which are themselves listed once each. */
  ghost predicate LinksWellFormed(st: State) {
    && (forall p :: p in st.links.items ==>
          && p in st.requirements.items
          && Distinct(st.links.items[p])
          && forall c :: c in st.links.items[p] ==> c in st.requirements.items && c in st.requirements.items[p].children)
    && (forall n :: n in st.requirements.items ==> Distinct(st.requirements.items[n].children))
  }

  /** Appending an element not yet listed keeps a list duplicate-free. */
  lemma AppendAbsent(s: seq<int>, x: int)
    requires Distinct(s) && x !in s
    ensures Distinct(s + [x])
  {
    var t := s + [x];
    forall i, j | 0 <= i < j < |t| ensures t[i] != t[j] {
      assert t[i] == s[i];
    }
  }

  lemma DropKeepsLinksWellFormed(st: State, dragged: int, target: int)
    requires LinksWellFormed(st)
    ensures LinksWellFormed(Drop(st, dragged, target))
  {
    if CanLink(st, dragged, target) {
      var r := Drop(st, dragged, target);
      var children := st.requirements.items[target].children;
      var listed := LinksOf(st, target);
      assert dragged !in listed;
      AppendAbsent(children, dragged);
      AppendAbsent(listed, dragged);
      forall p | p in r.links.items
        ensures p in r.requirements.items && Distinct(r.links.items[p])
        ensures forall c :: c in r.links.items[p] ==> c in r.requirements.items && c in r.requirements.items[p].children
      {
        if p == target {
          assert r.links.items[p] == listed + [dragged];
          assert r.requirements.items[p].children == children + [dragged];
        } else {
          assert r.links.items[p] == st.links.items[p];
          assert r.requirements.items[p] == st.requirements.items[p];
        }
      }
      forall n | n in r.requirements.items ensures Distinct(r.requirements.items[n].children) {
        if n != target {
          assert r.requirements.items[n] == st.requirements.items[n];
        }
      }
    }
  }

  // ---------------------------------------------------------------------
  // Redrawing the links

  /** Whether `redraw_links` runs to the end. It looks up the registry entry
      of every stored links parent's layer, and of every stored child's
      layer under a parent on a visible layer; a layer name missing from the
      registry raises `KeyError`. A confirmed `delete_layer` leaves such
      names behind. Every visible parent is taken to be drawn. */
  predicate LinksDrawable(st: State) {
    forall p :: p in st.links.items && p in st.requirements.items ==>
      && st.requirements.items[p].layer in st.layers.items
      && (st.layers.items[st.requirements.items[p].layer].visible ==>
            forall c :: c in st.links.items[p] && c in st.requirements.items ==> st.requirements.items[c].layer in st.layers.items)
  }

  /** Every requirement names a registered layer. */
  predicate LayersRegistered(st: State) {
    forall n :: n in st.requirements.items ==> st.requirements.items[n].layer in st.layers.items
  }

  /** While every requirement names a registered layer, the links redraw. */
  lemma RegisteredDrawable(st: State)
    requires LayersRegistered(st)
    ensures LinksDrawable(st)
  {
  }

  /** Rebuilding the membership lists keeps the registry's names and flags,
      so it does not change whether the links redraw. */
  lemma DrawableAcrossRebuild(st: State)
    ensures LinksDrawable(UpdateLayerObjects(st)) <==> LinksDrawable(st)
  {
    var r := UpdateLayerObjects(st);
    assert r.requirements == st.requirements && r.links == st.links;
  }

  /** Every hit of the drop loop in turn, in store order. A link made is
      followed by `redraw_links`, so a link after which the links cannot be
      redrawn ends the loop there. */
  function DropAll(st: State, dragged: int, hits: seq<int>): State
    decreases |hits|
  {
    if |hits| == 0 then st
    else
      var st1 := Drop(st, dragged, hits[0]);
      if CanLink(st, dragged, hits[0]) && !LinksDrawable(st1) then st1 else DropAll(st1, dragged, hits[1..])
  }

  /** Reference definition: every hit in turn, with no redraw in between. */
  function DropEvery(st: State, dragged: int, hits: seq<int>): State
    decreases |hits|
  {
    if |hits| == 0 then st else DropEvery(Drop(st, dragged, hits[0]), dragged, hits[1..])
  }

  /** A drop touches neither the registry nor any requirement's layer. */
  lemma DropKeepsRegistered(st: State, dragged: int, target: int)
    requires LayersRegistered(st)
    ensures LayersRegistered(Drop(st, dragged, target))
  {
  }

  /** While every requirement names a registered layer, the drop loop never
      stops early: it makes every link the hits allow. */
  lemma {:induction false} DropAllRegistered(st: State, dragged: int, hits: seq<int>)
    requires LayersRegistered(st)
    ensures DropAll(st, dragged, hits) == DropEvery(st, dragged, hits)
    decreases |hits|
  {
    if |hits| > 0 {
      var st1 := Drop(st, dragged, hits[0]);
      DropKeepsRegistered(st, dragged, hits[0]);
      RegisteredDrawable(st1);
      DropAllRegistered(st1, dragged, hits[1..]);
    }
  }

  /** A loop that stops early stops at a link it has just made, and the
      links it leaves cannot be redrawn. */
  lemma {:induction false} DropAllStops(st: State, dragged: int, hits: seq<int>)
    ensures var r := DropAll(st, dragged, hits);
      r == DropEvery(st, dragged, hits) || !LinksDrawable(r)
    decreases |hits|
  {
    if |hits| > 0 {
      var st1 := Drop(st, dragged, hits[0]);
      if !(CanLink(st, dragged, hits[0]) && !LinksDrawable(st1)) {
        DropAllStops(st1, dragged, hits[1..]);
      }
    }
  }

  lemma DropAppends(st: State, dragged: int, target: int, p: int)
    ensures LinksOf(Drop(st, dragged, target), p) == LinksOf(st, p)
         || LinksOf(Drop(st, dragged, target), p) == LinksOf(st, p) + [dragged]
  {
  }

  /** A list that already holds `x` and gains `x` at its end is not duplicate-free. */
  lemma AppendPresent(s: seq<int>, x: int)
    requires x in s
    ensures !Distinct(s + [x])
  {
    var k :| 0 <= k < |s| && s[k] == x;
    assert (s + [x])[k] == (s + [x])[|s|];
  }

  /** The reference loop only ever appends the dragged requirement: every
      links list either stays as it was or gains `dragged` once at its end,
      and the set of requirements does not change. */
  lemma {:induction false} DropEveryOnlyAppends(st: State, dragged: int, hits: seq<int>, p: int)
    requires LinksWellFormed(st)
    ensures LinksWellFormed(DropEvery(st, dragged, hits))
    ensures DropEvery(st, dragged, hits).requirements.keys == st.requirements.keys
    ensures LinksOf(DropEvery(st, dragged, hits), p) == LinksOf(st, p)
         || LinksOf(DropEvery(st, dragged, hits), p) == LinksOf(st, p) + [dragged]
    decreases |hits|
  {
    if |hits| > 0 {
      var st1 := Drop(st, dragged, hits[0]);
      var r := DropEvery(st1, dragged, hits[1..]);
      DropKeepsLinksWellFormed(st, dragged, hits[0]);
      DropEveryOnlyAppends(st1, dragged, hits[1..], p);
      DropAppends(st, dragged, hits[0], p);
      if LinksOf(st1, p) != LinksOf(st, p) && LinksOf(r, p) != LinksOf(st1, p) {
        AppendPresent(LinksOf(st1, p), dragged);
        assert false;
      }
    }
  }

  /** The reference loop over the first `k + 1` hits is the first drop
      followed by the loop over the next `k`. */
  lemma DropEveryStep(st: State, dragged: int, hits: seq<int>, k: nat)
    requires k < |hits|
    ensures DropEvery(st, dragged, hits[..k + 1]) == DropEvery(Drop(st, dragged, hits[0]), dragged, hits[1..][..k])
  {
    assert hits[..k + 1][0] == hits[0] && hits[..k + 1][1..] == hits[1..][..k];
  }

  /** The drop loop runs the reference loop over a prefix of the hits. */
  lemma {:induction false} DropAllIsPrefix(st: State, dragged: int, hits: seq<int>)
    ensures exists k :: 0 <= k <= |hits| && DropAll(st, dragged, hits) == DropEvery(st, dragged, hits[..k])
    decreases |hits|
  {
    if |hits| == 0 {
      assert DropAll(st, dragged, hits) == DropEvery(st, dragged, hits[..0]);
    } else {
      var st1 := Drop(st, dragged, hits[0]);
      if CanLink(st, dragged, hits[0]) && !LinksDrawable(st1) {
        DropEveryStep(st, dragged, hits, 0);
        assert DropAll(st, dragged, hits) == DropEvery(st, dragged, hits[..1]);
      } else {
        DropAllIsPrefix(st1, dragged, hits[1..]);
        var k :| 0 <= k <= |hits[1..]| && DropAll(st1, dragged, hits[1..]) == DropEvery(st1, dragged, hits[1..][..k]);
        DropEveryStep(st, dragged, hits, k);
        assert DropAll(st, dragged, hits) == DropEvery(st, dragged, hits[..k + 1]);
      }
    }
  }


  /** So the drop loop, too, only ever appends the dragged requirement, keeps
      the links well formed and keeps the set of requirements. */
  lemma DropAllOnlyAppends(st: State, dragged: int, hits: seq<int>, p: int)
    requires LinksWellFormed(st)
    ensures LinksWellFormed(DropAll(st, dragged, hits))
    ensures DropAll(st, dragged, hits).requirements.keys == st.requirements.keys
    ensures LinksOf(DropAll(st, dragged, hits), p) == LinksOf(st, p)
         || LinksOf(DropAll(st, dragged, hits), p) == LinksOf(st, p) + [dragged]
  {
    DropAllIsPrefix(st, dragged, hits);
    var k :| 0 <= k <= |hits| && DropAll(st, dragged, hits) == DropEvery(st, dragged, hits[..k]);
    DropEveryOnlyAppends(st, dragged, hits[..k], p);
  }



  /** Pressing on requirement `dragged`, dragging and releasing over the
      requirements `hits` (those whose box contains the release point, in
      store order). A requirement on a locked layer does not start a drag.
      Pressing on a selected requirement moves the whole selection instead,
      which makes no link; pressing on any other requirement clears the
      selection first. Requirement number 0 starts no drag at all. */
  function DragRelease(st: State, dragged: int, hits: seq<int>): (r: State)
    ensures dragged !in st.requirements.items ==> r == st
    ensures dragged in st.requirements.items && dragged != 0 && ReqLocked(st, dragged) ==> r == st
    ensures ObjRef(Req, dragged) in st.selected ==> r == st
    ensures dragged == 0 && dragged in st.requirements.items && ObjRef(Req, 0) !in st.selected ==> r == st.(selected := {})
    ensures dragged in st.requirements.items && dragged != 0 && !ReqLocked(st, dragged) && ObjRef(Req, dragged) !in st.selected ==>
      r == DropAll(st.(selected := {}), dragged, hits)
  {
    if dragged !in st.requirements.items then st
    else if dragged != 0 && ReqLocked(st, dragged) then st
    else if ObjRef(Req, dragged) in st.selected then st
    else
      var cleared := st.(selected := {});
      if dragged == 0 then cleared else DropAll(cleared, dragged, hits)
  }

  lemma DragReleaseKeepsLinksWellFormed(st: State, dragged: int, hits: seq<int>)
    requires LinksWellFormed(st)
    ensures LinksWellFormed(DragRelease(st, dragged, hits))
  {
    if dragged in st.requirements.items && dragged != 0 && !ReqLocked(st, dragged) && ObjRef(Req, dragged) !in st.selected {
      DropAllOnlyAppends(st.(selected := {}), dragged, hits, dragged);
    }
  }
}

=== FILE: linkinvariants.dfy ===
/** The link structure across a session: which handlers keep links well
    formed, how `reset_ids` as written lets a later deletion leave a link
    behind, and how a counter moved past every stored number prevents it. */
module LinkInvariants {
  import opened Options
  import opened Dicts
  import opened Domain
  import opened Layers
  import opened Store
  import opened Linking
  import opened Ids
  import opened Deletion
  import opened Workflow

  /** Well-formed links depend only on the links and each requirement's children. */
  lemma LinksFrame(a: State, b: State)
    requires LinksWellFormed(a)
    requires b.links == a.links && b.requirements.items.Keys == a.requirements.items.Keys
    requires forall n :: n in a.requirements.items ==> b.requirements.items[n].children == a.requirements.items[n].children
    ensures LinksWellFormed(b)
  {
  }

  /** Storing a record with the children a requirement already has keeps the links well formed. */
  lemma LinksAcrossPut(a: State, b: State, num: int, info: Requirement)
    requires LinksWellFormed(a)
    requires num in a.requirements.items && info.children == a.requirements.items[num].children
    requires b.links == a.links && b.requirements.items == a.requirements.items[num := info]
    ensures LinksWellFormed(b)
  {
    LinksFrame(a, b);
  }

  /** Storing a childless record under an unused number keeps the links well formed. */
  lemma LinksAcrossInsert(a: State, b: State, num: int, info: Requirement)
    requires LinksWellFormed(a)
    requires num !in a.requirements.items && info.children == []
    requires b.links == a.links && b.requirements.items == a.requirements.items[num := info]
    ensures LinksWellFormed(b)
  {
    assert forall p :: p in a.links.items ==> p != num && b.requirements.items[p] == a.requirements.items[p];
  }

  /** A fresh editor has no links. */
  lemma InitialLinksWellFormed()
    ensures LinksWellFormed(Initial())
  {
  }

  /** Relabelling touches no children and no links, with either counter. */
  lemma ResetKeepsLinksWellFormed(st: State)
    requires LinksWellFormed(st)
    ensures LinksWellFormed(ResetIds(st))
    ensures LinksWellFormed(ResetIdsFresh(st))
  {
    LinksFrame(st, ResetIds(st));
    LinksFrame(st, ResetIdsFresh(st));
  }

  /** While the counters are fresh, a creation adds a requirement without
      children and leaves every linked one alone. */
  lemma CreateKeepsLinksWellFormed(st: State, kind: Kind, pos: Point, now: Timestamp)
    requires LinksWellFormed(st) && CountersFresh(st)
    ensures LinksWellFormed(CreateRequirement(st, kind, pos, now))
  {
    if !IsLayerLocked(st, st.currentLayer) {
      LinksAcrossInsert(st, CreateRequirement(st, kind, pos, now), st.nextId, NewRequirement(st, kind, pos, now));
    }
  }

  /** Title, colour and layer edits keep every children list, and so the links. */
  lemma RequirementEditsKeepLinksWellFormed(st: State, num: int, title: Option<string>, color: string, layer: Option<string>)
    requires LinksWellFormed(st)
    ensures LinksWellFormed(EditTitle(st, num, title))
    ensures LinksWellFormed(SetReqColor(st, num, color))
    ensures LinksWellFormed(ChangeReqLayer(st, num, layer))
  {
    if num in st.requirements.items {
      var info := st.requirements.items[num];
      if num != 0 && !ReqLocked(st, num) && Given(title) {
        LinksAcrossPut(st, EditTitle(st, num, title), num, info.(text := title.value));
      }
      if !ReqLocked(st, num) {
        LinksAcrossPut(st, SetReqColor(st, num, color), num, info.(color := color));
      }
      if Given(layer) {
        LinksAcrossPut(st, ChangeReqLayer(st, num, layer), num, info.(layer := layer.value));
      }
    }
  }

  /** The reset of the session below: the counter falls back to 3 and nothing
      the later steps read changes. */
  lemma ChainReset(st: State)
    requires st.requirements.keys == [1, 3] && st.nextId == 4
    ensures var s := ResetIds(st);
      && s.requirements.keys == [1, 3] && s.nextId == 3
      && s.links == st.links && s.layers == st.layers && s.currentLayer == st.currentLayer
      && s.requirements.items[1].kind == st.requirements.items[1].kind
      && s.requirements.items[1].layer == st.requirements.items[1].layer
  {
  }

  /** The creation of the session below replaces requirement 3 by a parent
      without children, while `links[3]` still names 1. */
  lemma ChainCreate(s: State, pos: Point, now: Timestamp)
    requires s.requirements.keys == [1, 3] && s.nextId == 3 && !IsLayerLocked(s, s.currentLayer)
    requires s.links.keys == [3] && s.links.items[3] == [1]
    ensures var c := CreateRequirement(s, Ust, pos, now);
      && 1 in c.requirements.items && 3 in c.requirements.items
      && c.requirements.items[1] == s.requirements.items[1]
      && c.requirements.items[3].kind == Ust && c.requirements.items[3].children == []
      && c.links == s.links
      && (forall name :: IsLayerLocked(c, name) == IsLayerLocked(s, name))
  {
    var c := CreateRequirement(s, Ust, pos, now);
    assert c.requirements.items[3] == NewRequirement(s, Ust, pos, now);
  }

  /** A links entry naming a requirement missing from the parent's children breaks well-formedness. */
  lemma UnmirroredLink(c: State, p: int, child: int)
    requires p in c.links.items && child in c.links.items[p]
    requires p in c.requirements.items && child !in c.requirements.items[p].children
    ensures !LinksWellFormed(c)
  {
  }

  /** The drop of the session below lists 1 a second time under 3, and the
      deletion of 1 removes only one of the two. */
  lemma ChainDropDelete(c: State, now: Timestamp)
    requires 1 in c.requirements.items && 3 in c.requirements.items
    requires c.requirements.items[1].kind == Alt && !IsLayerLocked(c, c.requirements.items[1].layer)
    requires c.requirements.items[3].kind == Ust && c.requirements.items[3].children == []
    requires c.links.keys == [3] && c.links.items[3] == [1]
    ensures var r := DeleteRequirement(Drop(c, 1, 3), 1, true, now);
      && 1 !in r.requirements.items
      && 3 in r.links.items && 1 in r.links.items[3]
  {
    assert CanLink(c, 1, 3);
    var d := Drop(c, 1, 3);
    assert d.links.items[3] == [1, 1];
    assert d.requirements.items[1] == c.requirements.items[1] && d.layers == c.layers;
    assert Deletable(d, 1);
    assert d.links.keys == [3];
    assert ParentsStored(d, 1);
    CascadeComplete(d, 1, now);
    var r := DeleteRequirement(d, 1, true, now);
    assert r.links.items[3] == RemoveFirst([1, 1], 1);
    assert multiset(r.links.items[3])[1] == 1;
  }

  /** Review requests and status changes touch only a requirement's status
      and date, and so keep the links well formed. */
  lemma StatusChangesKeepLinksWellFormed(st: State, num: int, reviewerText: string, notesText: string,
                                         deadlineText: string, status: Status, now: Timestamp)
    requires LinksWellFormed(st)
    ensures LinksWellFormed(RequestReview(st, num, reviewerText, notesText, deadlineText, now))
    ensures LinksWellFormed(ChangeStatus(st, num, status, now))
  {
    if num in st.requirements.items {
      var info := st.requirements.items[num];
      LinksAcrossPut(st, RequestReview(st, num, reviewerText, notesText, deadlineText, now), num,
                     info.(status := InReview, modifiedDate := now));
      if info.status != status {
        LinksAcrossPut(st, ChangeStatus(st, num, status, now), num, info.(status := status, modifiedDate := now));
      }
    }
  }

  /** So do approvals and rejections of a review. */
  lemma ReviewDecisionsKeepLinksWellFormed(st: State, num: int, reason: Option<string>, now: Timestamp)
    requires LinksWellFormed(st)
    ensures LinksWellFormed(Workflow.Approve(st, num, now))
    ensures LinksWellFormed(Workflow.Reject(st, num, reason, now))
  {
    if ReqKey(num) in st.reviews {
      if num in st.requirements.items {
        var info := st.requirements.items[num];
        LinksAcrossPut(st, Workflow.Approve(st, num, now), num, info.(status := Approved, modifiedDate := now));
        if Given(reason) {
          LinksAcrossPut(st, Workflow.Reject(st, num, reason, now), num, info.(status := Rejected, modifiedDate := now));
        }
      } else {
        LinksFrame(st, Workflow.Approve(st, num, now));
        LinksFrame(st, Workflow.Reject(st, num, reason, now));
      }
    }
  }

  /** `reset_ids` as written, then creating a parent, dropping a child on it
      and deleting that child: with requirements 1 (a child) and 3 (a parent
      linking 1) and the counter at 4, the reset puts the counter back at 3,
      the creation replaces requirement 3 by a parent without children while
      `links[3]` still names 1, the drop lists 1 a second time, and the
      deletion removes only one of the two, so `links[3]` still names the
      deleted requirement. */
  lemma ResetCreateDropDeleteLeavesLink(st: State, pos: Point, t1: Timestamp, t2: Timestamp)
    requires st.requirements.keys == [1, 3] && st.nextId == 4
    requires st.requirements.items[1].kind == Alt
    requires st.links.keys == [3] && st.links.items[3] == [1]
    requires !IsLayerLocked(st, st.currentLayer) && !IsLayerLocked(st, st.requirements.items[1].layer)
    requires LinksWellFormed(st) && CountersFresh(st)
    ensures var created := CreateRequirement(ResetIds(st), Ust, pos, t1);
      && !LinksWellFormed(created)
      && var r := DeleteRequirement(Drop(created, 1, 3), 1, true, t2);
         && 1 !in r.requirements.items
         && 3 in r.links.items && 1 in r.links.items[3]
  {
    ChainReset(st);
    var s := ResetIds(st);
    ChainCreate(s, pos, t1);
    var c := CreateRequirement(s, Ust, pos, t1);
    UnmirroredLink(c, 3, 1);
    ChainDropDelete(c, t2);
  }

  /** With the corrected counter the same session keeps the links well
      formed, so a deletion afterwards leaves no links list naming the
      deleted requirement, whatever is created, dropped or deleted. */
  lemma ResetFreshSessionLeavesNoLink(st: State, kind: Kind, pos: Point, t1: Timestamp,
                                      dragged: int, target: int, num: int, t2: Timestamp)
    requires LinksWellFormed(st) && CountersFresh(st)
    ensures var s := Drop(CreateRequirement(ResetIdsFresh(st), kind, pos, t1), dragged, target);
      && LinksWellFormed(s)
      && (Deletable(s, num) ==> forall p :: p in DeleteRequirement(s, num, true, t2).links.items ==>
                                   num !in DeleteRequirement(s, num, true, t2).links.items[p])
  {
    var s1 := ResetIdsFresh(st);
    ResetKeepsLinksWellFormed(st);
    ResetFreshKeepsCountersFresh(st);
    var s2 := CreateRequirement(s1, kind, pos, t1);
    CreateKeepsLinksWellFormed(s1, kind, pos, t1);
    var s := Drop(s2, dragged, target);
    DropKeepsLinksWellFormed(s2, dragged, target);
    if Deletable(s, num) {
      DeleteLeavesNoLink(s, num, t2);
    }
  }
}

=== FILE: options.dfy ===
/** Optional values and error-carrying results, used for dialog answers
    (None = the dialog was cancelled), fields a stored record may lack, and
    operations that can fail. */
module Options {

  datatype Option<+T> = None | Some(value: T) {

    /** The wrapped value, or `default` when there is none (Python `dict.get(key, default)`). */
    function GetOr(default: T): T {
      match this
      case Some(v) => v
      case None => default
    }
  }

  datatype Result<+T, +E> = Ok(value: T) | Err(error: E)
}

=== FILE: persistence.dfy ===
/** Saving the whole editor state to `requirements.json` and loading it back.
    The JSON text itself is not modelled: a `Document` is the value
    `json.load` would return, with every top-level key optional and JSON
    object keys as strings. */
module Persistence {
  import opened Options
  import opened Dicts
  import opened Text
  import opened Domain
  import opened History
  import opened Layers

  /** A stored requirement: the canvas handles are gone, and files written
      by older versions may lack the fields the loader fills in. */
  datatype StoredRequirement = StoredRequirement(
    id: string,
    num: int,
    kind: Kind,
    pos: Point,
    text: string,
    note: string,
    children: seq<int>,
    color: string,
    layer: Option<string>,
    status: Option<Status>,
    createdBy: Option<string>,
    createdDate: Option<Timestamp>,
    modifiedDate: Option<Timestamp>,
    handles: Handles)

  datatype StoredGroup = StoredGroup(id: int, name: string, pos: Point, size: Size, color: string, layer: Option<string>, handles: Handles)

  datatype StoredTextBox = StoredTextBox(id: int, content: string, pos: Point, size: Size, fontSize: int, layer: Option<string>, handles: Handles)

  /** The top-level JSON object; `None` is a key the file does not have. */
  datatype Document = Document(
    requirements: Option<Dict<string, StoredRequirement>>,
    links: Option<Dict<string, seq<int>>>,
    groups: Option<Dict<string, StoredGroup>>,
    textBoxes: Option<Dict<string, StoredTextBox>>,
    layers: Option<Dict<string, Layer>>,
    currentLayer: Option<string>,
    comments: Option<map<string, seq<Comment>>>,
    reviews: Option<map<string, Review>>,
    history: Option<seq<HistoryEntry>>,
    currentUser: Option<string>,
    nextId: Option<int>,
    nextGroupId: Option<int>,
    nextTextId: Option<int>,
    idPrefix: Option<string>,
    zoomFactor: Option<real>)

  // ---------------------------------------------------------------------
  // Saving

  /** The canvas item keys `save_data` pops from each kind of record. */
  const RequirementCanvasKeys: set<string> := {"rect", "text_id", "id_text_id", "status_text_id", "child_text_id"}
  const GroupCanvasKeys: set<string> := {"rect", "title", "resize_handle"}
  const TextCanvasKeys: set<string> := {"rect", "text", "resize_handle"}

  /** `json.dump` writes integer dictionary keys as their decimal text. */
  function StringKeyed<V>(d: Dict<int, V>): (r: Dict<string, V>)
    ensures |r.keys| == |d.keys|
    ensures forall i :: 0 <= i < |d.keys| ==> r.keys[i] == IntToString(d.keys[i]) && r.items[r.keys[i]] == d.items[d.keys[i]]
  {
    var ps := seq(|d.keys|, i requires 0 <= i < |d.keys| => (IntToString(d.keys[i]), d.items[d.keys[i]]));
    forall i, j | 0 <= i < j < |ps| ensures ps[i].0 != ps[j].0 {
      if ps[i].0 == ps[j].0 {
        IntToStringInjective(d.keys[i], d.keys[j]);
      }
    }
    FromPairsDistinct(ps);
    FromPairs(ps)
  }

  function StoreRequirement(info: Requirement): StoredRequirement {
    StoredRequirement(info.id, info.num, info.kind, info.pos, info.text, info.note, info.children, info.color,
                      Some(info.layer), Some(info.status), Some(info.createdBy), Some(info.createdDate), Some(info.modifiedDate),
                      info.handles)
  }

  function StoreGroup(g: Group): StoredGroup {
    StoredGroup(g.id, g.name, g.pos, g.size, g.color, Some(g.layer), g.handles)
  }

  function StoreTextBox(t: TextBox): StoredTextBox {
    StoredTextBox(t.id, t.content, t.pos, t.size, t.fontSize, Some(t.layer), t.handles)
  }

  /** The records as `save_data` writes them, without their canvas handles. */
  function StripHandles(st: State): (r: State)
    ensures r == st.(requirements := r.requirements, groups := r.groups, textBoxes := r.textBoxes)
    ensures r.requirements.keys == st.requirements.keys && r.groups.keys == st.groups.keys && r.textBoxes.keys == st.textBoxes.keys
    ensures forall n :: n in st.requirements.items ==>
      r.requirements.items[n] == st.requirements.items[n].(handles := st.requirements.items[n].handles - RequirementCanvasKeys)
    ensures forall g :: g in st.groups.items ==> r.groups.items[g] == st.groups.items[g].(handles := st.groups.items[g].handles - GroupCanvasKeys)
    ensures forall t :: t in st.textBoxes.items ==> r.textBoxes.items[t] == st.textBoxes.items[t].(handles := st.textBoxes.items[t].handles - TextCanvasKeys)
  {
    st.(requirements := MapValues(st.requirements, (n: int, info: Requirement) => info.(handles := info.handles - RequirementCanvasKeys)),
        groups := MapValues(st.groups, (n: int, g: Group) => g.(handles := g.handles - GroupCanvasKeys)),
        textBoxes := MapValues(st.textBoxes, (n: int, t: TextBox) => t.(handles := t.handles - TextCanvasKeys)))
  }

  /** `save_data`: every key is written; requirement, group and text box
      records lose their canvas handles; integer keys become decimal text,
      in store order. */
  function Save(st: State): (doc: Document)
    ensures doc.requirements.Some? && doc.links.Some? && doc.groups.Some? && doc.textBoxes.Some?
    ensures doc.layers == Some(st.layers) && doc.currentLayer == Some(st.currentLayer)
    ensures doc.comments == Some(st.comments) && doc.reviews == Some(st.reviews)
    ensures doc.history == Some(st.history) && doc.currentUser == Some(st.currentUser)
    ensures doc.nextId == Some(st.nextId) && doc.idPrefix == Some(st.idPrefix)
    ensures doc.nextGroupId == Some(st.nextGroupId) && doc.nextTextId == Some(st.nextTextId) && doc.zoomFactor == Some(st.zoomFactor)
    ensures doc.links == Some(StringKeyed(st.links))
    ensures |doc.requirements.value.keys| == |st.requirements.keys|
    ensures forall i :: 0 <= i < |st.requirements.keys| ==> doc.requirements.value.keys[i] == IntToString(st.requirements.keys[i])
    ensures |doc.groups.value.keys| == |st.groups.keys|
    ensures forall i :: 0 <= i < |st.groups.keys| ==> doc.groups.value.keys[i] == IntToString(st.groups.keys[i])
    ensures |doc.textBoxes.value.keys| == |st.textBoxes.keys|
    ensures forall i :: 0 <= i < |st.textBoxes.keys| ==> doc.textBoxes.value.keys[i] == IntToString(st.textBoxes.keys[i])
  {
    var bare := StripHandles(st);
    Document(Some(StringKeyed(MapValues(bare.requirements, (n: int, info: Requirement) => StoreRequirement(info)))),
             Some(StringKeyed(st.links)),
             Some(StringKeyed(MapValues(bare.groups, (n: int, g: Group) => StoreGroup(g)))),
             Some(StringKeyed(MapValues(bare.textBoxes, (n: int, t: TextBox) => StoreTextBox(t)))),
             Some(st.layers), Some(st.currentLayer), Some(st.comments), Some(st.reviews), Some(st.history),
             Some(st.currentUser), Some(st.nextId), Some(st.nextGroupId), Some(st.nextTextId), Some(st.idPrefix),
             Some(st.zoomFactor))
  }

  /** The `i`-th saved requirement is the `i`-th live one, filed under its
      number as text, with its canvas handles dropped and every field present. */
  lemma SavedRequirementAt(st: State, i: nat)
    requires i < |st.requirements.keys|
    ensures var doc := Save(st).requirements.value;
      var n := st.requirements.keys[i];
      && doc.items[IntToString(n)]
         == StoreRequirement(st.requirements.items[n].(handles := st.requirements.items[n].handles - RequirementCanvasKeys))
      && doc.items[IntToString(n)].handles.Keys !! RequirementCanvasKeys
  {
    var bare := StripHandles(st);
    var stored := MapValues(bare.requirements, (n: int, info: Requirement) => StoreRequirement(info));
    assert Save(st).requirements.value == StringKeyed(stored);
  }

  /** Likewise the `i`-th saved group: the live one, filed under its number
      as text, with its canvas handles dropped. */
  lemma SavedGroupAt(st: State, i: nat)
    requires i < |st.groups.keys|
    ensures var g := st.groups.keys[i];
      Save(st).groups.value.items[IntToString(g)]
      == StoreGroup(st.groups.items[g].(handles := st.groups.items[g].handles - GroupCanvasKeys))
  {
    var bare := StripHandles(st);
    var stored := MapValues(bare.groups, (n: int, g: Group) => StoreGroup(g));
    assert Save(st).groups.value == StringKeyed(stored);
  }

  /** And the `i`-th saved text box. */
  lemma SavedTextBoxAt(st: State, i: nat)
    requires i < |st.textBoxes.keys|
    ensures var t := st.textBoxes.keys[i];
      Save(st).textBoxes.value.items[IntToString(t)]
      == StoreTextBox(st.textBoxes.items[t].(handles := st.textBoxes.items[t].handles - TextCanvasKeys))
  {
    var bare := StripHandles(st);
    var stored := MapValues(bare.textBoxes, (n: int, t: TextBox) => StoreTextBox(t));
    assert Save(st).textBoxes.value == StringKeyed(stored);
  }

  // ---------------------------------------------------------------------
  // Loading

  /** Why `load_data` gave up; the program shows the message and keeps the
      state it had. */
  datatype LoadError = Unreadable | BadKey(key: string)

  /** `int(k)` over the keys of a stored dictionary, in order; the first key
      that is not an integer aborts. */
  function ParseKeys<V>(ps: seq<(string, V)>): (r: Result<seq<(int, V)>, LoadError>)
    ensures r.Ok? <==> forall i :: 0 <= i < |ps| ==> ParseInt(ps[i].0).Some?
    ensures r.Ok? ==> |r.value| == |ps| && forall i :: 0 <= i < |ps| ==> r.value[i] == (ParseInt(ps[i].0).value, ps[i].1)
    ensures r.Err? ==> exists i :: 0 <= i < |ps| && ParseInt(ps[i].0).None? && r.error == BadKey(ps[i].0)
  {
    if |ps| == 0 then Ok([])
    else
      match ParseInt(ps[0].0)
      case None => Err(BadKey(ps[0].0))
      case Some(k) =>
        var rest := ParseKeys(ps[1..]);
        if rest.Err? then
          var j :| 0 <= j < |ps[1..]| && ParseInt(ps[1..][j].0).None? && rest.error == BadKey(ps[1..][j].0);
          assert ParseInt(ps[j + 1].0).None?;
          Err(rest.error)
        else
          Ok([(k, ps[0].1)] + rest.value)
  }

  /** Every key of the pairs parses exactly when every key of the dict does. */
  lemma PairsParse<V>(d: Dict<string, V>)
    ensures (forall i :: 0 <= i < |Pairs(d)| ==> ParseInt(Pairs(d)[i].0).Some?) <==> (forall k :: k in d.items ==> ParseInt(k).Some?)
  {
    var ps := Pairs(d);
    if forall i :: 0 <= i < |ps| ==> ParseInt(ps[i].0).Some? {
      forall k | k in d.items ensures ParseInt(k).Some? {
        var i :| 0 <= i < |d.keys| && d.keys[i] == k;
        assert ps[i].0 == k;
      }
    }
  }

  /** `{int(k): v for k, v in data.get(name, {}).items()}`. */
  function IntKeyed<V>(stored: Option<Dict<string, V>>): (r: Result<Dict<int, V>, LoadError>)
    ensures stored.None? ==> r == Ok(Empty())
    ensures stored.Some? ==> (r.Ok? <==> forall k :: k in stored.value.items ==> ParseInt(k).Some?)
  {
    match stored
    case None => Ok(Empty())
    case Some(d) =>
      var ps := Pairs(d);
      var parsed := ParseKeys(ps);
      PairsParse(d);
      if parsed.Err? then Err(parsed.error) else Ok(FromPairs(parsed.value))
  }

  /** Keys that each parse to the matching number give exactly those pairs. */
  lemma {:induction false} ParseKeysExact<V>(ps: seq<(string, V)>, qs: seq<(int, V)>)
    requires |ps| == |qs|
    requires forall i :: 0 <= i < |ps| ==> ParseInt(ps[i].0) == Some(qs[i].0) && ps[i].1 == qs[i].1
    ensures ParseKeys(ps) == Ok(qs)
  {
    if |ps| > 0 {
      ParseKeysExact(ps[1..], qs[1..]);
      assert qs == [(qs[0].0, ps[0].1)] + qs[1..];
    }
  }

  /** The saved keys all parse, back to the numbers they were written from. */
  lemma ParseKeysStringKeyed<V>(d: Dict<int, V>)
    ensures ParseKeys(Pairs(StringKeyed(d))) == Ok(Pairs(d))
  {
    var ps := Pairs(StringKeyed(d));
    var qs := Pairs(d);
    forall i | 0 <= i < |ps| ensures ParseInt(ps[i].0) == Some(qs[i].0) && ps[i].1 == qs[i].1 {
      ParseIntRoundTrip(d.keys[i]);
    }
    ParseKeysExact(ps, qs);
  }

  /** Saved integer keys read back as the same dictionary. */
  lemma IntKeyedStringKeyed<V>(d: Dict<int, V>)
    ensures IntKeyed(Some(StringKeyed(d))) == Ok(d)
  {
    ParseKeysStringKeyed(d);
    FromPairsOfPairs(d);
  }

  /** A stored requirement that carries every field `load_data` would
      otherwise fill with a default. */
  predicate Complete(s: StoredRequirement) {
    s.layer.Some? && s.status.Some? && s.createdBy.Some? && s.createdDate.Some? && s.modifiedDate.Some?
  }

  /** The "old files" loop: a missing layer, status, author or date gets its default. */
  function FillRequirement(s: StoredRequirement, now: Timestamp): (info: Requirement)
    ensures Complete(s) <==> StoreRequirement(info) == s
    ensures info.layer == s.layer.GetOr(RequirementsLayer) && info.status == s.status.GetOr(Draft)
    ensures info.createdBy == s.createdBy.GetOr("Unknown")
    ensures info.createdDate == s.createdDate.GetOr(now) && info.modifiedDate == s.modifiedDate.GetOr(now)
    ensures info.num == s.num && info.id == s.id && info.children == s.children && info.handles == s.handles
  {
    Requirement(s.id, s.num, s.kind, s.pos, s.text, s.note, s.children, s.color,
                s.layer.GetOr(RequirementsLayer), s.status.GetOr(Draft), s.createdBy.GetOr("Unknown"),
                s.createdDate.GetOr(now), s.modifiedDate.GetOr(now), s.handles)
  }

  function FillGroup(s: StoredGroup): (g: Group)
    ensures g.layer == s.layer.GetOr(GroupsLayer) && g.id == s.id && g.size == s.size
  {
    Group(s.id, s.name, s.pos, s.size, s.color, s.layer.GetOr(GroupsLayer), s.handles)
  }

  function FillTextBox(s: StoredTextBox): (t: TextBox)
    ensures t.layer == s.layer.GetOr(NotesLayer) && t.id == s.id && t.size == s.size
  {
    TextBox(s.id, s.content, s.pos, s.size, s.fontSize, s.layer.GetOr(NotesLayer), s.handles)
  }

  function FillRequirements(reqs: Dict<int, StoredRequirement>, now: Timestamp): (r: Dict<int, Requirement>)
    ensures r.keys == reqs.keys
    ensures forall n :: n in reqs.items ==> n in r.items && r.items[n] == FillRequirement(reqs.items[n], now)
  {
    MapValues(reqs, (n: int, s: StoredRequirement) => FillRequirement(s, now))
  }

  function FillGroups(groups: Dict<int, StoredGroup>): (r: Dict<int, Group>)
    ensures r.keys == groups.keys
    ensures forall g :: g in groups.items ==> g in r.items && r.items[g] == FillGroup(groups.items[g])
  {
    MapValues(groups, (n: int, s: StoredGroup) => FillGroup(s))
  }

  function FillTextBoxes(texts: Dict<int, StoredTextBox>): (r: Dict<int, TextBox>)
    ensures r.keys == texts.keys
    ensures forall t :: t in texts.items ==> t in r.items && r.items[t] == FillTextBox(texts.items[t])
  {
    MapValues(texts, (n: int, s: StoredTextBox) => FillTextBox(s))
  }

  /** What `load_data` assigns after the four stores: the collaboration data
      and the counters get their defaults when the file lacks them, while
      layers, the active layer and the zoom stay as they were. The selection
      is never touched. */
  function AssignSettings(st: State, doc: Document): (r: State)
    ensures r.requirements == st.requirements && r.links == st.links && r.groups == st.groups && r.textBoxes == st.textBoxes
    ensures r.selected == st.selected
    ensures r.history == doc.history.GetOr([]) && r.currentUser == doc.currentUser.GetOr(DefaultUser)
    ensures r.layers == doc.layers.GetOr(st.layers) && r.currentLayer == doc.currentLayer.GetOr(st.currentLayer)
    ensures r.comments == doc.comments.GetOr(map[]) && r.reviews == doc.reviews.GetOr(map[])
    ensures r.nextId == doc.nextId.GetOr(1) && r.nextGroupId == doc.nextGroupId.GetOr(1) && r.nextTextId == doc.nextTextId.GetOr(1)
    ensures r.idPrefix == doc.idPrefix.GetOr(DefaultPrefix) && r.zoomFactor == doc.zoomFactor.GetOr(st.zoomFactor)
  {
    st.(comments := doc.comments.GetOr(map[]),
        reviews := doc.reviews.GetOr(map[]),
        history := doc.history.GetOr([]),
        currentUser := doc.currentUser.GetOr(DefaultUser),
        layers := doc.layers.GetOr(st.layers),
        currentLayer := doc.currentLayer.GetOr(st.currentLayer),
        nextId := doc.nextId.GetOr(1),
        nextGroupId := doc.nextGroupId.GetOr(1),
        nextTextId := doc.nextTextId.GetOr(1),
        idPrefix := doc.idPrefix.GetOr(DefaultPrefix),
        zoomFactor := doc.zoomFactor.GetOr(st.zoomFactor))
  }

  /** The last steps of a load that got past all four stores: layer lists
      are rebuilt and one SYSTEM entry is recorded in the loaded user's name. */
  function Finish(st: State, doc: Document, now: Timestamp): (r: State)
    ensures r.selected == st.selected
    ensures MembershipExact(r)
    ensures |r.history| >= 1
    ensures r.history[|r.history| - 1]
         == HistoryEntry(now, doc.currentUser.GetOr(DefaultUser), SystemEvent, ProjectObject, "load", "Proje yüklendi", map[])
  {
    var st1 := UpdateLayerObjects(AssignSettings(st, doc));
    var r := Record(st1, SystemEvent, ProjectObject, "load", "Proje yüklendi", now);
    ExactFrame(st1, r);
    r
  }

  /** What a load leaves behind: the editor state either way, and on
      failure the reason shown to the user. */
  datatype LoadOutcome = Loaded(st: State) | Failed(error: LoadError, st: State)

  /** `load_data` as written. `file` is `None` when `requirements.json`
      cannot be read or parsed, which changes nothing. The four
      integer-keyed stores are converted and assigned one after the other, so
      a key that is not an integer aborts the load with the stores before it
      already replaced. Past the four stores the load completes. */
  function Load(live: State, file: Option<Document>, now: Timestamp): (r: LoadOutcome)
    ensures file.None? ==> r == Failed(Unreadable, live)
    ensures r.Failed? ==> r.st == live.(requirements := r.st.requirements, links := r.st.links, groups := r.st.groups, textBoxes := r.st.textBoxes)
    ensures r.Loaded? ==>
      && file.Some?
      && r.st.selected == live.selected
      && MembershipExact(r.st)
      && |r.st.history| >= 1
      && r.st.history[|r.st.history| - 1]
         == HistoryEntry(now, file.value.currentUser.GetOr(DefaultUser), SystemEvent, ProjectObject, "load", "Proje yüklendi", map[])
  {
    match file
    case None => Failed(Unreadable, live)
    case Some(doc) =>
      var reqs := IntKeyed(doc.requirements);
      if reqs.Err? then Failed(reqs.error, live)
      else
        var s1 := live.(requirements := FillRequirements(reqs.value, now));
        var links := IntKeyed(doc.links);
        if links.Err? then Failed(links.error, s1)
        else
          var s2 := s1.(links := links.value);
          var groups := IntKeyed(doc.groups);
          if groups.Err? then Failed(groups.error, s2)
          else
            var s3 := s2.(groups := FillGroups(groups.value));
            var texts := IntKeyed(doc.textBoxes);
            if texts.Err? then Failed(texts.error, s3)
            else Loaded(Finish(s3.(textBoxes := FillTextBoxes(texts.value)), doc, now))
  }

  /** Whether any key of an integer-keyed store fails to parse. */
  predicate HasBadKey<V>(stored: Option<Dict<string, V>>) {
    stored.Some? && exists k :: k in stored.value.items && ParseInt(k).None?
  }

  /** Converting a store fails exactly when one of its keys does not parse. */
  lemma BadKeyIffErr<V>(stored: Option<Dict<string, V>>)
    ensures IntKeyed(stored).Err? <==> HasBadKey(stored)
  {
  }

  /** A load fails exactly when the file is unreadable or one of the four
      integer-keyed stores has a key that does not parse. */
  lemma LoadFailsIffBadKey(live: State, doc: Document, now: Timestamp)
    ensures Load(live, Some(doc), now).Failed? <==>
      HasBadKey(doc.requirements) || HasBadKey(doc.links) || HasBadKey(doc.groups) || HasBadKey(doc.textBoxes)
  {
    BadKeyIffErr(doc.requirements);
    BadKeyIffErr(doc.links);
    BadKeyIffErr(doc.groups);
    BadKeyIffErr(doc.textBoxes);
  }

  /** The program reports a failed load, but requirements read before a bad
      links key stay in the editor: its requirements are the file's, its
      links, groups and text boxes the old ones. */
  lemma LoadPartiallyAssigns(live: State, doc: Document, now: Timestamp)
    requires !HasBadKey(doc.requirements) && HasBadKey(doc.links)
    ensures var r := Load(live, Some(doc), now);
      && r.Failed?
      && r.st.requirements == FillRequirements(IntKeyed(doc.requirements).value, now)
      && r.st.links == live.links && r.st.groups == live.groups && r.st.textBoxes == live.textBoxes
    ensures var r := Load(live, Some(doc), now);
      var stored := IntKeyed(doc.requirements).value;
      && r.st.requirements.keys == stored.keys
      && forall n :: n in stored.items && Complete(stored.items[n]) ==> StoreRequirement(r.st.requirements.items[n]) == stored.items[n]
  {
    BadKeyIffErr(doc.requirements);
    BadKeyIffErr(doc.links);
  }

  /** "x" is not an integer. */
  lemma LetterIsNoInt()
    ensures ParseInt("x") == None
  {
    var x := "x";
    assert !AllSpace(x) by { assert !IsSpace(x[0]); }
    assert Strip(x) == x;
  }

  /** An instance: an editor with no requirements loads a file whose
      requirements are saved under key "1" and whose links sit under key
      "x"; the load is reported as failed, yet the editor now holds
      requirement 1. */
  lemma LoadPartialWitness(live: State, doc: Document, reqs: Dict<int, StoredRequirement>, now: Timestamp)
    requires live.requirements.keys == [] && reqs.keys == [1]
    requires doc.requirements == Some(StringKeyed(reqs))
    requires doc.links.Some? && doc.links.value.keys == ["x"]
    ensures var r := Load(live, Some(doc), now);
      && r.Failed?
      && r.st.requirements.keys == [1]
      && r.st.requirements != live.requirements
  {
    IntKeyedStringKeyed(reqs);
    var links := IntKeyed(doc.links);
    assert links.Err? by {
      LetterIsNoInt();
      assert doc.links.value.keys[0] in doc.links.value.items;
    }
    assert Load(live, Some(doc), now) == Failed(links.error, live.(requirements := FillRequirements(reqs, now)));
  }

  /** The evidently intended load: every store is converted before anything
      is assigned, so a failed load leaves the editor exactly as it was. */
  function LoadAtomic(live: State, file: Option<Document>, now: Timestamp): (r: LoadOutcome)
    ensures r.Failed? ==> r.st == live
    ensures r.Loaded? ==> file.Some?
  {
    match file
    case None => Failed(Unreadable, live)
    case Some(doc) =>
      var reqs := IntKeyed(doc.requirements);
      var links := IntKeyed(doc.links);
      var groups := IntKeyed(doc.groups);
      var texts := IntKeyed(doc.textBoxes);
      if reqs.Err? then Failed(reqs.error, live)
      else if links.Err? then Failed(links.error, live)
      else if groups.Err? then Failed(groups.error, live)
      else if texts.Err? then Failed(texts.error, live)
      else
        var st := live.(requirements := FillRequirements(reqs.value, now), links := links.value,
                        groups := FillGroups(groups.value), textBoxes := FillTextBoxes(texts.value));
        Loaded(Finish(st, doc, now))
  }

  /** The corrected load fails on the same files with the same reason, and
      succeeds with the same result; it differs only in what a failure leaves. */
  lemma LoadAtomicAgrees(live: State, file: Option<Document>, now: Timestamp)
    ensures LoadAtomic(live, file, now).Failed? <==> Load(live, file, now).Failed?
    ensures LoadAtomic(live, file, now).Failed? ==> LoadAtomic(live, file, now).error == Load(live, file, now).error
    ensures LoadAtomic(live, file, now).Loaded? ==> LoadAtomic(live, file, now) == Load(live, file, now)
  {
  }

  /** Loading a file with none of the keys: empty stores, default user,
      prefix and counters, a history holding only the load entry; layers,
      the active layer and the zoom are the editor's own. */
  lemma LoadEmptyDocument(live: State, now: Timestamp)
    ensures var r := LoadAtomic(live, Some(Document(None, None, None, None, None, None, None, None, None, None, None, None, None, None, None)), now);
      && r.Loaded?
      && r.st.requirements.keys == [] && r.st.links.keys == [] && r.st.groups.keys == [] && r.st.textBoxes.keys == []
      && r.st.comments == map[] && r.st.reviews == map[]
      && r.st.currentUser == DefaultUser && r.st.idPrefix == DefaultPrefix
      && r.st.nextId == 1 && r.st.nextGroupId == 1 && r.st.nextTextId == 1
      && r.st.history == [HistoryEntry(now, DefaultUser, SystemEvent, ProjectObject, "load", "Proje yüklendi", map[])]
      && r.st.layers.keys == live.layers.keys
      && r.st.currentLayer == live.currentLayer && r.st.zoomFactor == live.zoomFactor
  {
  }

  /** Filling in a saved record gives the record back: every field was written. */
  lemma FillStoredRequirements(d: Dict<int, Requirement>, now: Timestamp)
    ensures FillRequirements(MapValues(d, (n: int, info: Requirement) => StoreRequirement(info)), now) == d
  {
    MapValuesUndone(d, (n: int, info: Requirement) => StoreRequirement(info), (n: int, s: StoredRequirement) => FillRequirement(s, now));
  }

  lemma FillStoredGroups(d: Dict<int, Group>)
    ensures FillGroups(MapValues(d, (n: int, g: Group) => StoreGroup(g))) == d
  {
    MapValuesUndone(d, (n: int, g: Group) => StoreGroup(g), (n: int, s: StoredGroup) => FillGroup(s));
  }

  lemma FillStoredTextBoxes(d: Dict<int, TextBox>)
    ensures FillTextBoxes(MapValues(d, (n: int, t: TextBox) => StoreTextBox(t))) == d
  {
    MapValuesUndone(d, (n: int, t: TextBox) => StoreTextBox(t), (n: int, s: StoredTextBox) => FillTextBox(s));
  }

  /** The saved requirements read back as the live ones without their handles. */
  lemma SavedRequirementsLoad(st: State, now: Timestamp)
    ensures var stored := IntKeyed(Save(st).requirements);
      stored.Ok? && FillRequirements(stored.value, now) == StripHandles(st).requirements
  {
    var d := MapValues(StripHandles(st).requirements, (n: int, info: Requirement) => StoreRequirement(info));
    assert Save(st).requirements == Some(StringKeyed(d));
    IntKeyedStringKeyed(d);
    FillStoredRequirements(StripHandles(st).requirements, now);
  }

  lemma SavedLinksLoad(st: State)
    ensures IntKeyed(Save(st).links) == Ok(st.links)
  {
    assert Save(st).links == Some(StringKeyed(st.links));
    IntKeyedStringKeyed(st.links);
  }

  lemma SavedGroupsLoad(st: State)
    ensures var stored := IntKeyed(Save(st).groups);
      stored.Ok? && FillGroups(stored.value) == StripHandles(st).groups
  {
    var d := MapValues(StripHandles(st).groups, (n: int, g: Group) => StoreGroup(g));
    assert Save(st).groups == Some(StringKeyed(d));
    IntKeyedStringKeyed(d);
    FillStoredGroups(StripHandles(st).groups);
  }

  lemma SavedTextBoxesLoad(st: State)
    ensures var stored := IntKeyed(Save(st).textBoxes);
      stored.Ok? && FillTextBoxes(stored.value) == StripHandles(st).textBoxes
  {
    var d := MapValues(StripHandles(st).textBoxes, (n: int, t: TextBox) => StoreTextBox(t));
    assert Save(st).textBoxes == Some(StringKeyed(d));
    IntKeyedStringKeyed(d);
    FillStoredTextBoxes(StripHandles(st).textBoxes);
  }

  /** A load whose four stores convert assigns them and finishes. */
  lemma LoadAtomicConverted(live: State, doc: Document, now: Timestamp, x: State)
    requires IntKeyed(doc.requirements).Ok? && IntKeyed(doc.links).Ok? && IntKeyed(doc.groups).Ok? && IntKeyed(doc.textBoxes).Ok?
    requires x == live.(requirements := FillRequirements(IntKeyed(doc.requirements).value, now), links := IntKeyed(doc.links).value,
                        groups := FillGroups(IntKeyed(doc.groups).value), textBoxes := FillTextBoxes(IntKeyed(doc.textBoxes).value))
    ensures LoadAtomic(live, Some(doc), now) == Loaded(Finish(x, doc, now))
  {
  }

  /** The settings a saved file carries are the saved editor's own. */
  lemma SavedSettings(st: State, x: State)
    requires var bare := StripHandles(st);
      x.requirements == bare.requirements && x.links == bare.links && x.groups == bare.groups && x.textBoxes == bare.textBoxes
    ensures AssignSettings(x, Save(st)) == StripHandles(st).(selected := x.selected)
  {
  }

  /** Save then load gives back the saved editor: every store, counter,
      setting and the history are as they were, plus the load entry; canvas
      handles are gone, the selection is the loading editor's own, and layer
      lists are rebuilt from the stores. */
  lemma SaveLoadRoundTrip(st: State, live: State, now: Timestamp)
    ensures var bare := StripHandles(st);
      LoadAtomic(live, Some(Save(st)), now)
      == Loaded(Record(UpdateLayerObjects(bare.(selected := live.selected)), SystemEvent, ProjectObject, "load", "Proje yüklendi", now))
  {
    var doc := Save(st);
    SavedRequirementsLoad(st, now);
    SavedLinksLoad(st);
    SavedGroupsLoad(st);
    SavedTextBoxesLoad(st);
    var x := live.(requirements := FillRequirements(IntKeyed(doc.requirements).value, now), links := IntKeyed(doc.links).value,
                   groups := FillGroups(IntKeyed(doc.groups).value), textBoxes := FillTextBoxes(IntKeyed(doc.textBoxes).value));
    LoadAtomicConverted(live, doc, now, x);
    SavedSettings(st, x);
  }

  /** Dropping handles and changing the selection keeps layer lists current. */
  lemma StrippedStaysCurrent(st: State, selected: set<ObjRef>)
    requires MembershipCurrent(st)
    ensures UpdateLayerObjects(StripHandles(st).(selected := selected)) == StripHandles(st).(selected := selected)
  {
    var x := StripHandles(st).(selected := selected);
    MembersFrame(x, st);
    assert MembershipCurrent(x);
    UpdateCurrentIsIdentity(x);
  }

  /** When the layer lists were current, loading what was saved changes
      nothing but the handles, the selection and the load entry. */
  lemma SaveLoadCurrent(st: State, live: State, now: Timestamp)
    requires MembershipCurrent(st)
    ensures var bare := StripHandles(st);
      LoadAtomic(live, Some(Save(st)), now)
      == Loaded(bare.(selected := live.selected,
                  history := AppendCapped(st.history, HistoryEntry(now, st.currentUser, SystemEvent, ProjectObject, "load", "Proje yüklendi", map[]))))
  {
    SaveLoadRoundTrip(st, live, now);
    StrippedStaysCurrent(st, live.selected);
  }
}

=== FILE: store.dfy ===
/** The element stores: creating requirements, groups and text boxes from the
    three counters, resizing with minimum sizes, moving elements between
    layers, the single-field edits, and deleting groups and text boxes.
    Most handlers refuse to touch an element whose layer is locked; the
    layer-change handlers and the manual text resize do not check. */
module Store {
  import opened Options
  import opened Dicts
  import opened Text
  import opened Domain
  import opened History
  import opened Layers

  /** Whether the requirement's layer is locked. */
  predicate ReqLocked(st: State, num: int)
    requires num in st.requirements.items
  {
    IsLayerLocked(st, st.requirements.items[num].layer)
  }

  predicate GroupLocked(st: State, gid: int)
    requires gid in st.groups.items
  {
    IsLayerLocked(st, st.groups.items[gid].layer)
  }

  predicate TextLocked(st: State, tid: int)
    requires tid in st.textBoxes.items
  {
    IsLayerLocked(st, st.textBoxes.items[tid].layer)
  }

  /** Every stored number is below the counter that hands out the next one. */
  ghost predicate CountersFresh(st: State) {
    && (forall n :: n in st.requirements.items ==> n < st.nextId)
    && (forall g :: g in st.groups.items ==> g < st.nextGroupId)
    && (forall t :: t in st.textBoxes.items ==> t < st.nextTextId)
  }

  // ---------------------------------------------------------------------
  // Creation

  /** The label a requirement numbered `num` gets: prefix then number. */
  function Label(prefix: string, num: int): string {
    prefix + IntToString(num)
  }

  /** The default title of a requirement labelled `rid`. */
  function DefaultTitle(rid: string): string {
    "Gereksinim " + rid
  }

  /** The record `create_requirement` builds for the next number. */
  function NewRequirement(st: State, kind: Kind, pos: Point, now: Timestamp): Requirement {
    var rid := Label(st.idPrefix, st.nextId);
    Requirement(rid, st.nextId, kind, pos, DefaultTitle(rid), "", [],
                if kind == Ust then "lightgreen" else "lightblue", st.currentLayer, Draft, st.currentUser, now, now, map[])
  }

  /** Stores `info` under the next number, advances the counter and rebuilds layer lists. */
  function Insert(st: State, info: Requirement): (r: State)
    ensures r == st.(requirements := r.requirements, nextId := st.nextId + 1, layers := r.layers)
    ensures r.requirements.items == st.requirements.items[st.nextId := info]
    ensures r.requirements.keys == if st.nextId in st.requirements.items then st.requirements.keys else st.requirements.keys + [st.nextId]
    ensures r.layers.keys == st.layers.keys
    ensures forall name :: IsLayerLocked(r, name) == IsLayerLocked(st, name)
    ensures MembershipExact(r)
  {
    UpdateLayerObjects(st.(requirements := Put(st.requirements, st.nextId, info), nextId := st.nextId + 1))
  }

  /** `create_requirement`: refused on a locked active layer. Otherwise the
      requirement takes the next number, is labelled prefix + number, starts
      as a Draft owned by the current user on the active layer (green for a
      parent, blue for a child), layer lists are rebuilt and one CREATE entry
      is recorded. */
  function CreateRequirement(st: State, kind: Kind, pos: Point, now: Timestamp): (r: State)
    ensures IsLayerLocked(st, st.currentLayer) ==> r == st
    ensures !IsLayerLocked(st, st.currentLayer) ==>
      && r == st.(requirements := r.requirements, nextId := st.nextId + 1, layers := r.layers, history := r.history)
      && r.requirements.items == st.requirements.items[st.nextId := NewRequirement(st, kind, pos, now)]
      && r.requirements.keys == (if st.nextId in st.requirements.items then st.requirements.keys else st.requirements.keys + [st.nextId])
      && r.history == AppendCapped(st.history, HistoryEntry(now, st.currentUser, Create, RequirementObject, IntToString(st.nextId),
                                                            DefaultTitle(Label(st.idPrefix, st.nextId)) + " oluşturuldu", map[]))
      && r.layers.keys == st.layers.keys
      && (forall name :: IsLayerLocked(r, name) == IsLayerLocked(st, name))
      && MembershipExact(r)
  {
    if IsLayerLocked(st, st.currentLayer) then st
    else
      var st1 := Insert(st, NewRequirement(st, kind, pos, now));
      var r := Record(st1, Create, RequirementObject, IntToString(st.nextId), DefaultTitle(Label(st.idPrefix, st.nextId)) + " oluşturuldu", now);
      assert r.layers == st1.layers && r.requirements == st1.requirements;
      ExactFrame(st1, r);
      r
  }

  /** While the counters are fresh, creation adds a new requirement and
      keeps every existing one; the counters stay fresh. */
  lemma CreateRequirementAdds(st: State, kind: Kind, pos: Point, now: Timestamp)
    requires CountersFresh(st)
    requires !IsLayerLocked(st, st.currentLayer)
    ensures var r := CreateRequirement(st, kind, pos, now);
      && CountersFresh(r)
      && r.requirements.items[st.nextId].num == st.nextId
      && r.requirements.items[st.nextId].id == Label(st.idPrefix, st.nextId)
      && r.requirements.items[st.nextId].status == Draft
      && r.requirements.items[st.nextId].layer == st.currentLayer
      && r.requirements.items[st.nextId].children == []
      && st.nextId !in st.requirements.items
      && Len(r.requirements) == Len(st.requirements) + 1
      && (forall n :: n in st.requirements.items ==> n in r.requirements.items && r.requirements.items[n] == st.requirements.items[n])
  {
    assert st.nextId !in st.requirements.items;
  }

  /** `create_group_box` (the menu places it at (200, 150)): refused on a
      locked active layer; otherwise a 300 x 200 light yellow group named
      "Grup N" with the next group number on the active layer. No history. */
  function CreateGroup(st: State, pos: Point): (r: State)
    ensures IsLayerLocked(st, st.currentLayer) ==> r == st
    ensures !IsLayerLocked(st, st.currentLayer) ==>
      var gid := st.nextGroupId;
      && r == st.(groups := r.groups, nextGroupId := gid + 1, layers := r.layers)
      && r.groups.items == st.groups.items[gid := Group(gid, "Grup " + IntToString(gid), pos, Size(300.0, 200.0), "lightyellow", st.currentLayer, map[])]
      && MembershipExact(r)
  {
    if IsLayerLocked(st, st.currentLayer) then st
    else
      var gid := st.nextGroupId;
      var g := Group(gid, "Grup " + IntToString(gid), pos, Size(300.0, 200.0), "lightyellow", st.currentLayer, map[]);
      UpdateLayerObjects(st.(groups := Put(st.groups, gid, g), nextGroupId := gid + 1))
  }

  /** `create_text_box` (the menu places it at (100, 300)): refused on a
      locked active layer; otherwise a 200 x 30 box reading "Yeni Text Box"
      in size 10 with the next text number on the active layer. No history. */
  function CreateTextBox(st: State, pos: Point): (r: State)
    ensures IsLayerLocked(st, st.currentLayer) ==> r == st
    ensures !IsLayerLocked(st, st.currentLayer) ==>
      var tid := st.nextTextId;
      && r == st.(textBoxes := r.textBoxes, nextTextId := tid + 1, layers := r.layers)
      && r.textBoxes.items == st.textBoxes.items[tid := TextBox(tid, "Yeni Text Box", pos, Size(200.0, 30.0), 10, st.currentLayer, map[])]
      && MembershipExact(r)
  {
    if IsLayerLocked(st, st.currentLayer) then st
    else
      var tid := st.nextTextId;
      var t := TextBox(tid, "Yeni Text Box", pos, Size(200.0, 30.0), 10, st.currentLayer, map[]);
      UpdateLayerObjects(st.(textBoxes := Put(st.textBoxes, tid, t), nextTextId := tid + 1))
  }

  /** Creating a group or a text box never overwrites one while the counters are fresh. */
  lemma CreateGroupAndTextAdd(st: State, pos: Point)
    requires CountersFresh(st)
    requires !IsLayerLocked(st, st.currentLayer)
    ensures CountersFresh(CreateGroup(st, pos)) && Len(CreateGroup(st, pos).groups) == Len(st.groups) + 1
    ensures CountersFresh(CreateTextBox(st, pos)) && Len(CreateTextBox(st, pos).textBoxes) == Len(st.textBoxes) + 1
  {
    assert st.nextGroupId !in st.groups.items;
    assert st.nextTextId !in st.textBoxes.items;
  }

  // ---------------------------------------------------------------------
  // Sizes

  const MinGroupWidth: real := 100.0
  const MinGroupHeight: real := 80.0
  const MinTextWidth: real := 50.0
  const MinTextHeight: real := 20.0

  /** Python `max(lo, v)`. */
  function AtLeast(lo: real, v: real): (r: real)
    ensures r >= lo && r >= v
    ensures r == lo || r == v
  {
    if v > lo then v else lo
  }

  /** No group is smaller than 100 x 80 and no text box smaller than 50 x 20. */
  ghost predicate SizesValid(st: State) {
    GroupSizesValid(st.groups.items) && TextSizesValid(st.textBoxes.items)
  }

  ghost predicate GroupSizesValid(groups: map<int, Group>) {
    forall g :: g in groups ==> groups[g].size.w >= MinGroupWidth && groups[g].size.h >= MinGroupHeight
  }

  ghost predicate TextSizesValid(texts: map<int, TextBox>) {
    forall t :: t in texts ==> texts[t].size.w >= MinTextWidth && texts[t].size.h >= MinTextHeight
  }

  lemma GroupSizesAcrossUpdate(groups: map<int, Group>, gid: int, g: Group)
    requires GroupSizesValid(groups)
    requires g.size.w >= MinGroupWidth && g.size.h >= MinGroupHeight
    ensures GroupSizesValid(groups[gid := g])
  {
  }

  lemma TextSizesAcrossUpdate(texts: map<int, TextBox>, tid: int, t: TextBox)
    requires TextSizesValid(texts)
    requires t.size.w >= MinTextWidth && t.size.h >= MinTextHeight
    ensures TextSizesValid(texts[tid := t])
  {
  }

  /** Sets a group's size, clamped to the minimum. */
  function ClampGroup(st: State, gid: int, w: real, h: real): (r: State)
    requires gid in st.groups.items
    ensures r == st.(groups := r.groups)
    ensures r.groups.keys == st.groups.keys
    ensures r.groups.items == st.groups.items[gid := st.groups.items[gid].(size := Size(AtLeast(MinGroupWidth, w), AtLeast(MinGroupHeight, h)))]
  {
    st.(groups := Put(st.groups, gid, st.groups.items[gid].(size := Size(AtLeast(MinGroupWidth, w), AtLeast(MinGroupHeight, h)))))
  }

  /** Sets a text box's size, clamped to the minimum. */
  function ClampText(st: State, tid: int, w: real, h: real): (r: State)
    requires tid in st.textBoxes.items
    ensures r == st.(textBoxes := r.textBoxes)
    ensures r.textBoxes.keys == st.textBoxes.keys
    ensures r.textBoxes.items == st.textBoxes.items[tid := st.textBoxes.items[tid].(size := Size(AtLeast(MinTextWidth, w), AtLeast(MinTextHeight, h)))]
  {
    st.(textBoxes := Put(st.textBoxes, tid, st.textBoxes.items[tid].(size := Size(AtLeast(MinTextWidth, w), AtLeast(MinTextHeight, h)))))
  }

  /** Dragging a group's resize handle to extent (w, h) from its corner; a
      group on a locked layer does not start resizing. */
  function ResizeGroupDrag(st: State, gid: int, w: real, h: real): (r: State)
    ensures gid !in st.groups.items || GroupLocked(st, gid) ==> r == st
    ensures gid in st.groups.items && !GroupLocked(st, gid) ==>
      && r == st.(groups := r.groups)
      && gid in r.groups.items
      && r.groups.items[gid].size.w >= MinGroupWidth && r.groups.items[gid].size.h >= MinGroupHeight
      && (w >= MinGroupWidth ==> r.groups.items[gid].size.w == w)
      && (h >= MinGroupHeight ==> r.groups.items[gid].size.h == h)
      && r.groups.items == st.groups.items[gid := r.groups.items[gid]]
      && r.groups.items[gid] == st.groups.items[gid].(size := r.groups.items[gid].size)
  {
    if gid !in st.groups.items || GroupLocked(st, gid) then st else ClampGroup(st, gid, w, h)
  }

  /** `resize_group_manual`: both typed numbers must be integers, otherwise
      nothing changes; a group on a locked layer cannot be resized. */
  function ResizeGroupManual(st: State, gid: int, wText: string, hText: string): (r: State)
    ensures gid !in st.groups.items || GroupLocked(st, gid) ==> r == st
    ensures ParseInt(wText).None? || ParseInt(hText).None? ==> r == st
    ensures gid in st.groups.items && !GroupLocked(st, gid) && ParseInt(wText).Some? && ParseInt(hText).Some? ==>
      r == ClampGroup(st, gid, ParseInt(wText).value as real, ParseInt(hText).value as real)
  {
    if gid !in st.groups.items || GroupLocked(st, gid) then st
    else
      match (ParseInt(wText), ParseInt(hText))
      case (Some(w), Some(h)) => ClampGroup(st, gid, w as real, h as real)
      case _ => st
  }

  /** Dragging a text box's resize handle; a box on a locked layer does not start resizing. */
  function ResizeTextDrag(st: State, tid: int, w: real, h: real): (r: State)
    ensures tid !in st.textBoxes.items || TextLocked(st, tid) ==> r == st
    ensures tid in st.textBoxes.items && !TextLocked(st, tid) ==>
      && r == st.(textBoxes := r.textBoxes)
      && tid in r.textBoxes.items
      && r.textBoxes.items[tid].size.w >= MinTextWidth && r.textBoxes.items[tid].size.h >= MinTextHeight
      && (w >= MinTextWidth ==> r.textBoxes.items[tid].size.w == w)
      && (h >= MinTextHeight ==> r.textBoxes.items[tid].size.h == h)
      && r.textBoxes.items == st.textBoxes.items[tid := r.textBoxes.items[tid]]
      && r.textBoxes.items[tid] == st.textBoxes.items[tid].(size := r.textBoxes.items[tid].size)
  {
    if tid !in st.textBoxes.items || TextLocked(st, tid) then st else ClampText(st, tid, w, h)
  }

  /** `resize_text_manual`: like the group version, but the layer lock is not consulted. */
  function ResizeTextManual(st: State, tid: int, wText: string, hText: string): (r: State)
    ensures tid !in st.textBoxes.items ==> r == st
    ensures ParseInt(wText).None? || ParseInt(hText).None? ==> r == st
    ensures tid in st.textBoxes.items && ParseInt(wText).Some? && ParseInt(hText).Some? ==>
      r == ClampText(st, tid, ParseInt(wText).value as real, ParseInt(hText).value as real)
  {
    if tid !in st.textBoxes.items then st
    else
      match (ParseInt(wText), ParseInt(hText))
      case (Some(w), Some(h)) => ClampText(st, tid, w as real, h as real)
      case _ => st
  }

  /** Creation keeps all sizes at or above the minimum. */
  lemma CreationKeepsSizes(st: State, kind: Kind, pos: Point, now: Timestamp)
    requires SizesValid(st)
    ensures SizesValid(CreateGroup(st, pos))
    ensures SizesValid(CreateTextBox(st, pos))
    ensures SizesValid(CreateRequirement(st, kind, pos, now))
  {
    if !IsLayerLocked(st, st.currentLayer) {
      var gid, tid := st.nextGroupId, st.nextTextId;
      GroupSizesAcrossUpdate(st.groups.items, gid,
                             Group(gid, "Grup " + IntToString(gid), pos, Size(300.0, 200.0), "lightyellow", st.currentLayer, map[]));
      TextSizesAcrossUpdate(st.textBoxes.items, tid, TextBox(tid, "Yeni Text Box", pos, Size(200.0, 30.0), 10, st.currentLayer, map[]));
      var r := CreateRequirement(st, kind, pos, now);
      assert r.groups == st.groups && r.textBoxes == st.textBoxes;
    }
  }

  /** Every group resize keeps all sizes at or above the minimum. */
  lemma GroupResizeKeepsSizes(st: State, gid: int, w: real, h: real, wText: string, hText: string)
    requires SizesValid(st)
    ensures SizesValid(ResizeGroupDrag(st, gid, w, h))
    ensures SizesValid(ResizeGroupManual(st, gid, wText, hText))
  {
    if gid in st.groups.items && !GroupLocked(st, gid) {
      var g := st.groups.items[gid];
      GroupSizesAcrossUpdate(st.groups.items, gid, g.(size := Size(AtLeast(MinGroupWidth, w), AtLeast(MinGroupHeight, h))));
      var pw, ph := ParseInt(wText), ParseInt(hText);
      if pw.Some? && ph.Some? {
        var mw, mh := pw.value as real, ph.value as real;
        GroupSizesAcrossUpdate(st.groups.items, gid, g.(size := Size(AtLeast(MinGroupWidth, mw), AtLeast(MinGroupHeight, mh))));
      }
    }
  }

  /** Every text resize keeps all sizes at or above the minimum. */
  lemma TextResizeKeepsSizes(st: State, tid: int, w: real, h: real, wText: string, hText: string)
    requires SizesValid(st)
    ensures SizesValid(ResizeTextDrag(st, tid, w, h))
    ensures SizesValid(ResizeTextManual(st, tid, wText, hText))
  {
    if tid in st.textBoxes.items {
      var t := st.textBoxes.items[tid];
      TextSizesAcrossUpdate(st.textBoxes.items, tid, t.(size := Size(AtLeast(MinTextWidth, w), AtLeast(MinTextHeight, h))));
      var pw, ph := ParseInt(wText), ParseInt(hText);
      if pw.Some? && ph.Some? {
        var mw, mh := pw.value as real, ph.value as real;
        TextSizesAcrossUpdate(st.textBoxes.items, tid, t.(size := Size(AtLeast(MinTextWidth, mw), AtLeast(MinTextHeight, mh))));
      }
    }
  }

  // ---------------------------------------------------------------------
  // Layer changes

  /** `change_req_layer`: the chosen layer is assigned (a cancelled dialog
      changes nothing) and layer lists are rebuilt; the lock of neither the
      old nor the new layer is consulted. */
  function ChangeReqLayer(st: State, num: int, answer: Option<string>): (r: State)
    ensures num !in st.requirements.items || !Given(answer) ==> r == st
    ensures num in st.requirements.items && Given(answer) ==>
      && r == st.(requirements := r.requirements, layers := r.layers)
      && r.requirements.keys == st.requirements.keys
      && r.requirements.items == st.requirements.items[num := st.requirements.items[num].(layer := answer.value)]
      && MembershipExact(r)
  {
    if num !in st.requirements.items || !Given(answer) then st
    else
      UpdateLayerObjects(st.(requirements := Put(st.requirements, num, st.requirements.items[num].(layer := answer.value))))
  }

  /** `change_group_layer`. */
  function ChangeGroupLayer(st: State, gid: int, answer: Option<string>): (r: State)
    ensures gid !in st.groups.items || !Given(answer) ==> r == st
    ensures gid in st.groups.items && Given(answer) ==>
      && r == st.(groups := r.groups, layers := r.layers)
      && r.groups.keys == st.groups.keys
      && r.groups.items == st.groups.items[gid := st.groups.items[gid].(layer := answer.value)]
      && MembershipExact(r)
  {
    if gid !in st.groups.items || !Given(answer) then st
    else
      UpdateLayerObjects(st.(groups := Put(st.groups, gid, st.groups.items[gid].(layer := answer.value))))
  }

  /** `change_text_layer`. */
  function ChangeTextLayer(st: State, tid: int, answer: Option<string>): (r: State)
    ensures tid !in st.textBoxes.items || !Given(answer) ==> r == st
    ensures tid in st.textBoxes.items && Given(answer) ==>
      && r == st.(textBoxes := r.textBoxes, layers := r.layers)
      && r.textBoxes.keys == st.textBoxes.keys
      && r.textBoxes.items == st.textBoxes.items[tid := st.textBoxes.items[tid].(layer := answer.value)]
      && MembershipExact(r)
  {
    if tid !in st.textBoxes.items || !Given(answer) then st
    else
      UpdateLayerObjects(st.(textBoxes := Put(st.textBoxes, tid, st.textBoxes.items[tid].(layer := answer.value))))
  }

  // ---------------------------------------------------------------------
  // Single-field edits

  /** `edit_title` (the definition that takes effect): number 0 is ignored,
      a locked requirement is refused, an empty or cancelled answer changes
      nothing. No history entry and no modification date. */
  function EditTitle(st: State, num: int, answer: Option<string>): (r: State)
    ensures num == 0 || num !in st.requirements.items || !Given(answer) ==> r == st
    ensures num in st.requirements.items && ReqLocked(st, num) ==> r == st
    ensures num != 0 && num in st.requirements.items && !ReqLocked(st, num) && Given(answer) ==>
      && r == st.(requirements := r.requirements)
      && r.requirements.keys == st.requirements.keys
      && r.requirements.items == st.requirements.items[num := st.requirements.items[num].(text := answer.value)]
  {
    if num == 0 || num !in st.requirements.items || ReqLocked(st, num) || !Given(answer) then st
    else st.(requirements := Put(st.requirements, num, st.requirements.items[num].(text := answer.value)))
  }

  /** `change_req_color`: the palette choice is applied unless the layer is locked. */
  function SetReqColor(st: State, num: int, color: string): (r: State)
    ensures num !in st.requirements.items || ReqLocked(st, num) ==> r == st
    ensures num in st.requirements.items && !ReqLocked(st, num) ==>
      && r == st.(requirements := r.requirements)
      && r.requirements.keys == st.requirements.keys
      && r.requirements.items == st.requirements.items[num := st.requirements.items[num].(color := color)]
  {
    if num !in st.requirements.items || ReqLocked(st, num) then st
    else st.(requirements := Put(st.requirements, num, st.requirements.items[num].(color := color)))
  }

  /** `change_group_color`. */
  function SetGroupColor(st: State, gid: int, color: string): (r: State)
    ensures gid !in st.groups.items || GroupLocked(st, gid) ==> r == st
    ensures gid in st.groups.items && !GroupLocked(st, gid) ==>
      && r == st.(groups := r.groups)
      && r.groups.keys == st.groups.keys
      && r.groups.items == st.groups.items[gid := st.groups.items[gid].(color := color)]
  {
    if gid !in st.groups.items || GroupLocked(st, gid) then st
    else st.(groups := Put(st.groups, gid, st.groups.items[gid].(color := color)))
  }

  /** `edit_group_name`: an empty or cancelled answer changes nothing. */
  function EditGroupName(st: State, gid: int, answer: Option<string>): (r: State)
    ensures gid !in st.groups.items || GroupLocked(st, gid) || !Given(answer) ==> r == st
    ensures gid in st.groups.items && !GroupLocked(st, gid) && Given(answer) ==>
      && r == st.(groups := r.groups)
      && r.groups.keys == st.groups.keys
      && r.groups.items == st.groups.items[gid := st.groups.items[gid].(name := answer.value)]
  {
    if gid !in st.groups.items || GroupLocked(st, gid) || !Given(answer) then st
    else st.(groups := Put(st.groups, gid, st.groups.items[gid].(name := answer.value)))
  }

  /** `edit_text_content`: an empty or cancelled answer changes nothing. */
  function EditTextContent(st: State, tid: int, answer: Option<string>): (r: State)
    ensures tid !in st.textBoxes.items || TextLocked(st, tid) || !Given(answer) ==> r == st
    ensures tid in st.textBoxes.items && !TextLocked(st, tid) && Given(answer) ==>
      && r == st.(textBoxes := r.textBoxes)
      && r.textBoxes.keys == st.textBoxes.keys
      && r.textBoxes.items == st.textBoxes.items[tid := st.textBoxes.items[tid].(content := answer.value)]
  {
    if tid !in st.textBoxes.items || TextLocked(st, tid) || !Given(answer) then st
    else st.(textBoxes := Put(st.textBoxes, tid, st.textBoxes.items[tid].(content := answer.value)))
  }

  /** Bounds of the font-size dialog of `change_text_font_size`. */
  const MinFontSize := 6
  const MaxFontSize := 24

  /** `change_text_font_size`: the integer dialog only returns a size from 6 to
      24, so the source's falsy-size test reduces to a cancelled dialog (None),
      which changes nothing. */
  function SetFontSize(st: State, tid: int, answer: Option<int>): (r: State)
    requires answer.None? || MinFontSize <= answer.value <= MaxFontSize
    ensures tid !in st.textBoxes.items || TextLocked(st, tid) || answer.None? ==> r == st
    ensures tid in st.textBoxes.items && !TextLocked(st, tid) && answer.Some? ==>
      && r == st.(textBoxes := r.textBoxes)
      && r.textBoxes.keys == st.textBoxes.keys
      && r.textBoxes.items == st.textBoxes.items[tid := st.textBoxes.items[tid].(fontSize := answer.value)]
  {
    if tid !in st.textBoxes.items || TextLocked(st, tid) then st
    else
      match answer
      case Some(size) => st.(textBoxes := Put(st.textBoxes, tid, st.textBoxes.items[tid].(fontSize := size)))
      case None => st
  }

  /** Every text box's font size lies in the dialog's range. */
  ghost predicate FontSizesInRange(st: State) {
    forall t :: t in st.textBoxes.items ==> MinFontSize <= st.textBoxes.items[t].fontSize <= MaxFontSize
  }

  /** New text boxes start at size 10 and the dialog offers only 6 to 24, so
      creation and font edits keep every font size in that range. */
  lemma FontSizesStayInRange(st: State, pos: Point, tid: int, answer: Option<int>)
    requires FontSizesInRange(st)
    requires answer.None? || MinFontSize <= answer.value <= MaxFontSize
    ensures FontSizesInRange(CreateTextBox(st, pos))
    ensures FontSizesInRange(SetFontSize(st, tid, answer))
  {
  }

  /** Replacing a requirement record by one on the same layer keeps the layer lists current. */
  lemma CurrentAcrossRequirementPut(st: State, num: int, info: Requirement)
    requires MembershipCurrent(st)
    requires num in st.requirements.items && info.layer == st.requirements.items[num].layer
    ensures MembershipCurrent(st.(requirements := Put(st.requirements, num, info)))
  {
    var r := st.(requirements := Put(st.requirements, num, info));
    forall name ensures Members(r, name) == Members(st, name) {
      RequirementsOnFrame(r.requirements, st.requirements, name);
    }
  }

  /** The same for a group record. */
  lemma CurrentAcrossGroupPut(st: State, gid: int, g: Group)
    requires MembershipCurrent(st)
    requires gid in st.groups.items && g.layer == st.groups.items[gid].layer
    ensures MembershipCurrent(st.(groups := Put(st.groups, gid, g)))
  {
    var r := st.(groups := Put(st.groups, gid, g));
    forall name ensures Members(r, name) == Members(st, name) {
      GroupsOnFrame(r.groups, st.groups, name);
    }
  }

  /** The same for a text box record. */
  lemma CurrentAcrossTextPut(st: State, tid: int, t: TextBox)
    requires MembershipCurrent(st)
    requires tid in st.textBoxes.items && t.layer == st.textBoxes.items[tid].layer
    ensures MembershipCurrent(st.(textBoxes := Put(st.textBoxes, tid, t)))
  {
    var r := st.(textBoxes := Put(st.textBoxes, tid, t));
    forall name ensures Members(r, name) == Members(st, name) {
      TextBoxesOnFrame(r.textBoxes, st.textBoxes, name);
    }
  }

  /** Title and colour edits of a requirement leave the layer lists current. */
  lemma RequirementEditsKeepLists(st: State, num: int, answer: Option<string>, color: string)
    requires MembershipCurrent(st)
    ensures MembershipCurrent(EditTitle(st, num, answer))
    ensures MembershipCurrent(SetReqColor(st, num, color))
  {
    if num in st.requirements.items && !ReqLocked(st, num) {
      var info := st.requirements.items[num];
      if num != 0 && Given(answer) {
        CurrentAcrossRequirementPut(st, num, info.(text := answer.value));
      }
      CurrentAcrossRequirementPut(st, num, info.(color := color));
    }
  }

  /** Colour and name edits of a group leave the layer lists current. */
  lemma GroupEditsKeepLists(st: State, gid: int, answer: Option<string>, color: string)
    requires MembershipCurrent(st)
    ensures MembershipCurrent(SetGroupColor(st, gid, color))
    ensures MembershipCurrent(EditGroupName(st, gid, answer))
  {
    if gid in st.groups.items && !GroupLocked(st, gid) {
      var g := st.groups.items[gid];
      CurrentAcrossGroupPut(st, gid, g.(color := color));
      if Given(answer) {
        CurrentAcrossGroupPut(st, gid, g.(name := answer.value));
      }
    }
  }

  /** Resizing a group leaves the layer lists current. */
  lemma GroupResizesKeepLists(st: State, gid: int, w: real, h: real, wText: string, hText: string)
    requires MembershipCurrent(st)
    ensures MembershipCurrent(ResizeGroupDrag(st, gid, w, h))
    ensures MembershipCurrent(ResizeGroupManual(st, gid, wText, hText))
  {
    if gid in st.groups.items && !GroupLocked(st, gid) {
      var g := st.groups.items[gid];
      CurrentAcrossGroupPut(st, gid, g.(size := Size(AtLeast(MinGroupWidth, w), AtLeast(MinGroupHeight, h))));
      var pw, ph := ParseInt(wText), ParseInt(hText);
      if pw.Some? && ph.Some? {
        var mw, mh := pw.value as real, ph.value as real;
        CurrentAcrossGroupPut(st, gid, g.(size := Size(AtLeast(MinGroupWidth, mw), AtLeast(MinGroupHeight, mh))));
      }
    }
  }

  /** Content and font edits of a text box leave the layer lists current. */
  lemma TextEditsKeepLists(st: State, tid: int, answer: Option<string>, size: Option<int>)
    requires MembershipCurrent(st)
    requires size.None? || MinFontSize <= size.value <= MaxFontSize
    ensures MembershipCurrent(EditTextContent(st, tid, answer))
    ensures MembershipCurrent(SetFontSize(st, tid, size))
  {
    if tid in st.textBoxes.items && !TextLocked(st, tid) {
      var t := st.textBoxes.items[tid];
      if Given(answer) {
        CurrentAcrossTextPut(st, tid, t.(content := answer.value));
      }
      if size.Some? {
        CurrentAcrossTextPut(st, tid, t.(fontSize := size.value));
      }
    }
  }

  /** Resizing a text box leaves the layer lists current. */
  lemma TextResizesKeepLists(st: State, tid: int, w: real, h: real, wText: string, hText: string)
    requires MembershipCurrent(st)
    ensures MembershipCurrent(ResizeTextDrag(st, tid, w, h))
    ensures MembershipCurrent(ResizeTextManual(st, tid, wText, hText))
  {
    if tid in st.textBoxes.items {
      var t := st.textBoxes.items[tid];
      if !TextLocked(st, tid) {
        var dragged := t.(size := Size(AtLeast(MinTextWidth, w), AtLeast(MinTextHeight, h)));
        CurrentAcrossTextPut(st, tid, dragged);
        assert ResizeTextDrag(st, tid, w, h) == st.(textBoxes := Put(st.textBoxes, tid, dragged));
      }
      var pw, ph := ParseInt(wText), ParseInt(hText);
      if pw.Some? && ph.Some? {
        var mw, mh := pw.value as real, ph.value as real;
        CurrentAcrossTextPut(st, tid, t.(size := Size(AtLeast(MinTextWidth, mw), AtLeast(MinTextHeight, mh))));
      }
    }
  }

  // ---------------------------------------------------------------------
  // Deleting groups and text boxes

  /** `delete_group`: refused on a locked layer; otherwise the group is gone
      and no layer lists it any more. The selection is not touched. */
  function DeleteGroup(st: State, gid: int): (r: State)
    ensures gid !in st.groups.items || GroupLocked(st, gid) ==> r == st
    ensures gid in st.groups.items && !GroupLocked(st, gid) ==>
      && r == st.(groups := r.groups, layers := r.layers)
      && r.groups.items == st.groups.items - {gid}
      && r.groups.keys == Without(st.groups.keys, gid)
      && MembershipExact(r)
  {
    if gid !in st.groups.items || GroupLocked(st, gid) then st
    else
      UpdateLayerObjects(st.(groups := Remove(st.groups, gid)))
  }

  /** `delete_text_box`: as for groups. */
  function DeleteTextBox(st: State, tid: int): (r: State)
    ensures tid !in st.textBoxes.items || TextLocked(st, tid) ==> r == st
    ensures tid in st.textBoxes.items && !TextLocked(st, tid) ==>
      && r == st.(textBoxes := r.textBoxes, layers := r.layers)
      && r.textBoxes.items == st.textBoxes.items - {tid}
      && r.textBoxes.keys == Without(st.textBoxes.keys, tid)
      && MembershipExact(r)
  {
    if tid !in st.textBoxes.items || TextLocked(st, tid) then st
    else
      UpdateLayerObjects(st.(textBoxes := Remove(st.textBoxes, tid)))
  }
}

=== FILE: text.dfy ===
/** The handful of Python string operations the editor's handlers rely on:
    `str.strip()`, slicing to a prefix, `str.split(",")` / `", ".join(...)`,
    `str(int)` and `int(str)`. Strings are sequences of characters. */
module Text {
  import opened Options

  /** Python's `str.isspace()` for a single character. */
  predicate IsSpace(c: char) {
    || c == ' '
    || ('\t' <= c <= '\r')
    || ('\U{1C}' <= c <= '\U{1F}')
    || c == '\U{85}' || c == '\U{A0}' || c == '\U{1680}'
    || ('\U{2000}' <= c <= '\U{200A}')
    || c == '\U{2028}' || c == '\U{2029}' || c == '\U{202F}' || c == '\U{205F}' || c == '\U{3000}'
  }

  predicate AllSpace(s: string) {
    forall i :: 0 <= i < |s| ==> IsSpace(s[i])
  }

  /** `s` neither starts nor ends with whitespace. */
  predicate Trimmed(s: string) {
    s == [] || (!IsSpace(s[0]) && !IsSpace(s[|s| - 1]))
  }

  /** Number of whitespace characters `s` starts with. */
  function LeadingSpaces(s: string, from: nat): (n: nat)
    requires from <= |s|
    requires forall k :: 0 <= k < from ==> IsSpace(s[k])
    ensures from <= n <= |s|
    ensures forall k :: 0 <= k < n ==> IsSpace(s[k])
    ensures n == |s| || !IsSpace(s[n])
    decreases |s| - from
  {
    if from < |s| && IsSpace(s[from]) then LeadingSpaces(s, from + 1) else from
  }

  /** The end of `s` once its trailing whitespace (not reaching below `lo`) is cut. */
  function TrailingEnd(s: string, lo: nat, to: nat): (m: nat)
    requires lo <= to <= |s|
    requires forall k :: to <= k < |s| ==> IsSpace(s[k])
    ensures lo <= m <= to
    ensures forall k :: m <= k < |s| ==> IsSpace(s[k])
    ensures m == lo || !IsSpace(s[m - 1])
  {
    if lo < to && IsSpace(s[to - 1]) then TrailingEnd(s, lo, to - 1) else to
  }

  /** Where the text of `s` begins once leading whitespace is skipped. */
  function StripStart(s: string): (i: nat)
    ensures i <= |s|
  {
    LeadingSpaces(s, 0)
  }

  /** Where the text of `s` ends once trailing whitespace is cut. */
  function StripEnd(s: string): (j: nat)
    ensures StripStart(s) <= j <= |s|
  {
    TrailingEnd(s, StripStart(s), |s|)
  }

  /** Python `s.strip()`: the slice of `s` between its leading and its
      trailing whitespace; everything cut away is whitespace and what is kept
      neither starts nor ends with whitespace. */
  function Strip(s: string): (r: string)
    ensures r == s[StripStart(s)..StripEnd(s)]
    ensures forall k :: 0 <= k < StripStart(s) ==> IsSpace(s[k])
    ensures forall k :: StripEnd(s) <= k < |s| ==> IsSpace(s[k])
    ensures Trimmed(r)
    ensures r == [] <==> AllSpace(s)
  {
    s[StripStart(s)..StripEnd(s)]
  }

  lemma StripTrimmed(s: string)
    requires Trimmed(s)
    ensures Strip(s) == s
  {
  }

  /** Python `s[:n]`. */
  function Take(s: string, n: nat): (r: string)
    ensures |r| == if |s| <= n then |s| else n
    ensures r == s[..|r|]
  {
    if |s| <= n then s else s[..n]
  }

  // ---------------------------------------------------------------------
  // split / join

  /** Python `s.split(sep)` for a one-character separator: the pieces
      between separators, empty pieces included, always at least one. */
  function Split(s: string, sep: char): (parts: seq<string>)
    ensures |parts| >= 1
    ensures forall i :: 0 <= i < |parts| ==> sep !in parts[i]
  {
    if |s| == 0 then [""]
    else
      var rest := Split(s[1..], sep);
      if s[0] == sep then [""] + rest else [[s[0]] + rest[0]] + rest[1..]
  }

  /** Python `sep.join(parts)`. */
  function Join(parts: seq<string>, sep: string): string {
    if |parts| == 0 then ""
    else if |parts| == 1 then parts[0]
    else parts[0] + sep + Join(parts[1..], sep)
  }

  /** Splitting on a separator and joining with it again gives back the input. */
  lemma {:induction false} SplitJoin(s: string, sep: char)
    ensures Join(Split(s, sep), [sep]) == s
  {
    if |s| > 0 {
      var rest := Split(s[1..], sep);
      SplitJoin(s[1..], sep);
      if s[0] == sep {
        assert Split(s, sep) == [""] + rest;
        assert ([""] + rest)[1..] == rest;
      } else {
        var head := [s[0]] + rest[0];
        var parts := [head] + rest[1..];
        assert Split(s, sep) == parts;
        if |rest| == 1 {
          assert Join(parts, [sep]) == head;
        } else {
          assert parts[1..] == rest[1..];
          assert Join(rest, [sep]) == rest[0] + [sep] + Join(rest[1..], [sep]);
        }
      }
    }
  }

  /** There is one piece more than there are separators. */
  lemma {:induction false} SplitCount(s: string, sep: char)
    ensures |Split(s, sep)| == multiset(s)[sep] + 1
  {
    if |s| > 0 {
      SplitCount(s[1..], sep);
      assert s == [s[0]] + s[1..];
      assert multiset(s) == multiset([s[0]]) + multiset(s[1..]);
    }
  }

  // ---------------------------------------------------------------------
  // str(int) and int(str)

  predicate IsDigit(c: char) {
    '0' <= c <= '9'
  }

  predicate AllDigits(s: string) {
    forall i :: 0 <= i < |s| ==> IsDigit(s[i])
  }

  function DigitChar(d: nat): (c: char)
    requires d < 10
    ensures IsDigit(c)
  {
    ('0' as int + d) as char
  }

  function DigitValue(c: char): (d: nat)
    requires IsDigit(c)
    ensures d < 10
  {
    c as int - '0' as int
  }

  /** The number a string of decimal digits denotes (0 for the empty string). */
  function DigitsValue(s: string): nat
    requires AllDigits(s)
  {
    if |s| == 0 then 0 else DigitsValue(s[..|s| - 1]) * 10 + DigitValue(s[|s| - 1])
  }

  /** Decimal digits of `n`, without leading zeros. */
  function NatToString(n: nat): (s: string)
    ensures |s| >= 1 && AllDigits(s)
    ensures |s| > 1 ==> s[0] != '0'
  {
    if n < 10 then [DigitChar(n)] else NatToString(n / 10) + [DigitChar(n % 10)]
  }

  /** Python `str(i)` for an integer. */
  function IntToString(i: int): (s: string)
    ensures |s| >= 1 && Trimmed(s)
  {
    if i < 0 then "-" + NatToString(-i) else NatToString(i)
  }

  /** Python `int(s)` on decimal text: surrounding whitespace, an optional
      sign, then one or more digits; anything else is a ValueError (None). */
  function ParseInt(raw: string): (r: Option<int>)
    ensures r.Some? ==> |Strip(raw)| >= 1
    ensures AllDigits(Strip(raw)) && |Strip(raw)| >= 1 ==> r == Some(DigitsValue(Strip(raw)))
  {
    var s := Strip(raw);
    if |s| >= 2 && (s[0] == '-' || s[0] == '+') && AllDigits(s[1..]) then
      var v: int := DigitsValue(s[1..]);
      Some(if s[0] == '-' then -v else v)
    else if |s| >= 1 && AllDigits(s) then
      Some(DigitsValue(s))
    else
      None
  }

  lemma {:induction false} NatToStringValue(n: nat)
    ensures DigitsValue(NatToString(n)) == n
  {
    if n >= 10 {
      var s := NatToString(n);
      var p := NatToString(n / 10);
      assert s == p + [DigitChar(n % 10)];
      assert s[..|s| - 1] == p;
      NatToStringValue(n / 10);
    }
  }

  /** `int(str(i)) == i`. */
  lemma ParseIntRoundTrip(i: int)
    ensures ParseInt(IntToString(i)) == Some(i)
  {
    var s := IntToString(i);
    StripTrimmed(s);
    if i < 0 {
      var d := NatToString(-i);
      assert s == "-" + d;
      assert s[1..] == d;
      assert !AllDigits(s) by {
        assert !IsDigit(s[0]);
      }
      NatToStringValue(-i);
    } else {
      assert !(s[0] == '-' || s[0] == '+') by {
        assert IsDigit(s[0]);
      }
      NatToStringValue(i);
    }
  }

  /** Distinct integers have distinct decimal renderings. */
  lemma IntToStringInjective(a: int, b: int)
    requires IntToString(a) == IntToString(b)
    ensures a == b
  {
    ParseIntRoundTrip(a);
    ParseIntRoundTrip(b);
  }
}

=== FILE: workflow.dfy ===
/** The review and status workflow: requesting a review, approving or
    rejecting it, and changing a requirement's status by hand. A review lives
    under the key `req_N` of its requirement; none of these handlers consults
    layer locks. */
module Workflow {
  import opened Options
  import opened Dicts
  import opened Text
  import opened Domain
  import opened History

  /** Strips every piece (`[r.strip() for r in parts]`). */
  function StripAll(parts: seq<string>): (r: seq<string>)
    ensures |r| == |parts|
    ensures forall i :: 0 <= i < |parts| ==> r[i] == Strip(parts[i]) && Trimmed(r[i])
  {
    seq(|parts|, i requires 0 <= i < |parts| => Strip(parts[i]))
  }

  /** The reviewer list typed as comma-separated names. */
  function Reviewers(text: string): (r: seq<string>)
    ensures |r| == multiset(text)[','] + 1
    ensures forall i :: 0 <= i < |r| ==> ',' !in r[i] && Trimmed(r[i])
  {
    SplitCount(text, ',');
    var parts := Split(text, ',');
    StripAll(parts)
  }

  /** The reviewer names are the typed text's comma-free pieces, each
      stripped: the pieces join back, with commas, to the typed text. */
  lemma ReviewersArePieces(text: string)
    ensures var r := Reviewers(text);
      exists parts :: && Join(parts, [',']) == text && |parts| == |r|
                      && forall i :: 0 <= i < |r| ==> ',' !in parts[i] && r[i] == Strip(parts[i])
  {
    SplitJoin(text, ',');
    var parts := Split(text, ',');
    assert Join(parts, [',']) == text && |parts| == |Reviewers(text)|;
  }

  /** The deadline typed as a day count; text that is not an integer leaves
      the review without a deadline. */
  function DeadlineOf(text: string, now: Timestamp): (d: Option<Deadline>)
    ensures d.Some? <==> ParseInt(text).Some?
    ensures d.Some? ==> d.value == DaysAfter(now, ParseInt(text).value)
  {
    match ParseInt(text)
    case Some(days) => Some(DaysAfter(now, days))
    case None => None
  }

  /** Sets a requirement's status and stamps its modification date. */
  function Restatus(st: State, num: int, status: Status, now: Timestamp): (r: State)
    requires num in st.requirements.items
    ensures r == st.(requirements := r.requirements)
    ensures r.requirements.keys == st.requirements.keys
    ensures r.requirements.items == st.requirements.items[num := st.requirements.items[num].(status := status, modifiedDate := now)]
  {
    st.(requirements := Put(st.requirements, num, st.requirements.items[num].(status := status, modifiedDate := now)))
  }

  /** The requirement's status mirrors the outcome of its review. */
  ghost predicate StatusMirrorsReview(st: State, num: int) {
    && num in st.requirements.items
    && ReqKey(num) in st.reviews
    && var status := st.requirements.items[num].status;
       match st.reviews[ReqKey(num)].status
       case Pending => status == InReview
       case ReviewApproved => status == Approved
       case ReviewRejected => status == Rejected
  }

  /** `request_review` + `save_review_request`: files a pending review under
      `req_N` (replacing any earlier one), numbered one past the count of
      reviews on file, and puts the requirement In Review with one REVIEW entry
      naming the reviewers. A number that is not a requirement fails before
      the dialog opens. */
  function RequestReview(st: State, num: int, reviewerText: string, notesText: string,
                         deadlineText: string, now: Timestamp): (r: State)
    ensures num !in st.requirements.items ==> r == st
    ensures num in st.requirements.items ==>
      var key := ReqKey(num);
      var reviewers := Reviewers(reviewerText);
      && key in r.reviews
      && r.reviews == st.reviews[key := Review(|st.reviews| + 1, st.currentUser, now, reviewers, Strip(notesText),
                                                DeadlineOf(deadlineText, now), Pending, None, None, None, None, None)]
      && r.requirements.keys == st.requirements.keys
      && r.requirements.items == st.requirements.items[num := st.requirements.items[num].(status := InReview, modifiedDate := now)]
      && r.history == AppendCapped(st.history, HistoryEntry(now, st.currentUser, ReviewRequested, RequirementObject,
                                                            IntToString(num), "Review istendi: " + Join(reviewers, ", "), map[]))
      && r == st.(reviews := r.reviews, requirements := r.requirements, history := r.history)
      && StatusMirrorsReview(r, num)
  {
    if num !in st.requirements.items then st
    else
      var key := ReqKey(num);
      var reviewers := Reviewers(reviewerText);
      var review := Review(|st.reviews| + 1, st.currentUser, now, reviewers, Strip(notesText),
                           DeadlineOf(deadlineText, now), Pending, None, None, None, None, None);
      var st1 := Restatus(st.(reviews := st.reviews[key := review]), num, InReview, now);
      Record(st1, ReviewRequested, RequirementObject, IntToString(num), "Review istendi: " + Join(reviewers, ", "), now)
  }

  /** `approve_review`: with no review on file nothing happens. The review is
      marked approved by the current user whatever its status was (a review
      already approved or rejected is approved again). When the number is no
      longer a requirement the handler fails after updating the review, so
      only the review changes. Otherwise the requirement becomes Approved and
      one APPROVE entry is recorded. */
  function Approve(st: State, num: int, now: Timestamp): (r: State)
    ensures ReqKey(num) !in st.reviews ==> r == st
    ensures ReqKey(num) in st.reviews ==>
      var key := ReqKey(num);
      && r.reviews == st.reviews[key := st.reviews[key].(status := ReviewApproved, approvedBy := Some(st.currentUser), approvedDate := Some(now))]
      && (num !in st.requirements.items ==> r == st.(reviews := r.reviews))
      && (num in st.requirements.items ==>
            && r.requirements.keys == st.requirements.keys
            && r.requirements.items == st.requirements.items[num := st.requirements.items[num].(status := Approved, modifiedDate := now)]
            && r.history == AppendCapped(st.history, HistoryEntry(now, st.currentUser, Action.Approve, RequirementObject,
                                                                  IntToString(num), "Review onaylandı", map[]))
            && r == st.(reviews := r.reviews, requirements := r.requirements, history := r.history)
            && StatusMirrorsReview(r, num))
  {
    var key := ReqKey(num);
    if key !in st.reviews then st
    else
      var st1 := st.(reviews := st.reviews[key := st.reviews[key].(status := ReviewApproved, approvedBy := Some(st.currentUser), approvedDate := Some(now))]);
      if num !in st.requirements.items then st1
      else Record(Restatus(st1, num, Approved, now), Action.Approve, RequirementObject, IntToString(num), "Review onaylandı", now)
  }

  /** `reject_review`: a cancelled or empty reason changes nothing, and so
      does a number with no review on file. Otherwise the review is marked
      rejected with the reason and the rejecting user; as with approval, a
      missing requirement stops the handler after the review is updated, and
      an existing one becomes Rejected with one REJECT entry quoting the reason. */
  function Reject(st: State, num: int, reason: Option<string>, now: Timestamp): (r: State)
    ensures !Given(reason) || ReqKey(num) !in st.reviews ==> r == st
    ensures Given(reason) && ReqKey(num) in st.reviews ==>
      var key := ReqKey(num);
      && r.reviews == st.reviews[key := st.reviews[key].(status := ReviewRejected, rejectedBy := Some(st.currentUser),
                                                         rejectedDate := Some(now), rejectionReason := Some(reason.value))]
      && (num !in st.requirements.items ==> r == st.(reviews := r.reviews))
      && (num in st.requirements.items ==>
            && r.requirements.keys == st.requirements.keys
            && r.requirements.items == st.requirements.items[num := st.requirements.items[num].(status := Rejected, modifiedDate := now)]
            && r.history == AppendCapped(st.history, HistoryEntry(now, st.currentUser, Action.Reject, RequirementObject,
                                                                  IntToString(num), "Review reddedildi: " + reason.value, map[]))
            && r == st.(reviews := r.reviews, requirements := r.requirements, history := r.history)
            && StatusMirrorsReview(r, num))
  {
    var key := ReqKey(num);
    if !Given(reason) || key !in st.reviews then st
    else
      var st1 := st.(reviews := st.reviews[key := st.reviews[key].(status := ReviewRejected, rejectedBy := Some(st.currentUser),
                                                                   rejectedDate := Some(now), rejectionReason := Some(reason.value))]);
      if num !in st.requirements.items then st1
      else Record(Restatus(st1, num, Rejected, now), Action.Reject, RequirementObject, IntToString(num), "Review reddedildi: " + reason.value, now)
  }

  /** `change_status` + `save_status`: choosing the status the requirement
      already has changes nothing; any other choice sets it, stamps the
      modification date and records one MODIFY entry naming old and new status. */
  function ChangeStatus(st: State, num: int, status: Status, now: Timestamp): (r: State)
    ensures num !in st.requirements.items ==> r == st
    ensures num in st.requirements.items && st.requirements.items[num].status == status ==> r == st
    ensures num in st.requirements.items && st.requirements.items[num].status != status ==>
      && r.requirements.keys == st.requirements.keys
      && r.requirements.items == st.requirements.items[num := st.requirements.items[num].(status := status, modifiedDate := now)]
      && r.history == AppendCapped(st.history, HistoryEntry(now, st.currentUser, Modify, RequirementObject, IntToString(num),
                                                            "Durum değiştirildi: " + st.requirements.items[num].status.Name() + " → " + status.Name(), map[]))
      && r == st.(requirements := r.requirements, history := r.history)
  {
    if num !in st.requirements.items then st
    else
      var current := st.requirements.items[num].status;
      if status == current then st
      else Record(Restatus(st, num, status, now), Modify, RequirementObject, IntToString(num),
                  "Durum değiştirildi: " + current.Name() + " → " + status.Name(), now)
  }

  lemma ReqKeysDiffer(m: int, num: int)
    requires m != num
    ensures ReqKey(m) != ReqKey(num)
  {
    if ReqKey(m) == ReqKey(num) {
      ReqKeyInjective(m, num);
    }
  }

  /** Requesting a review touches only the requirement and the review it is
      given: every other requirement record and every other review is kept. */
  lemma RequestIsLocal(st: State, num: int, m: int, reviewerText: string, notesText: string,
                       deadlineText: string, now: Timestamp)
    requires m != num
    ensures var r := RequestReview(st, num, reviewerText, notesText, deadlineText, now);
      && (m in st.requirements.items ==> m in r.requirements.items && r.requirements.items[m] == st.requirements.items[m])
      && (ReqKey(m) in st.reviews ==> ReqKey(m) in r.reviews && r.reviews[ReqKey(m)] == st.reviews[ReqKey(m)])
  {
    ReqKeysDiffer(m, num);
  }

  /** Approving touches only the requirement and the review it is given. */
  lemma ApproveIsLocal(st: State, num: int, m: int, now: Timestamp)
    requires m != num
    ensures var r := Approve(st, num, now);
      && (m in st.requirements.items ==> m in r.requirements.items && r.requirements.items[m] == st.requirements.items[m])
      && (ReqKey(m) in st.reviews ==> ReqKey(m) in r.reviews && r.reviews[ReqKey(m)] == st.reviews[ReqKey(m)])
  {
    ReqKeysDiffer(m, num);
  }

  /** Rejecting touches only the requirement and the review it is given. */
  lemma RejectIsLocal(st: State, num: int, m: int, reason: Option<string>, now: Timestamp)
    requires m != num
    ensures var r := Reject(st, num, reason, now);
      && (m in st.requirements.items ==> m in r.requirements.items && r.requirements.items[m] == st.requirements.items[m])
      && (ReqKey(m) in st.reviews ==> ReqKey(m) in r.reviews && r.reviews[ReqKey(m)] == st.reviews[ReqKey(m)])
  {
    ReqKeysDiffer(m, num);
  }

  /** Whatever the reviews' earlier state, requesting a review and then
      rejecting it with a reason leaves the requirement Rejected and the
      review, still the one just requested, rejected with that reason. */
  lemma RequestThenReject(st: State, num: int, reviewerText: string, notesText: string, deadlineText: string,
                          reason: string, t1: Timestamp, t2: Timestamp)
    requires num in st.requirements.items
    requires reason != ""
    ensures var r := Reject(RequestReview(st, num, reviewerText, notesText, deadlineText, t1), num, Some(reason), t2);
      && num in r.requirements.items && ReqKey(num) in r.reviews
      && r.requirements.items[num].status == Rejected
      && r.reviews[ReqKey(num)].status == ReviewRejected
      && r.reviews[ReqKey(num)].rejectionReason == Some(reason)
      && r.reviews[ReqKey(num)].requestedBy == st.currentUser
      && r.reviews[ReqKey(num)].reviewers == Reviewers(reviewerText)
  {
    var r1 := RequestReview(st, num, reviewerText, notesText, deadlineText, t1);
    assert ReqKey(num) in r1.reviews && num in r1.requirements.items;
    assert r1.reviews[ReqKey(num)].requestedBy == st.currentUser;
    assert r1.reviews[ReqKey(num)].reviewers == Reviewers(reviewerText);
  }

  /** The same two steps leave their two entries, request then rejection, at
      the end of the history. */
  lemma RequestThenRejectHistory(st: State, num: int, reviewerText: string, notesText: string, deadlineText: string,
                                 reason: string, t1: Timestamp, t2: Timestamp)
    requires num in st.requirements.items
    requires reason != ""
    ensures var r := Reject(RequestReview(st, num, reviewerText, notesText, deadlineText, t1), num, Some(reason), t2);
      && |r.history| >= 2
      && r.history[|r.history| - 1].action == Action.Reject
      && r.history[|r.history| - 2].action == ReviewRequested
  {
    var r1 := RequestReview(st, num, reviewerText, notesText, deadlineText, t1);
    var e1 := HistoryEntry(t1, st.currentUser, ReviewRequested, RequirementObject, IntToString(num),
                           "Review istendi: " + Join(Reviewers(reviewerText), ", "), map[]);
    var e2 := HistoryEntry(t2, st.currentUser, Action.Reject, RequirementObject, IntToString(num), "Review reddedildi: " + reason, map[]);
    assert r1.history == AppendCapped(st.history, e1);
    assert ReqKey(num) in r1.reviews && num in r1.requirements.items && r1.currentUser == st.currentUser;
    AppendTwice(st.history, e1, e2);
  }
}
